=== FILE: README.md ===
# trpc-nest decorators: a Dafny model of the core

This project models the core of the trpc-nest decorators library. The library lets a NestJS application expose controller methods as tRPC procedures. The model covers:

- **Decorator metadata** (`Metadata`). `@Router`, `@Query`, `@Mutation` and `@Subscription` attach a record to a class or method. A path defaults to the method name.
- **Building a controller's sub-router** (`RouterBuilder`). This is `generateRouter`, `createProcedure` and `getTrpcControllers`. A sub-router is a procedure table keyed by path, and the last method that declares a path wins.
- **The aggregation service** (`AutoRouter`). It keeps a registry from router name to entry, in insertion order, with router names derived from the prefix or the class name. It covers the procedure→method map, discovery over the global controller registry (which never replaces an entry), manual registration (which does), the main router with one sub-router per name, `getRegisteredControllers` and `callProcedure` with its three error messages.
- **The global service slot** (`MainRouterAccess`). These are `setAutoRouterService`, `createMainRouter` and `getRegisteredControllers`. The slot holds a reference: the live service objects form a heap, the slot holds an index into it, and the lifecycle hooks and registration update the referenced object in place.
- **The HTTP endpoint** (`HttpDispatch`). It covers:
  - splitting `router.method`;
  - single POST and GET calls;
  - detecting GET batches, then splitting, trimming and unwrapping their `json` inputs;
  - POST batches keyed like the request body;
  - status codes;
  - the sorted or static procedure listing;
  - grouping by router and the info endpoint.
- **Streaming helpers** (`Streaming`). These are:
  - `createStreamingResponse` as chunks with waits between them;
  - `createSSEStream` framing with the heartbeat rule;
  - the `createSSEResponse` header merge;
  - `getContentTypeFromInput` and `isAsyncIterable`.
- **The example stores** (`Store`, `Users`, `Posts`). These are in-memory sequences with first-match lookup, fresh ids (largest id plus one), splice deletion, partial update and order-preserving filters.

Supporting modules:

- `Wrappers` has `Option` and `Result`.
- `Text` has the JavaScript string operations the code uses: `split`, `trim`, `toLowerCase`, `includes`, and index keys.
- `OrderedMap` covers insertion-ordered `Map`s, and plain objects whose keys are neither integer-like nor inherited from `Object.prototype`. `set` replaces a value in place or appends a new key.
- `Json` has JSON values, JavaScript truthiness, property reads including the `null` TypeError, and `Object.entries`.
- `Sorting` is `Array.prototype.sort` on strings.

Everything runs as pure functions over immutable values. Stateful objects become a state value passed in and returned. A controller method is an abstract function `Option<Json> -> Result<Json, string>`: `None` means it is called with no argument, and `Err` means it throws. A zod schema is an abstract total parse. `decodeURIComponent` plus `JSON.parse` is an abstract partial parse. Time is a parameter.

Notes on the code's behaviour, which the model follows:

- A procedure name is split on every `.`, and only segments 0 and 1 are used.
- `createProcedure` ignores the output schema.
- The error messages are the code's exact strings.

## Model

| member | source | states |
|---|---|---|
| Metadata.Router | packages/trpc-nest-decorators/src/decorators.ts:12-19 | the router path is the prefix when it is a non-empty string and '' otherwise; the procedures map starts empty |
| Metadata.WithRouter | packages/trpc-nest-decorators/src/decorators.ts:14-17 | attaching router metadata sets exactly that record and leaves the class's name, methods and method metadata as they were |
| Metadata.Query | packages/trpc-nest-decorators/src/decorators.ts:24-36 | records kind query, the property key as method, the schemas unchanged, and the given path unless it is absent or empty, in which case the key |
| Metadata.Mutation | packages/trpc-nest-decorators/src/decorators.ts:41-53 | the same record with kind mutation |
| Metadata.Subscription | packages/trpc-nest-decorators/src/decorators.ts:58-70 | the same record with kind subscription |
| Metadata.Describe | packages/trpc-nest-decorators/src/decorators.ts:26-33 | the shared record: the path is the key or a given non-empty path; kind, method and schemas as given |
| Metadata.WithProcedure | packages/trpc-nest-decorators/src/decorators.ts:28-34 | attaching method metadata overwrites that method's record and leaves every other method's record as it was |
| Metadata.LastMethodFor | packages/trpc-nest-decorators/src/trpc-router.service.ts:33-49 | the method a path ends up bound to is an annotated non-constructor own method declaring that path, and there is none exactly when no such method exists |
| RouterBuilder.CreateProcedure | packages/trpc-nest-decorators/src/trpc-router.service.ts:55-104 | fails exactly for an unknown kind, with "Unknown procedure type: " and the tag; otherwise keeps kind, input schema, instance and method |
| RouterBuilder.Invoke | packages/trpc-nest-decorators/src/trpc-router.service.ts:62-99 | with an input schema the method gets the parsed input and a rejected input never reaches it; without one it is called with no argument, for every kind |
| RouterBuilder.Call | packages/trpc-nest-decorators/src/trpc-router.service.ts:67-71 | calling a present method returns exactly what it returns; a missing instance or method is an error |
| RouterBuilder.ProceduresFromSpec | packages/trpc-nest-decorators/src/trpc-router.service.ts:30-50 | the table loop succeeds iff every annotated kind is known, binds each path to the procedure of the last method declaring it, and never duplicates a key |
| RouterBuilder.GenerateRouter | packages/trpc-nest-decorators/src/trpc-router.service.ts:20-53 | fails naming the class without router metadata; otherwise succeeds iff all kinds are known, and its keys are exactly the annotated own method paths, each bound to the last method declaring it |
| RouterBuilder.TrpcControllers | packages/trpc-nest-decorators/src/trpc-router.service.ts:109-114 | keeps exactly the classes with router metadata: each such input class is kept, and every kept class is an input class with metadata |
| RouterBuilder.TrpcControllersAppend | packages/trpc-nest-decorators/src/trpc-router.service.ts:110-113 | the filter distributes over concatenation, so relative order is kept |
| AutoRouter.DerivedName | packages/trpc-nest-decorators/src/auto-router.service.ts:186-192 | drops one trailing "Controller", lower-cases the first character and keeps the rest |
| AutoRouter.RouterName | packages/trpc-nest-decorators/src/auto-router.service.ts:181-193 | a non-empty metadata path is the name exactly; otherwise the derived name |
| AutoRouter.UsersControllerName | packages/trpc-nest-decorators/src/auto-router.service.ts:187-192 | UsersController is named users |
| AutoRouter.DerivedNameOfController | packages/trpc-nest-decorators/src/auto-router.service.ts:188-192 | BaseController with a capitalised base is named base with its first letter lower-cased |
| AutoRouter.MethodMapFromSpec | packages/trpc-nest-decorators/src/auto-router.service.ts:202-213 | the loop binds each path to the last annotated method declaring it and keeps keys distinct |
| AutoRouter.ProcedureToMethodMap | packages/trpc-nest-decorators/src/auto-router.service.ts:198-216 | one key per metadata path of the annotated own methods, the last declaring method wins, constructor is never a target |
| AutoRouter.RouterAgreesWithMethodMap | packages/trpc-nest-decorators/src/auto-router.service.ts:198-216 | the built sub-router and the service's method map have the same paths and call the same methods |
| AutoRouter.CheckAndRegister | packages/trpc-nest-decorators/src/auto-router.service.ts:88-127 | no metadata, a taken name or a throwing constructor leave the registry unchanged; otherwise exactly one entry is appended under the derived name |
| AutoRouter.Discover | packages/trpc-nest-decorators/src/auto-router.service.ts:70-83 | discovery keeps router names unique |
| AutoRouter.DiscoverKeepsEntries | packages/trpc-nest-decorators/src/auto-router.service.ts:104-106 | discovery never replaces or moves an existing entry |
| AutoRouter.DiscoverCovers | packages/trpc-nest-decorators/src/auto-router.service.ts:75-77 | after discovery every global entry would be skipped by another pass |
| AutoRouter.DiscoverSkipped | packages/trpc-nest-decorators/src/auto-router.service.ts:100-106 | a pass over entries that are all skipped leaves the registry unchanged |
| AutoRouter.DiscoverIdempotent | packages/trpc-nest-decorators/src/auto-router.service.ts:70-83 | discovering twice equals discovering once |
| AutoRouter.MainFromSpec | packages/trpc-nest-decorators/src/auto-router.service.ts:169-176 | the build loop puts each entry's sub-router under its name and skips entries whose generation throws |
| AutoRouter.BuildMainRouter | packages/trpc-nest-decorators/src/auto-router.service.ts:166-179 | the main router holds, under each registered name, exactly that entry's generated sub-router, and nothing for failing entries or unknown names |
| AutoRouter.NewService | packages/trpc-nest-decorators/src/auto-router.service.ts:26-36 | empty registry, no main router, discovery on iff the options ask for it |
| AutoRouter.OnModuleInit | packages/trpc-nest-decorators/src/auto-router.service.ts:38-44 | leaves the service consistent: the cached router is the one built from the registry |
| AutoRouter.EnableAutoDiscovery | packages/trpc-nest-decorators/src/auto-router.service.ts:62-65 | turns discovery on and changes nothing else |
| AutoRouter.OnApplicationBootstrap | packages/trpc-nest-decorators/src/auto-router.service.ts:46-57 | with discovery off nothing changes; with it on the registry is the discovered one; consistency is preserved |
| AutoRouter.GetMainRouter | packages/trpc-nest-decorators/src/auto-router.service.ts:132-137 | returns the cached router, or builds and caches it; on a consistent service it is the built router |
| AutoRouter.RegisterController | packages/trpc-nest-decorators/src/auto-router.service.ts:142-164 | without metadata nothing changes; otherwise the name's entry is set, the other entries are untouched, the keys keep their order with a new name appended at the end, and the main router is rebuilt |
| AutoRouter.RegisteredRouterIsServed | packages/trpc-nest-decorators/src/auto-router.service.ts:154-162 | after registration the main router serves the new controller's sub-router under its name |
| AutoRouter.RegisteredControllers | packages/trpc-nest-decorators/src/auto-router.service.ts:221-227 | one record per entry in registry order, with its name, class name and prefix |
| AutoRouter.NamesOfRegistered | packages/trpc-nest-decorators/src/auto-router.service.ts:222-223 | the listed names are the registry keys in order |
| AutoRouter.Names | packages/trpc-nest-decorators/src/trpc-http.controller.ts:367 | the name list has one name per controller record, position by position |
| AutoRouter.CallProcedure | packages/trpc-nest-decorators/src/auto-router.service.ts:232-254 | unknown router: the message lists the registered names; unresolvable procedure: the message lists the procedure keys; otherwise the method's result unchanged, or its error rewrapped as "Error calling r.p: msg" |
| AutoRouter.CallAfterRegister | packages/trpc-nest-decorators/src/auto-router.service.ts:239-253 | after registration a path call reaches the last method declaring it, with the input as its argument |
| MainRouterAccess.SetAutoRouterService | packages/trpc-nest-decorators/src/main-router.ts:8-10 | the slot refers to the service just set; no service object changes |
| MainRouterAccess.CreateMainRouter | packages/trpc-nest-decorators/src/main-router.ts:16-22 | fails with the not-initialised message while the slot is empty; else answers the referenced service's main router as that object is now, caching a built router in that same object |
| MainRouterAccess.GetRegisteredControllers | packages/trpc-nest-decorators/src/main-router.ts:27-33 | fails with the same message while the slot is empty; else lists the referenced service's controllers as they are now |
| MainRouterAccess.ModuleInit | packages/trpc-nest-decorators/src/auto-router.service.ts:38-44 | the service publishes a reference to itself and builds its router in place, so it is consistent; every other service object is untouched |
| MainRouterAccess.Bootstrap | packages/trpc-nest-decorators/src/auto-router.service.ts:46-57 | the bootstrap hook updates the service object in place; the slot and every other object are untouched |
| MainRouterAccess.Register | packages/trpc-nest-decorators/src/auto-router.service.ts:142-164 | registration updates the service object in place; the slot and every other object are untouched |
| MainRouterAccess.LatestSetWins | packages/trpc-nest-decorators/src/main-router.ts:8-10 | after two sets both entry points answer for the second service |
| MainRouterAccess.InitialisedServesBuiltRouter | packages/trpc-nest-decorators/src/main-router.ts:16-22 | once initialised, createMainRouter serves the router built from the registry |
| MainRouterAccess.DiscoveryVisibleThroughSlot | packages/trpc-nest-decorators/src/main-router.ts:16-33 | discovery that runs after the service published itself is seen through the slot: both entry points answer for the discovered registry |
| MainRouterAccess.RegistrationVisibleThroughSlot | packages/trpc-nest-decorators/src/main-router.ts:16-33 | a controller registered after publication is listed through the slot under its router name, and createMainRouter serves the rebuilt router |
| Sorting.InsertSorted | packages/trpc-nest-decorators/src/trpc-http.controller.ts:433 | inserting into a sorted list keeps it sorted |
| Sorting.Sort | packages/trpc-nest-decorators/src/trpc-http.controller.ts:433 | the result is sorted and a permutation of the input |
| Text.Split | packages/trpc-nest-decorators/src/trpc-http.controller.ts:345 | at least one part, and no part contains the separator |
| Text.JoinSplit | packages/trpc-nest-decorators/src/trpc-http.controller.ts:345 | joining the parts with the separator gives the string back |
| Text.SplitJoin | packages/trpc-nest-decorators/src/trpc-http.controller.ts:329 | splitting a join of separator-free parts gives the parts back |
| Text.Trim | packages/trpc-nest-decorators/src/trpc-http.controller.ts:59 | the result is an infix of the input obtained by removing white space only, with no white space left at either end |
| Text.ParsePrintIndex | packages/trpc-nest-decorators/src/trpc-http.controller.ts:82-83 | a printed index read back as a property key is that index |
| OrderedMap.Put | packages/trpc-nest-decorators/src/auto-router.service.ts:154-159 | the key then maps to the new value, other keys are untouched, an existing key keeps its position, and a new key is appended |
| Json.Prop | packages/trpc-nest-decorators/src/trpc-http.controller.ts:83 | reading from null fails; objects answer their field; arrays answer exactly canonical in-range index keys |
| Json.Entries | packages/trpc-nest-decorators/src/trpc-http.controller.ts:200 | an object's entries are its fields; an array's are its elements keyed by printed index |
| Json.ArrayEntriesDistinct | packages/trpc-nest-decorators/src/trpc-http.controller.ts:200 | an array's entry keys are pairwise distinct |
| Json.OptProp | packages/trpc-nest-decorators/src/trpc-http.controller.ts:83 | optional chaining on undefined or null yields undefined instead of throwing |
| HttpDispatch.ProcedureParts | packages/trpc-nest-decorators/src/trpc-http.controller.ts:345-347 | accepted parts are non-empty and dot-free |
| HttpDispatch.ProcedurePartsOf | packages/trpc-nest-decorators/src/trpc-http.controller.ts:345 | router.method, with any further dotted segments, splits into router and method |
| HttpDispatch.ProcedurePartsExact | packages/trpc-nest-decorators/src/trpc-http.controller.ts:345-347 | for any name, written as its dot-free segments: accepted exactly when there are at least two segments and neither of the first two is empty, and then those two are the parts |
| HttpDispatch.ProcedurePartsRejects | packages/trpc-nest-decorators/src/trpc-http.controller.ts:347-356 | posts, .x and posts. are rejected |
| HttpDispatch.Flatten | packages/trpc-nest-decorators/src/trpc-http.controller.ts:417-431 | exactly the names r.p: every procedure p of every sub-router r is listed as r.p, and every listed name is of that form |
| HttpDispatch.StaticMethods | packages/trpc-nest-decorators/src/trpc-http.controller.ts:491-500 | the five base names, plus search exactly for users and getByAuthor exactly for posts |
| HttpDispatch.StaticProcedures | packages/trpc-nest-decorators/src/trpc-http.controller.ts:487-508 | exactly the names name.method: every controller with each of its assumed methods is listed, and every listed name is of that form |
| HttpDispatch.StaticProceduresAppend | packages/trpc-nest-decorators/src/trpc-http.controller.ts:490-505 | controllers are listed one after the other: the listing of two lists is the two listings concatenated |
| HttpDispatch.StaticProceduresOne | packages/trpc-nest-decorators/src/trpc-http.controller.ts:491-504 | one controller contributes name.m for each assumed method m, in order, and nothing else |
| HttpDispatch.AvailableProcedures | packages/trpc-nest-decorators/src/trpc-http.controller.ts:412-438 | the introspected names sorted, or the static listing when introspection throws |
| HttpDispatch.FallbackCoversRegistered | packages/trpc-nest-decorators/src/trpc-http.controller.ts:479-482 | the fallback lists every assumed method of each registered router |
| HttpDispatch.ExecuteProcedure | packages/trpc-nest-decorators/src/trpc-http.controller.ts:344-374 | a malformed name gives 400 with the example posts.getAll and the listing as availableProcedures; an unknown router gives 404 with the router names as available; otherwise callProcedure decides, its failures being plain errors |
| HttpDispatch.HandleSingleProcedure | packages/trpc-nest-decorators/src/trpc-http.controller.ts:19-42 | success is 201 echoing procedure and input; a failure keeps its status (else 500) and message (else "Internal server error") |
| HttpDispatch.ProcedureList | packages/trpc-nest-decorators/src/trpc-http.controller.ts:59 | one trimmed name per comma-separated part |
| HttpDispatch.SlotInput | packages/trpc-nest-decorators/src/trpc-http.controller.ts:83 | the slot's json field if truthy, else the slot if truthy, else {}; always truthy |
| HttpDispatch.SlotInputUnwraps | packages/trpc-nest-decorators/src/trpc-http.controller.ts:83 | a json envelope is unwrapped |
| HttpDispatch.SlotInputPlainAndMissing | packages/trpc-nest-decorators/src/trpc-http.controller.ts:83 | a plain slot is used as is and a missing slot gets {} |
| HttpDispatch.EntryOf | packages/trpc-nest-decorators/src/trpc-http.controller.ts:86-100 | a success carries its result; a failure carries code INTERNAL_ERROR and the error's message, which is "Http Exception" for the framework's 400/404 and "Operation failed" for a plain error with an empty message |
| HttpDispatch.GetBatchEntries | packages/trpc-nest-decorators/src/trpc-http.controller.ts:77-107 | exactly the keys "0".."n-1", slot i holding the outcome of name i on its slot input |
| HttpDispatch.GetBatchKeysDistinct | packages/trpc-nest-decorators/src/trpc-http.controller.ts:81-82 | no batch key repeats, so no failure hides another slot |
| HttpDispatch.GetBatch | packages/trpc-nest-decorators/src/trpc-http.controller.ts:55-123 | unparseable input gives 400; null input gives 500 with the raw names; otherwise 200 with the batch |
| HttpDispatch.GetSingle | packages/trpc-nest-decorators/src/trpc-http.controller.ts:133-175 | unparseable input gives 400; HTTP exceptions pass through; plain errors give 500 |
| HttpDispatch.HandleGet | packages/trpc-nest-decorators/src/trpc-http.controller.ts:48-127 | the batch path exactly when batch is "1" and the path has a comma, else the single path |
| HttpDispatch.SingleNameIsNotBatch | packages/trpc-nest-decorators/src/trpc-http.controller.ts:55-126 | batch=1 with one name takes the single path |
| HttpDispatch.MalformedInputIs400 | packages/trpc-nest-decorators/src/trpc-http.controller.ts:62-150 | unparseable input is a 400 on both GET paths |
| HttpDispatch.ProcessBatchOperation | packages/trpc-nest-decorators/src/trpc-http.controller.ts:379-399 | non-object operations and missing, empty or non-string procedure names fail with their two messages; a missing input defaults to {}; a dispatch failure yields its message, or "Procedure execution failed" when that is empty; no failure message is empty |
| HttpDispatch.PostEntry | packages/trpc-nest-decorators/src/trpc-http.controller.ts:201-213 | a success slot carries the result; a failure slot carries code INTERNAL_ERROR and exactly the operation's error message, which is never empty |
| HttpDispatch.HandleBatchRequests | packages/trpc-nest-decorators/src/trpc-http.controller.ts:181-231 | a non-object body is a 400 whose message is the generic exception name; otherwise 201 with exactly the body's keys, each key answered by its own operation's slot, and keys distinct when the body's are |
| HttpDispatch.HandleBatchRequestsCorrected | packages/trpc-nest-decorators/src/trpc-http.controller.ts:186-194 | a non-object body is a 400 carrying the format message; valid bodies as before |
| HttpDispatch.BatchFormatMessageLost | packages/trpc-nest-decorators/src/trpc-http.controller.ts:221-229 | for every non-object body the handler as written loses the format message that the corrected handler keeps |
| HttpDispatch.PostBatchIsolatesFailures | packages/trpc-nest-decorators/src/trpc-http.controller.ts:196-220 | two operations always yield two slots, whatever either does |
| HttpDispatch.GroupFromListed | packages/trpc-nest-decorators/src/trpc-http.controller.ts:328-336 | the grouping loop appends each well-formed name's method to its router's list, in input order |
| HttpDispatch.GroupFromPresent | packages/trpc-nest-decorators/src/trpc-http.controller.ts:331-333 | the loop creates a router's list exactly when some well-formed name uses that router |
| HttpDispatch.GroupProceduresByRouter | packages/trpc-nest-decorators/src/trpc-http.controller.ts:325-339 | a router is present iff some well-formed name uses it, with its methods in input order; each router appears once, in order of first use |
| HttpDispatch.GroupFromKeys | packages/trpc-nest-decorators/src/trpc-http.controller.ts:331-333 | the loop keeps existing keys in place and appends a router's key when its first name comes |
| HttpDispatch.GroupFromDistinct | packages/trpc-nest-decorators/src/trpc-http.controller.ts:331-333 | the loop never adds a key twice |
| HttpDispatch.MethodsUnderSound | packages/trpc-nest-decorators/src/trpc-http.controller.ts:329-334 | a method appears under a router only if some name pairs them |
| HttpDispatch.MethodsUnderComplete | packages/trpc-nest-decorators/src/trpc-http.controller.ts:329-334 | every well-formed name's method appears under its router |
| HttpDispatch.TrpcInfo | packages/trpc-nest-decorators/src/trpc-http.controller.ts:237-273 | the listing is the introspected names sorted (a sorted permutation) or the static fallback for the listed controllers; the total is its length; one controller record per registry entry, in order, with its key as name, its class name and its prefix; a router is grouped exactly when some listed name uses it, with its methods in listing order |
| Streaming.ChunkOf | packages/trpc-nest-decorators/src/trpc-v11-utils.ts:55 | a slice is yielded bare exactly when it has one element |
| Streaming.ChunksFromLength | packages/trpc-nest-decorators/src/trpc-v11-utils.ts:53 | the loop from offset i yields the least count of b-slices covering the rest |
| Streaming.ChunkAt | packages/trpc-nest-decorators/src/trpc-v11-utils.ts:53-55 | chunk k starts at i+k*b and stops at the end or b later |
| Streaming.ChunksShape | packages/trpc-nest-decorators/src/trpc-v11-utils.ts:53-55 | ceil(n/b) chunks, chunk k being data[k*b..min((k+1)*b,n)] |
| Streaming.ChunksRoundTrip | packages/trpc-nest-decorators/src/trpc-v11-utils.ts:53-55 | flattening the chunks gives the data; empty data yields nothing |
| Streaming.DefaultYieldsElements | packages/trpc-nest-decorators/src/trpc-v11-utils.ts:51-55 | with the default batch size each element is yielded bare |
| Streaming.PacedYields | packages/trpc-nest-decorators/src/trpc-v11-utils.ts:57-59 | waits never change the values, never end a run, and number one fewer than the values when the delay is positive |
| Streaming.PacedStep | packages/trpc-nest-decorators/src/trpc-v11-utils.ts:53-60 | one loop turn extends the paced prefix by one value |
| Streaming.StreamingResponse | packages/trpc-nest-decorators/src/trpc-v11-utils.ts:47-61 | the generator's events are the chunks paced with one wait between consecutive chunks |
| Streaming.RenderRoundTrip | packages/trpc-nest-decorators/src/trpc-v11-utils.ts:137-142 | frames end with a blank line; a data frame's payload can be read back |
| Streaming.SsePayloads | packages/trpc-nest-decorators/src/trpc-v11-utils.ts:132-143 | one data frame per value, in order |
| Streaming.SseMarks | packages/trpc-nest-decorators/src/trpc-v11-utils.ts:133-143 | a heartbeat precedes exactly the data frames whose values are due, and every heartbeat is directly followed by a data frame, so heartbeats never stack |
| Streaming.SseNoStackedHeartbeats | packages/trpc-nest-decorators/src/trpc-v11-utils.ts:135-142 | at most one heartbeat per value, written directly before that value's data frame |
| Streaming.SseEndsWithData | packages/trpc-nest-decorators/src/trpc-v11-utils.ts:133-143 | a non-empty stream never ends on a heartbeat: its last frame is a data frame |
| Streaming.DueAt | packages/trpc-nest-decorators/src/trpc-v11-utils.ts:136-143 | value i is due iff more than heartbeatMs passed since the previous emission or the start |
| Streaming.SseFraming | packages/trpc-nest-decorators/src/trpc-v11-utils.ts:126-145 | the full framing rule: one frame per value in order, heartbeat iff the gap exceeds heartbeatMs, never a trailing heartbeat, and never two heartbeats without a data frame between them |
| Streaming.SpreadSpec | packages/trpc-nest-decorators/src/trpc-v11-utils.ts:114-121 | caller headers override and other default values are kept; the keys are the defaults in their positions followed by the caller's new keys in the caller's order |
| Streaming.FreshKeysMembers | packages/trpc-nest-decorators/src/trpc-v11-utils.ts:114-121 | the keys the spread appends are exactly the caller keys missing from the defaults |
| Streaming.CreateSseResponse | packages/trpc-nest-decorators/src/trpc-v11-utils.ts:107-124 | headers as spread over the five defaults; the body carries each value's payload in order, with a heartbeat before a value exactly when more than the caller's heartbeatMs (30000 when absent) passed since the previous emission, never two heartbeats in a row, and ends on data |
| Streaming.ContentTypeFromInput | packages/trpc-nest-decorators/src/trpc-v11-utils.ts:220-226 | one of the three content types |
| Streaming.ContentTypeClassification | packages/trpc-nest-decorators/src/trpc-v11-utils.ts:220-226 | form data wins; any binary class gives octet-stream; everything else gives JSON |
| Streaming.AsyncIterableIff | packages/trpc-nest-decorators/src/trpc-v11-utils.ts:212-214 | null and undefined are never async-iterable; other values are exactly when the async-iterator slot is a function |
| Store.FindIndex | example/src/users/users.controller.ts:64 | the first position holding the id, or none exactly when no record has it |
| Store.Lookup | example/src/users/users.controller.ts:41 | the first record holding the id, or none exactly when no record has it |
| Store.DeleteFirst | example/src/users/users.controller.ts:64-71 | reports false and leaves the records unchanged exactly when no record has the id; otherwise removes exactly the first record holding it |
| Store.MaxId | example/src/users/users.controller.ts:50 | at least 0, at least every id, and either 0 or some record's id |
| Store.NextId | example/src/users/users.controller.ts:50 | one more than the largest existing id, or 1 for an empty store: above every id, with the id below it 0 or an existing id |
| Store.RemoveAt | example/src/users/users.controller.ts:70 | exactly one element removed, the others in order |
| Store.AppendFresh | example/src/users/users.controller.ts:49-56 | appending a fresh id keeps ids unique |
| Store.RemovePreservesUnique | example/src/users/users.controller.ts:63-71 | removal keeps ids unique and removes the id |
| Store.Filter | example/src/users/users.controller.ts:79-82 | keeps only records of the input that pass |
| Store.FilterSpec | example/src/posts/posts.controller.ts:70-72 | keeps exactly the passing records and distributes over concatenation |
| Users.InitialUnique | example/src/users/users.controller.ts:27-30 | the initial users have unique ids |
| Users.GetById | example/src/users/users.controller.ts:40-43 | the first user with the id, or null exactly when there is none |
| Users.Create | example/src/users/users.controller.ts:48-58 | appends exactly one user echoing the input, whose id is one more than the largest existing id (1 when there is none) |
| Users.Delete | example/src/users/users.controller.ts:63-72 | removes exactly the first matching user and reports true; otherwise false and unchanged |
| Users.StoreInvariant | example/src/users/users.controller.ts:48-72 | create and delete keep ids unique; the created user is found by id; a deleted id is gone |
| Users.Search | example/src/users/users.controller.ts:77-83 | exactly the users whose lower-cased name or email contains the lower-cased query |
| Users.SearchKeepsOrder | example/src/users/users.controller.ts:79-82 | search keeps the store's order |
| Users.SearchCaseInsensitive | example/src/users/users.controller.ts:78 | the query's case does not matter, and the empty query finds everyone |
| Users.CreatedUserIsFound | example/src/users/users.controller.ts:77-83 | a new user is found by searching its own name |
| Posts.GetById | example/src/posts/posts.controller.ts:62-65 | the first post with the id, or null exactly when there is none |
| Posts.GetByAuthor | example/src/posts/posts.controller.ts:70-72 | exactly the posts by that author |
| Posts.GetByAuthorKeepsOrder | example/src/posts/posts.controller.ts:71 | listing by author keeps the store's order |
| Posts.Create | example/src/posts/posts.controller.ts:77-89 | appends one post echoing the input, carrying the two clock readings as createdAt and updatedAt, whose id is one more than the largest existing id (1 when there is none) |
| Posts.Replace | example/src/posts/posts.controller.ts:102-103 | a field changes only to a supplied non-empty value |
| Posts.Update | example/src/posts/posts.controller.ts:94-108 | a missing id gives null and no change; otherwise only title, content and updatedAt of the first match change, in place |
| Posts.Delete | example/src/posts/posts.controller.ts:113-122 | removes exactly the first matching post and reports true; otherwise false and unchanged |
| Posts.StoreInvariant | example/src/posts/posts.controller.ts:77-122 | every operation keeps ids unique; a deleted id is gone; repeating an update changes nothing more |
| Posts.UpdateKeepsIds | example/src/posts/posts.controller.ts:94-108 | an update keeps ids unique, and repeating it changes nothing more |
| Posts.EmptyUpdateOnlyStamps | example/src/posts/posts.controller.ts:101-106 | an update supplying nothing only stamps updatedAt |

## Left out

- Dependency injection, lifecycle wiring, `Reflector`/`SetMetadata` and logging. Metadata is a field of the class value, and a lifecycle hook is a function on the service state.
- The router library (`initTRPC`, `t.router`, procedure builders). A sub-router is an ordered map from path to a procedure record. Running one is `RouterBuilder.Invoke`.
- tRPC's internal `_def` introspection (`getRouterIntrospectionInfo`, `extractProceduresFromSubRouters`). The introspected listing is the dotted names of the main router. Whether introspection throws is an input.
- HttpDispatch.TrpcInfo: the fixed descriptive texts, the version string and the introspection block are omitted.
- Timestamps in responses, `new Date()` and `Date.now()`. They are omitted from bodies, or given as parameters, one per clock reading.
- `Promise.all` concurrency and shared state between slots. Handlers are pure functions of their input, so batch slots are computed one after the other and each slot depends only on its own operation. With the stateful example controllers this is not so in the code: a slot may return a live reference (the users array, a post object) that a later slot of the same batch changes before the answer is serialised, so the earlier slot is sent with the change.
- HttpDispatch.HandleBatchRequests: the answer's keys follow the body's order. A JavaScript object instead lists integer-like keys first, in ascending order, and then the other keys in insertion order, which here is the order in which the operations complete. The contract fixes the body's order, which the code does not follow: for the body `{"b": …, "1": …}` the model answers with keys `b`, `1` and the code with `1`, `b`. The key set and each key's slot are as in the code.
- HttpDispatch.HandleBatchRequests: a body key `__proto__` is answered like any other key. In the code, `batchResults['__proto__'] = result` calls the prototype setter instead of creating a property, so that key is missing from the 201 answer.
- HttpDispatch.GroupProceduresByRouter: a router named after an `Object.prototype` property (`constructor`, `toString`, `__proto__` and the like, as derived from a class `ConstructorController` without a prefix) is grouped like any other. In the code, `grouped[routerName]` then already holds the inherited value, `.push` is not a function, and GET /trpc answers 500.
- Json.Entries: an object's fields are taken to be already in JavaScript property order, and distinct. `JSON.parse` never yields a duplicate key, so `Json` values with duplicate keys are not produced by the code, though the datatype admits them.
- AutoRouter.DerivedName: lower-cases ASCII letters only. JavaScript's `toLowerCase` is Unicode-wide, so `ÉtatController` would be named `état` by the code but keeps its `É` here.
- `setTimeout`. A wait is a `Delay` event.
- `createStreamFromObservable`, because its loop never terminates (its completion flag is never set).
- Subscription observables.
- The content-type zod parsers and the form-data validators.
- `isWebEnvironment` and `isNodeEnvironment`.
- The `TrpcRouterProvider`, the `AppRouter`/`InjectTrpcRouter` decorators, and the module and example-app wiring.
- The v11 example controllers and client examples.
- The legacy aliases `TrpcRouter`, `TrpcQuery`, `TrpcMutation` and `TrpcSubscription`. They are the same functions as `Router`, `Query`, `Mutation` and `Subscription`, so they need no separate model.
- `getGlobalControllerRegistry` is imported by the aggregation service but is not defined in decorators.ts. The global registry is an input sequence of (class, entry) pairs.
- Streaming.StreamingResponse: requires a batch size of at least 1. With 0 or less the source loop never ends.
- Users.Search: lower-casing covers ASCII letters only. JavaScript's `toLowerCase` is Unicode-wide.
- Text.Trim: the white space removed is the ASCII set only. JavaScript's `trim` also removes Unicode spaces.
- Sorting.Sort: compares characters by code point. JavaScript compares UTF-16 code units, which differs only outside the Basic Multilingual Plane.
- HttpDispatch.GetBatch: a parsed input of `null` is the only input that makes slot reading throw (500). The message is V8's wording for reading property "0" of null.
- AutoRouter.CallProcedure: a handler error whose message is empty is not distinguished from one with a message. The source would print the error object itself.
- RouterBuilder.Invoke: the output schema is ignored, as in the code. Async results are modelled as plain results.
- Numbers are integers. Floating point, `NaN` and `Math.max` over huge arrays are not modelled.
- The getAll queries return the store unchanged and need no model.

## Findings

| source | as written | input that shows it | evidently intended | confidence | as-written member | corrected member |
|---|---|---|---|---|---|---|
| packages/trpc-nest-decorators/src/trpc-http.controller.ts:186-229 | The 400 for a non-object batch body is thrown inside the handler's own try. The catch rewraps it using `error.message`, which the framework sets to "Http Exception" for an object body, so the client gets 400 with error "Http Exception". | a POST /trpc body that reaches the handler as `null`, for example a JSON `null` under the Fastify adapter (the Express adapter's strict JSON parser rejects a top-level `null` with its own 400 before the handler runs, so under Express the defect is not reachable with a JSON body) | a 400 carrying "Invalid batch request format. Expected object with numbered keys.", as the GET handlers do by rethrowing HTTP exceptions | not executed; high, given the framework's message rule | HttpDispatch.HandleBatchRequests (discrepancy shown by HttpDispatch.BatchFormatMessageLost) | HttpDispatch.HandleBatchRequestsCorrected |

=== FILE: auto_router.dfy ===
/** The aggregation service: the registry of controllers by router name,
    router-name derivation, discovery, manual registration, the main router
    and direct procedure calls. */
module AutoRouter {
  import opened Wrappers
  import opened Json
  import opened Metadata
  import opened OrderedMap
  import opened RouterBuilder
  import Text

  /** One registry entry: the class, the live instance, the router metadata
      and the procedure path -> method name map. */
  datatype Registered = Registered(
    cls: ClassDef,
    instance: Option<Instance>,
    meta: RouterMetadata,
    procedureToMethod: OMap<string>)

  /** The main router: one sub-router per router name. */
  type MainRouter = OMap<SubRouter>

  datatype Service = Service(
    registered: OMap<Registered>,
    mainRouter: Option<MainRouter>,
    autoDiscovery: bool)

  datatype ModuleOptions = ModuleOptions(autoDiscovery: Option<bool>)

  /** An entry of the process-wide controller registry. */
  datatype GlobalEntry = GlobalEntry(instance: Option<Instance>)

  type GlobalRegistry = seq<(ClassDef, GlobalEntry)>

  /** What `getRegisteredControllers` reports for one entry. */
  datatype ControllerInfo = ControllerInfo(name: string, className: string, prefix: string)

  const Suffix: string := "Controller"

  // ---------------------------------------------------------------------
  // Router names

  /** The name derived from a class name: one trailing `Controller` dropped,
      then the first character lower-cased. */
  function DerivedName(className: string): (r: string)
    ensures Text.EndsWith(className, Suffix) ==> |r| + |Suffix| == |className|
    ensures !Text.EndsWith(className, Suffix) ==> |r| == |className|
    ensures |r| > 0 ==> r[0] == Text.LowerChar(className[0])
    ensures forall i :: 0 < i < |r| ==> r[i] == className[i]
  {
    var base := if Text.EndsWith(className, Suffix) then className[..|className| - |Suffix|] else className;
    if base == "" then "" else [Text.LowerChar(base[0])] + base[1..]
  }

  /** `getRouterName`: a non-empty metadata path is the name as it stands;
      otherwise the name is derived from the class name. */
  function RouterName(cls: ClassDef, meta: RouterMetadata): (r: string)
    ensures meta.path != "" ==> r == meta.path
    ensures meta.path == "" ==> r == DerivedName(cls.name)
  {
    if meta.path != "" then meta.path else DerivedName(cls.name)
  }

  /** `UsersController` is registered as `users`. */
  lemma UsersControllerName()
    ensures DerivedName("UsersController") == "users"
  {
    assert Text.EndsWith("UsersController", Suffix);
  }

  /** A class named `<Base>Controller` with a capitalised base is registered
      under the base with its first letter in lower case. */
  lemma DerivedNameOfController(base: string)
    requires base != [] && Text.IsUpper(base[0])
    ensures DerivedName(base + Suffix) == [Text.LowerChar(base[0])] + base[1..]
    ensures DerivedName(base + Suffix)[0] != base[0]
  {
    var n := base + Suffix;
    assert n[|n| - |Suffix|..] == Suffix;
    assert n[..|n| - |Suffix|] == base;
  }

  // ---------------------------------------------------------------------
  // Procedure -> method maps

  /** The `createProcedureToMethodMap` loop over `ns`, continuing from `acc`. */
  function MethodMapFrom(cls: ClassDef, acc: OMap<string>, ns: seq<string>): OMap<string>
    decreases |ns|
  {
    if ns == [] then acc
    else if Annotated(cls, ns[0]) then MethodMapFrom(cls, Put(acc, cls.procMeta[ns[0]].path, ns[0]), ns[1..])
    else MethodMapFrom(cls, acc, ns[1..])
  }

  lemma {:induction false} MethodMapFromSpec(cls: ClassDef, acc: OMap<string>, ns: seq<string>)
    ensures forall p :: Get(MethodMapFrom(cls, acc, ns), p) ==
              (match LastMethodFor(cls, ns, p) case Some(m) => Some(m) case None => Get(acc, p))
    ensures DistinctKeys(acc) ==> DistinctKeys(MethodMapFrom(cls, acc, ns))
    decreases |ns|
  {
    if ns != [] {
      if Annotated(cls, ns[0]) {
        var acc' := Put(acc, cls.procMeta[ns[0]].path, ns[0]);
        MethodMapFromSpec(cls, acc', ns[1..]);
        if DistinctKeys(acc) {
          PutDistinct(acc, cls.procMeta[ns[0]].path, ns[0]);
        }
      } else {
        MethodMapFromSpec(cls, acc, ns[1..]);
      }
    }
  }

  /** `createProcedureToMethodMap`: exactly one key per metadata path of the
      annotated own methods; each path names the last method declaring it;
      `constructor` is never a target. */
  function ProcedureToMethodMap(cls: ClassDef): (r: OMap<string>)
    ensures DistinctKeys(r)
    ensures forall p :: Get(r, p) == LastMethodFor(cls, cls.ownNames, p)
    ensures forall p :: p in Keys(r) <==> p in PathsOf(cls, cls.ownNames)
    ensures forall p :: Get(r, p) != Some("constructor")
  {
    MethodMapFromSpec(cls, [], cls.ownNames);
    var r := MethodMapFrom(cls, [], cls.ownNames);
    assert forall p :: p in Keys(r) <==> p in PathsOf(cls, cls.ownNames) by {
      forall p ensures p in Keys(r) <==> p in PathsOf(cls, cls.ownNames) {
        assert Get<string>([], p).None?;
        assert p in Keys(r) <==> LastMethodFor(cls, cls.ownNames, p).Some?;
        if p in PathsOf(cls, cls.ownNames) {
          var m :| m in cls.ownNames && Annotated(cls, m) && cls.procMeta[m].path == p;
        }
      }
    }
    r
  }

  /** The sub-router the builder makes and the method map the service keeps
      agree: same paths, and each path calls the same method. */
  lemma RouterAgreesWithMethodMap(cls: ClassDef, instance: Option<Instance>)
    requires GenerateRouter(cls, instance).Ok?
    ensures forall p :: p in Keys(GenerateRouter(cls, instance).value) <==> p in Keys(ProcedureToMethodMap(cls))
    ensures forall p :: Get(GenerateRouter(cls, instance).value, p).Some? ==>
              Get(ProcedureToMethodMap(cls), p) == Some(Get(GenerateRouter(cls, instance).value, p).value.methodName)
  {
  }

  // ---------------------------------------------------------------------
  // Registration

  function EntryFor(cls: ClassDef, instance: Option<Instance>, meta: RouterMetadata): Registered {
    Registered(cls, instance, meta, ProcedureToMethodMap(cls))
  }

  /** The instance discovery would use: the bound one, else a fresh `new C()`
      (None when the constructor throws, which discovery logs and skips). */
  function DiscoveryInstance(cls: ClassDef, entry: GlobalEntry): Option<Instance> {
    if entry.instance.Some? then entry.instance else cls.construct
  }

  /** Whether discovery leaves the registry alone for this class. */
  predicate SkippedBy(reg: OMap<Registered>, cls: ClassDef, entry: GlobalEntry) {
    || cls.routerMeta.None?
    || RouterName(cls, cls.routerMeta.value) in Keys(reg)
    || DiscoveryInstance(cls, entry).None?
  }

  /** `checkAndRegisterController`: a class without metadata, a name already
      taken or a failing constructor leave the registry unchanged; otherwise
      the entry is appended under the derived name. */
  function CheckAndRegister(reg: OMap<Registered>, cls: ClassDef, entry: GlobalEntry): (r: OMap<Registered>)
    ensures SkippedBy(reg, cls, entry) ==> r == reg
    ensures !SkippedBy(reg, cls, entry) ==>
              var name := RouterName(cls, cls.routerMeta.value);
              && Keys(r) == Keys(reg) + [name]
              && Get(r, name) == Some(EntryFor(cls, DiscoveryInstance(cls, entry), cls.routerMeta.value))
              && forall k :: k != name ==> Get(r, k) == Get(reg, k)
    ensures DistinctKeys(reg) ==> DistinctKeys(r)
  {
    if SkippedBy(reg, cls, entry) then reg
    else
      var meta := cls.routerMeta.value;
      var name := RouterName(cls, meta);
      var r := Put(reg, name, EntryFor(cls, DiscoveryInstance(cls, entry), meta));
      if DistinctKeys(reg) then PutDistinct(reg, name, EntryFor(cls, DiscoveryInstance(cls, entry), meta)); r
      else r
  }

  /** `performAutoDiscovery`: `checkAndRegisterController` on every entry of
      the global registry, in order. */
  function Discover(reg: OMap<Registered>, global: GlobalRegistry): (r: OMap<Registered>)
    ensures DistinctKeys(reg) ==> DistinctKeys(r)
    decreases |global|
  {
    if global == [] then reg
    else Discover(CheckAndRegister(reg, global[0].0, global[0].1), global[1..])
  }

  /** Discovery never replaces an entry: the first class to claim a name
      keeps it, and the earlier names keep their positions. */
  lemma {:induction false} DiscoverKeepsEntries(reg: OMap<Registered>, global: GlobalRegistry)
    ensures forall k :: Get(reg, k).Some? ==> Get(Discover(reg, global), k) == Get(reg, k)
    ensures Keys(reg) <= Keys(Discover(reg, global))
    decreases |global|
  {
    if global != [] {
      var reg' := CheckAndRegister(reg, global[0].0, global[0].1);
      DiscoverKeepsEntries(reg', global[1..]);
    }
  }

  /** After discovery every class of the global registry is skipped by a
      further pass: it has no metadata, its name is registered, or it cannot
      be constructed. */
  lemma {:induction false} DiscoverCovers(reg: OMap<Registered>, global: GlobalRegistry)
    ensures forall i :: 0 <= i < |global| ==> SkippedBy(Discover(reg, global), global[i].0, global[i].1)
    decreases |global|
  {
    if global != [] {
      var reg' := CheckAndRegister(reg, global[0].0, global[0].1);
      DiscoverCovers(reg', global[1..]);
      DiscoverKeepsEntries(reg', global[1..]);
      var r := Discover(reg, global);
      assert SkippedBy(reg', global[0].0, global[0].1);
      assert SkippedBy(r, global[0].0, global[0].1);
      forall i | 0 < i < |global|
        ensures SkippedBy(r, global[i].0, global[i].1)
      {
        assert global[i] == global[1..][i - 1];
      }
    }
  }

  /** A pass over classes that are all skipped changes nothing. */
  lemma {:induction false} DiscoverSkipped(reg: OMap<Registered>, global: GlobalRegistry)
    requires forall i :: 0 <= i < |global| ==> SkippedBy(reg, global[i].0, global[i].1)
    ensures Discover(reg, global) == reg
    decreases |global|
  {
    if global != [] {
      assert SkippedBy(reg, global[0].0, global[0].1);
      forall i | 0 <= i < |global[1..]|
        ensures SkippedBy(reg, global[1..][i].0, global[1..][i].1)
      {
        assert global[1..][i] == global[i + 1];
      }
      DiscoverSkipped(reg, global[1..]);
    }
  }

  /** Discovery is idempotent: a second pass over the same global registry
      leaves the registry as the first pass left it. */
  lemma DiscoverIdempotent(reg: OMap<Registered>, global: GlobalRegistry)
    ensures Discover(Discover(reg, global), global) == Discover(reg, global)
  {
    DiscoverCovers(reg, global);
    DiscoverSkipped(Discover(reg, global), global);
  }

  // ---------------------------------------------------------------------
  // The main router

  /** The `buildMainRouter` loop over `es`, continuing from `acc`; a
      controller whose router cannot be generated is left out. */
  function MainFrom(acc: MainRouter, es: OMap<Registered>): MainRouter
    decreases |es|
  {
    if es == [] then acc
    else
      match GenerateRouter(es[0].1.cls, es[0].1.instance) {
        case Ok(sub) => MainFrom(Put(acc, es[0].0, sub), es[1..])
        case Err(_) => MainFrom(acc, es[1..])
      }
  }

  /** The sub-router a registry entry contributes, if its generation does
      not throw. */
  function SubRouterOf(e: Registered): Option<SubRouter> {
    match GenerateRouter(e.cls, e.instance)
    case Ok(sub) => Some(sub)
    case Err(_) => None
  }

  lemma {:induction false} MainFromSpec(acc: MainRouter, es: OMap<Registered>, k: string)
    requires DistinctKeys(es)
    ensures Get(MainFrom(acc, es), k) ==
              (match Get(es, k)
               case Some(e) => if SubRouterOf(e).Some? then SubRouterOf(e) else Get(acc, k)
               case None => Get(acc, k))
    decreases |es|
  {
    if es != [] {
      assert DistinctKeys(es[1..]) by {
        forall i, j | 0 <= i < j < |es[1..]| ensures es[1..][i].0 != es[1..][j].0 {
          assert es[1..][i] == es[i + 1] && es[1..][j] == es[j + 1];
        }
      }
      var acc' := match GenerateRouter(es[0].1.cls, es[0].1.instance)
                  case Ok(sub) => Put(acc, es[0].0, sub)
                  case Err(_) => acc;
      assert MainFrom(acc, es) == MainFrom(acc', es[1..]);
      MainFromSpec(acc', es[1..], k);
      if es[0].0 == k {
        assert k !in Keys(es[1..]) by {
          forall i | 0 <= i < |es[1..]| ensures Keys(es[1..])[i] != k {
            KeysAt(es[1..], i);
            assert es[1..][i] == es[i + 1];
          }
        }
      }
    }
  }

  /** `buildMainRouter`: the main router holds, under each registered name,
      the sub-router generated for that entry, and omits exactly the entries
      whose generation throws. */
  function BuildMainRouter(reg: OMap<Registered>): (r: MainRouter)
    ensures DistinctKeys(reg) ==>
              forall k :: Get(r, k) == (match Get(reg, k) case Some(e) => SubRouterOf(e) case None => None)
  {
    var r := MainFrom([], reg);
    assert DistinctKeys(reg) ==>
             forall k :: Get(r, k) == (match Get(reg, k) case Some(e) => SubRouterOf(e) case None => None) by {
      if DistinctKeys(reg) {
        forall k ensures Get(r, k) == (match Get(reg, k) case Some(e) => SubRouterOf(e) case None => None) {
          MainFromSpec([], reg, k);
        }
      }
    }
    r
  }

  // ---------------------------------------------------------------------
  // The service life cycle

  /** The constructor: discovery is on when the module options ask for it. */
  function NewService(options: Option<ModuleOptions>): (s: Service)
    ensures s.registered == [] && s.mainRouter.None?
    ensures s.autoDiscovery <==> options.Some? && options.value.autoDiscovery == Some(true)
  {
    Service([], None, options.Some? && options.value.autoDiscovery == Some(true))
  }

  /** The service is consistent when names are unique and the cached main
      router is the one built from the current registry. */
  ghost predicate Consistent(s: Service) {
    DistinctKeys(s.registered) && s.mainRouter == Some(BuildMainRouter(s.registered))
  }

  /** `onModuleInit`: builds the main router from the current registry. */
  function OnModuleInit(s: Service): (r: Service)
    requires DistinctKeys(s.registered)
    ensures Consistent(r)
    ensures r.registered == s.registered && r.autoDiscovery == s.autoDiscovery
  {
    s.(mainRouter := Some(BuildMainRouter(s.registered)))
  }

  function EnableAutoDiscovery(s: Service): (r: Service)
    ensures r.autoDiscovery
    ensures r.registered == s.registered && r.mainRouter == s.mainRouter
  {
    s.(autoDiscovery := true)
  }

  /** `onApplicationBootstrap`: with discovery on, discover and rebuild;
      otherwise nothing happens. */
  function OnApplicationBootstrap(s: Service, global: GlobalRegistry): (r: Service)
    ensures !s.autoDiscovery ==> r == s
    ensures s.autoDiscovery ==> r.registered == Discover(s.registered, global)
    ensures Consistent(s) ==> Consistent(r)
  {
    if s.autoDiscovery then
      var reg := Discover(s.registered, global);
      s.(registered := reg, mainRouter := Some(BuildMainRouter(reg)))
    else s
  }

  /** `getMainRouter`: the cached router, built on first use. */
  function GetMainRouter(s: Service): (r: (MainRouter, Service))
    ensures r.1.registered == s.registered && r.1.mainRouter == Some(r.0)
    ensures s.mainRouter.Some? ==> r.0 == s.mainRouter.value && r.1 == s
    ensures s.mainRouter.None? ==> r.0 == BuildMainRouter(s.registered)
    ensures Consistent(s) ==> r.0 == BuildMainRouter(s.registered)
  {
    if s.mainRouter.Some? then (s.mainRouter.value, s)
    else
      var m := BuildMainRouter(s.registered);
      (m, s.(mainRouter := Some(m)))
  }

  /** `registerController`: with router metadata, the entry under the router
      name is set (replacing any earlier one in place) and the main router is
      rebuilt; without it nothing changes. */
  function RegisterController(s: Service, cls: ClassDef, instance: Option<Instance>): (r: Service)
    ensures cls.routerMeta.None? ==> r == s
    ensures cls.routerMeta.Some? ==>
              var name := RouterName(cls, cls.routerMeta.value);
              && Get(r.registered, name) == Some(EntryFor(cls, instance, cls.routerMeta.value))
              && (forall k :: k != name ==> Get(r.registered, k) == Get(s.registered, k))
              && Keys(r.registered) == (if name in Keys(s.registered) then Keys(s.registered) else Keys(s.registered) + [name])
              && r.mainRouter == Some(BuildMainRouter(r.registered))
    ensures Consistent(s) ==> Consistent(r)
  {
    if cls.routerMeta.None? then s
    else
      var meta := cls.routerMeta.value;
      var name := RouterName(cls, meta);
      var entry := EntryFor(cls, instance, meta);
      var reg := Put(s.registered, name, entry);
      if DistinctKeys(s.registered) then
        PutDistinct(s.registered, name, entry);
        s.(registered := reg, mainRouter := Some(BuildMainRouter(reg)))
      else
        s.(registered := reg, mainRouter := Some(BuildMainRouter(reg)))
  }

  /** After a manual registration the main router contains the new
      controller's sub-router whenever it can be generated. */
  lemma RegisteredRouterIsServed(s: Service, cls: ClassDef, instance: Option<Instance>)
    requires Consistent(s)
    requires cls.routerMeta.Some?
    requires GenerateRouter(cls, instance).Ok?
    ensures var r := RegisterController(s, cls, instance);
            Get(r.mainRouter.value, RouterName(cls, cls.routerMeta.value)) == Some(GenerateRouter(cls, instance).value)
  {
  }

  // ---------------------------------------------------------------------
  // Queries

  function InfoOf(e: (string, Registered)): ControllerInfo {
    ControllerInfo(e.0, e.1.cls.name, e.1.meta.path)
  }

  /** `getRegisteredControllers`: one record per entry, in registry order. */
  function RegisteredControllers(reg: OMap<Registered>): (r: seq<ControllerInfo>)
    ensures |r| == |reg|
    ensures forall i :: 0 <= i < |r| ==> r[i].name == Keys(reg)[i]
    ensures forall i :: 0 <= i < |r| ==> r[i].className == reg[i].1.cls.name && r[i].prefix == reg[i].1.meta.path
  {
    var r := seq(|reg|, i requires 0 <= i < |reg| => InfoOf(reg[i]));
    assert forall i :: 0 <= i < |r| ==> r[i].name == Keys(reg)[i] by {
      forall i | 0 <= i < |r| ensures r[i].name == Keys(reg)[i] {
        KeysAt(reg, i);
      }
    }
    r
  }

  /** The names of a controller listing. */
  function Names(infos: seq<ControllerInfo>): (r: seq<string>)
    ensures |r| == |infos| && forall i :: 0 <= i < |r| ==> r[i] == infos[i].name
  {
    seq(|infos|, i requires 0 <= i < |infos| => infos[i].name)
  }

  /** The names listed are the registry's names, in order. */
  lemma NamesOfRegistered(reg: OMap<Registered>)
    ensures Names(RegisteredControllers(reg)) == Keys(reg)
  {
  }

  /** The error messages of `callProcedure`. */
  function RouterNotFound(routerName: string, available: seq<string>): string {
    "Router '" + routerName + "' not found. Available: " + Text.JoinWith(available, ", ")
  }

  function ProcedureNotFound(procedureName: string, routerName: string, available: seq<string>): string {
    "Procedure '" + procedureName + "' not found in controller '" + routerName
      + "'. Available procedures: " + Text.JoinWith(available, ", ")
  }

  function CallFailed(routerName: string, procedureName: string, message: string): string {
    "Error calling " + routerName + "." + procedureName + ": " + message
  }

  /** The handler a procedure name resolves to in an entry, if it is a
      callable method of a present instance. */
  function Resolve(e: Registered, procedureName: string): Option<Handler> {
    match Get(e.procedureToMethod, procedureName)
    case None => None
    case Some(m) =>
      if m == "" || e.instance.None? || m !in e.instance.value then None
      else Some(e.instance.value[m])
  }

  /** `callProcedure`: an unknown router and an unresolvable procedure fail
      with messages listing the alternatives; otherwise the method runs on the
      input, its result is returned unchanged and its error is rewrapped with
      the call's context. */
  function CallProcedure(reg: OMap<Registered>, routerName: string, procedureName: string, input: Json): (r: Result<Json, string>)
    ensures Get(reg, routerName).None? ==> r == Err(RouterNotFound(routerName, Keys(reg)))
    ensures Get(reg, routerName).Some? && Resolve(Get(reg, routerName).value, procedureName).None? ==>
              r == Err(ProcedureNotFound(procedureName, routerName, Keys(Get(reg, routerName).value.procedureToMethod)))
    ensures Get(reg, routerName).Some? && Resolve(Get(reg, routerName).value, procedureName).Some? ==>
              var out := Resolve(Get(reg, routerName).value, procedureName).value(Some(input));
              && (out.Ok? ==> r == out)
              && (out.Err? ==> r == Err(CallFailed(routerName, procedureName, out.error)))
  {
    match Get(reg, routerName)
    case None => Err(RouterNotFound(routerName, Keys(reg)))
    case Some(e) =>
      match Resolve(e, procedureName)
      case None => Err(ProcedureNotFound(procedureName, routerName, Keys(e.procedureToMethod)))
      case Some(h) =>
        match h(Some(input))
        case Ok(v) => Ok(v)
        case Err(msg) => Err(CallFailed(routerName, procedureName, msg))
  }

  /** After registering a controller, calling a router path reaches the last
      method declaring that path with the input as its sole argument. */
  lemma CallAfterRegister(s: Service, cls: ClassDef, instance: Instance, p: string, input: Json)
    requires cls.routerMeta.Some?
    requires LastMethodFor(cls, cls.ownNames, p).Some?
    requires LastMethodFor(cls, cls.ownNames, p).value in instance
    requires LastMethodFor(cls, cls.ownNames, p).value != ""
    ensures var m := LastMethodFor(cls, cls.ownNames, p).value;
            var r := RegisterController(s, cls, Some(instance));
            var out := instance[m](Some(input));
            && (out.Ok? ==> CallProcedure(r.registered, RouterName(cls, cls.routerMeta.value), p, input) == out)
            && (out.Err? ==> CallProcedure(r.registered, RouterName(cls, cls.routerMeta.value), p, input)
                               == Err(CallFailed(RouterName(cls, cls.routerMeta.value), p, out.error)))
  {
  }
}

=== FILE: http_dispatch.dfy ===
/** The HTTP endpoint: single calls, GET and POST batches, grouping and the
    procedure listing. Responses carry their status code. */
module HttpDispatch {
  import opened Wrappers
  import opened Json
  import opened OrderedMap
  import opened AutoRouter
  import RouterBuilder
  import Text
  import Sorting

  const Ok200: int := 200
  const Created201: int := 201
  const BadRequest400: int := 400
  const NotFound404: int := 404
  const Internal500: int := 500

  /** The structured error body: the message, the procedure it concerns, an
      example of a well-formed name, and the alternatives it lists under the
      field name the handler uses. */
  datatype ErrorBody = ErrorBody(error: string, procedure: Option<string>, example: Option<string>, listing: Listing)

  /** The list an error body carries, by field name: `procedures` (the
      batch's names), `available` (router names) or `availableProcedures`. */
  datatype Listing =
    | Unlisted
    | ListedProcedures(procedures: seq<string>)
    | ListedAvailable(available: seq<string>)
    | ListedAvailableProcedures(availableProcedures: seq<string>)

  /** The example name the format error suggests. */
  const ExampleProcedure: string := "posts.getAll"

  /** What a dispatch step can throw: the framework's HTTP exception with its
      status, or a plain error with a message. */
  datatype Failure = HttpException(status: int, body: ErrorBody) | PlainError(message: string)

  /** The message the framework gives an HTTP exception whose body has no
      `message` field: its class name split into words. */
  const HttpExceptionMessage: string := "Http Exception"

  const InternalError: string := "INTERNAL_ERROR"

  function MessageOf(f: Failure): string {
    match f
    case HttpException(_, _) => HttpExceptionMessage
    case PlainError(m) => m
  }

  /** `error.status || 500` */
  function StatusOf(f: Failure): int {
    match f
    case HttpException(st, _) => if st != 0 then st else Internal500
    case PlainError(_) => Internal500
  }

  /** `s || fallback` on strings. */
  function OrElse(s: string, fallback: string): string {
    if s != "" then s else fallback
  }

  /** One slot of a batch answer. */
  datatype BatchEntry = Done(result: Json) | Failed(message: string, code: string)

  datatype Response =
    | Single(procedure: string, input: Json, result: Json)
    | Batch(entries: seq<(string, BatchEntry)>)

  /** The outcome of a request: a body with its status, or an error body with
      its status. */
  datatype HttpResult = Reply(status: int, body: Response) | Reject(status: int, error: ErrorBody)

  /** What the endpoint reads besides the request: the service, whether
      introspecting the router library's internals throws, and the combined
      `decodeURIComponent` + `JSON.parse` (None when either throws). */
  datatype Context = Context(service: Service, introspectionFails: bool, parse: string -> Option<Json>)

  // ---------------------------------------------------------------------
  // Procedure names

  /** `const [routerName, methodName] = procedure.split('.')` followed by the
      emptiness test: the segments before the first and second dot, when
      both are present and non-empty. */
  function ProcedureParts(procedure: string): (r: Option<(string, string)>)
    ensures r.Some? ==> r.value.0 != "" && r.value.1 != "" && '.' !in r.value.0 && '.' !in r.value.1
  {
    var parts := Text.Split(procedure, '.');
    if |parts| >= 2 && parts[0] != "" && parts[1] != "" then Some((parts[0], parts[1])) else None
  }

  /** A well-formed name, whatever follows a second dot, splits into its
      router and method parts; any further segments are ignored. */
  lemma ProcedurePartsOf(router: string, methodName: string, rest: seq<string>)
    requires router != "" && methodName != ""
    requires '.' !in router && '.' !in methodName
    requires forall i :: 0 <= i < |rest| ==> '.' !in rest[i]
    ensures ProcedureParts(Text.Join([router, methodName] + rest, '.')) == Some((router, methodName))
  {
    var parts := [router, methodName] + rest;
    DotFreeSegments(router, methodName, rest);
    assert parts[0] == router && parts[1] == methodName;
    ProcedurePartsExact(parts);
  }

  lemma DotFreeSegments(router: string, methodName: string, rest: seq<string>)
    requires '.' !in router && '.' !in methodName
    requires forall i :: 0 <= i < |rest| ==> '.' !in rest[i]
    ensures forall i :: 0 <= i < |[router, methodName] + rest| ==> '.' !in ([router, methodName] + rest)[i]
  {
    var parts := [router, methodName] + rest;
    forall i | 0 <= i < |parts| ensures '.' !in parts[i] {
      if i >= 2 {
        assert parts[i] == rest[i - 2];
      }
    }
  }

  /** Every name is the join of its dot-free segments; it is accepted
      exactly when it has at least two segments and neither of the first two
      is empty, and then those two are its parts. */
  lemma {:induction false} ProcedurePartsExact(segments: seq<string>)
    requires |segments| >= 1
    requires forall i :: 0 <= i < |segments| ==> '.' !in segments[i]
    ensures ProcedureParts(Text.Join(segments, '.')).Some? <==>
              |segments| >= 2 && segments[0] != "" && segments[1] != ""
    ensures ProcedureParts(Text.Join(segments, '.')).Some? ==>
              ProcedureParts(Text.Join(segments, '.')).value == (segments[0], segments[1])
  {
    Text.SplitJoin(segments, '.');
  }

  /** A name is rejected when it has no dot or either part is empty. */
  lemma ProcedurePartsRejects()
    ensures ProcedureParts("posts") == None
    ensures ProcedureParts(".x") == None
    ensures ProcedureParts("posts.") == None
  {
    assert Text.Join(["posts"], '.') == "posts";
    Text.SplitJoin(["posts"], '.');
    assert Text.Join(["", "x"], '.') == ".x";
    Text.SplitJoin(["", "x"], '.');
    assert Text.Join(["posts", ""], '.') == "posts.";
    Text.SplitJoin(["posts", ""], '.');
  }

  // ---------------------------------------------------------------------
  // Procedure listings

  /** The dotted names of every procedure of the main router, router by
      router: exactly the router-name/procedure-name pairs. */
  function Flatten(main: MainRouter): (r: seq<string>)
    ensures forall i, p :: 0 <= i < |main| && p in Keys(main[i].1) ==> main[i].0 + "." + p in r
    ensures forall x :: x in r ==>
              exists i, p :: 0 <= i < |main| && p in Keys(main[i].1) && x == main[i].0 + "." + p
  {
    if main == [] then []
    else
      var here := seq(|main[0].1|, j requires 0 <= j < |main[0].1| => main[0].0 + "." + main[0].1[j].0);
      FlattenHere(main[0], here);
      var tail := Flatten(main[1..]);
      var r := here + tail;
      assert forall i, p :: 1 <= i < |main| && p in Keys(main[i].1) ==> main[i].0 + "." + p in r by {
        forall i, p | 1 <= i < |main| && p in Keys(main[i].1) ensures main[i].0 + "." + p in r {
          assert main[i] == main[1..][i - 1];
        }
      }
      assert forall x :: x in tail ==>
               exists i, p :: 0 <= i < |main| && p in Keys(main[i].1) && x == main[i].0 + "." + p by {
        forall x | x in tail
          ensures exists i, p :: 0 <= i < |main| && p in Keys(main[i].1) && x == main[i].0 + "." + p
        {
          var i, p :| 0 <= i < |main[1..]| && p in Keys(main[1..][i].1) && x == main[1..][i].0 + "." + p;
          assert main[1..][i] == main[i + 1];
        }
      }
      r
  }

  /** The names one router contributes to `Flatten`: its procedures, each
      prefixed with the router name. */
  lemma FlattenHere(entry: (string, RouterBuilder.SubRouter), here: seq<string>)
    requires here == seq(|entry.1|, j requires 0 <= j < |entry.1| => entry.0 + "." + entry.1[j].0)
    ensures forall p :: p in Keys(entry.1) ==> entry.0 + "." + p in here
    ensures forall x :: x in here ==> exists p :: p in Keys(entry.1) && x == entry.0 + "." + p
  {
    forall p | p in Keys(entry.1) ensures entry.0 + "." + p in here {
      var j :| 0 <= j < |Keys(entry.1)| && Keys(entry.1)[j] == p;
      KeysAt(entry.1, j);
      assert here[j] == entry.0 + "." + p;
    }
    forall x | x in here ensures exists p :: p in Keys(entry.1) && x == entry.0 + "." + p {
      var j :| 0 <= j < |here| && here[j] == x;
      KeysAt(entry.1, j);
      assert Keys(entry.1)[j] in Keys(entry.1);
    }
  }

  const BaseMethods: seq<string> := ["getAll", "getById", "create", "update", "delete"]

  /** The method names the static fallback assumes for a router name. */
  function StaticMethods(name: string): (r: seq<string>)
    ensures |r| == if name == "users" || name == "posts" then 6 else 5
    ensures r[..5] == BaseMethods
    ensures "search" in r <==> name == "users"
    ensures "getByAuthor" in r <==> name == "posts"
  {
    if name == "users" then BaseMethods + ["search"]
    else if name == "posts" then BaseMethods + ["getByAuthor"]
    else BaseMethods
  }

  /** `extractAvailableProcedures`: every assumed method of every controller,
      controller by controller, and nothing else. */
  function StaticProcedures(infos: seq<ControllerInfo>): (r: seq<string>)
    ensures forall i, m :: 0 <= i < |infos| && m in StaticMethods(infos[i].name) ==> infos[i].name + "." + m in r
    ensures forall x :: x in r ==>
              exists i, m :: 0 <= i < |infos| && m in StaticMethods(infos[i].name) && x == infos[i].name + "." + m
    ensures infos != [] ==> |r| >= 5
  {
    StaticListSpec(infos);
    StaticList(infos)
  }

  /** The listing itself: each controller's names, one controller after the
      other. */
  function StaticList(infos: seq<ControllerInfo>): seq<string> {
    if infos == [] then [] else StaticHere(infos[0].name) + StaticList(infos[1..])
  }

  lemma {:induction false} StaticListSpec(infos: seq<ControllerInfo>)
    ensures forall i, m :: 0 <= i < |infos| && m in StaticMethods(infos[i].name) ==> infos[i].name + "." + m in StaticList(infos)
    ensures forall x :: x in StaticList(infos) ==>
              exists i, m :: 0 <= i < |infos| && m in StaticMethods(infos[i].name) && x == infos[i].name + "." + m
    ensures infos != [] ==> |StaticList(infos)| >= 5
  {
    if infos != [] {
      StaticListSpec(infos[1..]);
      StaticTail(infos, StaticHere(infos[0].name), StaticList(infos[1..]));
    }
  }

  /** The names one controller contributes to the fallback listing. */
  function StaticHere(name: string): (r: seq<string>)
    ensures |r| == |StaticMethods(name)| >= 5
    ensures forall j :: 0 <= j < |r| ==> r[j] == name + "." + StaticMethods(name)[j]
    ensures forall m :: m in StaticMethods(name) ==> name + "." + m in r
    ensures forall x :: x in r ==> exists m :: m in StaticMethods(name) && x == name + "." + m
  {
    var ms := StaticMethods(name);
    var here := seq(|ms|, j requires 0 <= j < |ms| => name + "." + ms[j]);
    assert forall m :: m in ms ==> name + "." + m in here by {
      forall m | m in ms ensures name + "." + m in here {
        var j :| 0 <= j < |ms| && ms[j] == m;
        assert here[j] == name + "." + m;
      }
    }
    assert forall x :: x in here ==> exists m :: m in ms && x == name + "." + m by {
      forall x | x in here ensures exists m :: m in ms && x == name + "." + m {
        var j :| 0 <= j < |here| && here[j] == x;
        assert ms[j] in ms;
      }
    }
    here
  }

  /** The recursive step of `StaticProcedures`: the first controller's names
      followed by the rest's are exactly those of the whole list. */
  lemma StaticTail(infos: seq<ControllerInfo>, here: seq<string>, tail: seq<string>)
    requires infos != [] && here == StaticHere(infos[0].name)
    requires forall i, m :: 0 <= i < |infos| - 1 && m in StaticMethods(infos[1..][i].name) ==> infos[1..][i].name + "." + m in tail
    requires forall x :: x in tail ==>
               exists i, m :: 0 <= i < |infos| - 1 && m in StaticMethods(infos[1..][i].name) && x == infos[1..][i].name + "." + m
    ensures forall i, m :: 0 <= i < |infos| && m in StaticMethods(infos[i].name) ==> infos[i].name + "." + m in here + tail
    ensures forall x :: x in here + tail ==>
              exists i, m :: 0 <= i < |infos| && m in StaticMethods(infos[i].name) && x == infos[i].name + "." + m
  {
    var r := here + tail;
    forall i, m | 0 <= i < |infos| && m in StaticMethods(infos[i].name) ensures infos[i].name + "." + m in r {
      if i > 0 { assert infos[i] == infos[1..][i - 1]; }
    }
    forall x | x in r
      ensures exists i, m :: 0 <= i < |infos| && m in StaticMethods(infos[i].name) && x == infos[i].name + "." + m
    {
      if x !in here {
        var i, m :| 0 <= i < |infos| - 1 && m in StaticMethods(infos[1..][i].name) && x == infos[1..][i].name + "." + m;
        assert infos[1..][i] == infos[i + 1];
      }
    }
  }

  /** The fallback listing of consecutive controller lists is the listings
      one after the other. */
  lemma StaticProceduresAppend(a: seq<ControllerInfo>, b: seq<ControllerInfo>)
    ensures StaticProcedures(a + b) == StaticProcedures(a) + StaticProcedures(b)
  {
    StaticListAppend(a, b);
  }

  lemma {:induction false} StaticListAppend(a: seq<ControllerInfo>, b: seq<ControllerInfo>)
    ensures StaticList(a + b) == StaticList(a) + StaticList(b)
    decreases |a|
  {
    if a == [] {
      assert a + b == b;
    } else {
      var here := StaticHere(a[0].name);
      assert (a + b)[0] == a[0] && (a + b)[1..] == a[1..] + b;
      assert StaticList(a + b) == here + StaticList(a[1..] + b);
      StaticListAppend(a[1..], b);
      ConcatAssoc(here, StaticList(a[1..]), StaticList(b));
    }
  }

  lemma ConcatAssoc(x: seq<string>, y: seq<string>, z: seq<string>)
    ensures x + (y + z) == (x + y) + z
  {
  }

  /** One controller contributes its assumed methods, in order, each
      prefixed with its name. */
  lemma StaticProceduresOne(info: ControllerInfo)
    ensures |StaticProcedures([info])| == |StaticMethods(info.name)|
    ensures forall j :: 0 <= j < |StaticMethods(info.name)| ==>
              StaticProcedures([info])[j] == info.name + "." + StaticMethods(info.name)[j]
  {
    assert [info][1..] == [];
    assert StaticList([info]) == StaticHere(info.name);
  }

  /** `getAvailableProcedures`: the introspected names, sorted; when
      introspection throws, the static listing of the registered controllers. */
  function AvailableProcedures(ctx: Context): (r: seq<string>)
    ensures !ctx.introspectionFails ==>
              Sorting.Sorted(r) && multiset(r) == multiset(Flatten(GetMainRouter(ctx.service).0))
    ensures ctx.introspectionFails ==> r == StaticProcedures(RegisteredControllers(ctx.service.registered))
  {
    if ctx.introspectionFails then StaticProcedures(RegisteredControllers(ctx.service.registered))
    else Sorting.Sort(Flatten(GetMainRouter(ctx.service).0))
  }

  /** The fallback listing is never empty while a controller is registered,
      and names every assumed method of each registered router. */
  lemma FallbackCoversRegistered(ctx: Context, i: nat)
    requires ctx.introspectionFails
    requires i < |ctx.service.registered|
    ensures |AvailableProcedures(ctx)| >= 5
    ensures forall m :: m in StaticMethods(Keys(ctx.service.registered)[i]) ==>
              Keys(ctx.service.registered)[i] + "." + m in AvailableProcedures(ctx)
  {
    var infos := RegisteredControllers(ctx.service.registered);
    assert infos[i].name == Keys(ctx.service.registered)[i];
  }

  // ---------------------------------------------------------------------
  // Single dispatch

  const InvalidFormat: string := "Invalid procedure format. Use: routerName.methodName"

  /** `executeProcedure`: a malformed name is a 400 listing the available
      procedures, an unknown router a 404 listing the router names; otherwise
      the service's `callProcedure` decides, its failures being plain errors. */
  function ExecuteProcedure(ctx: Context, procedure: string, input: Json): (r: Result<Json, Failure>)
    ensures ProcedureParts(procedure).None? ==>
              r == Err(HttpException(BadRequest400, ErrorBody(InvalidFormat, None, Some(ExampleProcedure), ListedAvailableProcedures(AvailableProcedures(ctx)))))
    ensures ProcedureParts(procedure).Some? && ProcedureParts(procedure).value.0 !in Keys(ctx.service.registered) ==>
              r == Err(HttpException(NotFound404, ErrorBody("Router '" + ProcedureParts(procedure).value.0 + "' not found",
                                                          None, None, ListedAvailable(Keys(ctx.service.registered)))))
    ensures ProcedureParts(procedure).Some? && ProcedureParts(procedure).value.0 in Keys(ctx.service.registered) ==>
              var (router, methodName) := ProcedureParts(procedure).value;
              var c := CallProcedure(ctx.service.registered, router, methodName, input);
              (c.Ok? ==> r == Ok(c.value)) && (c.Err? ==> r == Err(PlainError(c.error)))
  {
    match ProcedureParts(procedure)
    case None => Err(HttpException(BadRequest400, ErrorBody(InvalidFormat, None, Some(ExampleProcedure), ListedAvailableProcedures(AvailableProcedures(ctx)))))
    case Some((router, methodName)) =>
      var infos := RegisteredControllers(ctx.service.registered);
      NamesOfRegistered(ctx.service.registered);
      if router !in Names(infos) then
        Err(HttpException(NotFound404, ErrorBody("Router '" + router + "' not found", None, None, ListedAvailable(Names(infos)))))
      else
        match CallProcedure(ctx.service.registered, router, methodName, input)
        case Ok(v) => Ok(v)
        case Err(m) => Err(PlainError(m))
  }

  /** `handleSingleProcedure` (POST /trpc/:procedure): any failure becomes an
      error body carrying the failure's message and status, 500 by default. */
  function HandleSingleProcedure(ctx: Context, procedure: string, input: Json): (r: HttpResult)
    ensures ExecuteProcedure(ctx, procedure, input).Ok? ==>
              r == Reply(Created201, Single(procedure, input, ExecuteProcedure(ctx, procedure, input).value))
    ensures ExecuteProcedure(ctx, procedure, input).Err? ==>
              var f := ExecuteProcedure(ctx, procedure, input).error;
              r == Reject(StatusOf(f), ErrorBody(OrElse(MessageOf(f), "Internal server error"), Some(procedure), None, Unlisted))
  {
    match ExecuteProcedure(ctx, procedure, input)
    case Ok(v) => Reply(Created201, Single(procedure, input, v))
    case Err(f) => Reject(StatusOf(f), ErrorBody(OrElse(MessageOf(f), "Internal server error"), Some(procedure), None, Unlisted))
  }

  // ---------------------------------------------------------------------
  // GET

  const InvalidInput: string := "Invalid input parameter. Must be valid JSON."

  /** A query parameter is used only when it is present and non-empty. */
  predicate Given(param: Option<string>) {
    param.Some? && param.value != ""
  }

  /** A GET is a batch exactly when `batch` is "1" and the path lists more
      than one name. */
  predicate IsGetBatch(batch: Option<string>, procedures: string) {
    batch == Some("1") && ',' in procedures
  }

  /** `procedures.split(',').map(p => p.trim())` */
  function ProcedureList(procedures: string): (r: seq<string>)
    ensures |r| == |Text.Split(procedures, ',')|
    ensures forall i :: 0 <= i < |r| ==> r[i] == Text.Trim(Text.Split(procedures, ',')[i])
  {
    var parts := Text.Split(procedures, ',');
    seq(|parts|, i requires 0 <= i < |parts| => Text.Trim(parts[i]))
  }

  /** The input of batch slot `key`: the slot's `json` field if truthy, else
      the slot itself if truthy, else `{}`. Requires a batch input that can be
      read from. */
  function SlotInput(batchInput: Json, key: string): (r: Json)
    requires !batchInput.Null?
    ensures Truthy(r)
    ensures var slot := Prop(batchInput, key).value;
            && (TruthyOpt(OptProp(slot, "json")) ==> r == OptProp(slot, "json").value)
            && (!TruthyOpt(OptProp(slot, "json")) && TruthyOpt(slot) ==> r == slot.value)
            && (!TruthyOpt(OptProp(slot, "json")) && !TruthyOpt(slot) ==> r == Empty)
  {
    var slot := Prop(batchInput, key).value;
    var inner := OptProp(slot, "json");
    if TruthyOpt(inner) then inner.value
    else if TruthyOpt(slot) then slot.value
    else Empty
  }

  /** The `json` envelope is unwrapped: `{"0": {"json": v}}` gives slot 0 the
      input `v`. */
  lemma SlotInputUnwraps(v: Json)
    requires Truthy(v)
    ensures SlotInput(Obj([("0", Obj([("json", v)]))]), "0") == v
  {
  }

  /** A slot without an envelope is passed as it is; a missing slot gets `{}`. */
  lemma SlotInputPlainAndMissing(v: Json)
    requires Truthy(v) && (v.Obj? ==> Get(v.fields, "json").None?)
    ensures SlotInput(Obj([("0", v)]), "0") == v
    ensures SlotInput(Obj([("0", v)]), "1") == Empty
  {
  }

  /** The answer slot of one batch call. */
  function EntryOf(outcome: Result<Json, Failure>): (e: BatchEntry)
    ensures outcome.Ok? ==> e == Done(outcome.value)
    ensures outcome.Err? ==> e.Failed? && e.code == InternalError && e.message != ""
    ensures outcome.Err? && outcome.error.HttpException? ==> e.message == HttpExceptionMessage
    ensures outcome.Err? && outcome.error.PlainError? && outcome.error.message != "" ==> e.message == outcome.error.message
    ensures outcome.Err? && outcome.error.PlainError? && outcome.error.message == "" ==> e.message == "Operation failed"
  {
    match outcome
    case Ok(v) => Done(v)
    case Err(f) => Failed(OrElse(MessageOf(f), "Operation failed"), InternalError)
  }

  /** The GET batch answer: slot `i` under key `i` holds the outcome of the
      i-th listed procedure on its slot input. */
  function GetBatchEntries(ctx: Context, list: seq<string>, batchInput: Json): (r: seq<(string, BatchEntry)>)
    requires !batchInput.Null?
    ensures |r| == |list|
    ensures forall i :: 0 <= i < |r| ==> r[i].0 == Text.NatToString(i)
    ensures forall i :: 0 <= i < |r| ==>
              r[i].1 == EntryOf(ExecuteProcedure(ctx, list[i], SlotInput(batchInput, Text.NatToString(i))))
  {
    seq(|list|, i requires 0 <= i < |list| =>
      (Text.NatToString(i), EntryOf(ExecuteProcedure(ctx, list[i], SlotInput(batchInput, Text.NatToString(i))))))
  }

  /** The batch answer has no key twice, so no slot hides another. */
  lemma GetBatchKeysDistinct(ctx: Context, list: seq<string>, batchInput: Json)
    requires !batchInput.Null?
    ensures DistinctKeys(GetBatchEntries(ctx, list, batchInput))
  {
    var r := GetBatchEntries(ctx, list, batchInput);
    forall i, j | 0 <= i < j < |r| ensures r[i].0 != r[j].0 {
      Text.NatToStringInjective(i, j);
    }
  }

  /** The GET batch path. A malformed input is a 400; an input of `null`
      makes reading slot 0 throw, which surfaces as a 500 listing the raw
      names; otherwise every listed procedure gets a slot. */
  function GetBatch(ctx: Context, procedures: string, inputParam: Option<string>): (r: HttpResult)
    ensures Given(inputParam) && ctx.parse(inputParam.value).None? ==>
              r == Reject(BadRequest400, ErrorBody(InvalidInput, None, None, ListedProcedures(ProcedureList(procedures))))
    ensures Given(inputParam) && ctx.parse(inputParam.value) == Some(Null) ==>
              r == Reject(Internal500, ErrorBody(NullPropertyError("0"), None, None, ListedProcedures(Text.Split(procedures, ','))))
    ensures !Given(inputParam) ==>
              r == Reply(Ok200, Batch(GetBatchEntries(ctx, ProcedureList(procedures), Empty)))
    ensures Given(inputParam) && ctx.parse(inputParam.value).Some? && !ctx.parse(inputParam.value).value.Null? ==>
              r == Reply(Ok200, Batch(GetBatchEntries(ctx, ProcedureList(procedures), ctx.parse(inputParam.value).value)))
  {
    var list := ProcedureList(procedures);
    var parsed := if Given(inputParam) then ctx.parse(inputParam.value) else Some(Empty);
    match parsed
    case None => Reject(BadRequest400, ErrorBody(InvalidInput, None, None, ListedProcedures(list)))
    case Some(batchInput) =>
      if batchInput.Null? then
        Reject(Internal500, ErrorBody(OrElse(NullPropertyError("0"), "Batch request failed"), None, None, ListedProcedures(Text.Split(procedures, ','))))
      else
        Reply(Ok200, Batch(GetBatchEntries(ctx, list, batchInput)))
  }

  /** `handleGetProcedure`: a malformed input is a 400; an HTTP exception
      from dispatch keeps its status and body; a plain error is a 500. */
  function GetSingle(ctx: Context, procedure: string, inputParam: Option<string>): (r: HttpResult)
    ensures Given(inputParam) && ctx.parse(inputParam.value).None? ==>
              r == Reject(BadRequest400, ErrorBody(InvalidInput, Some(procedure), None, Unlisted))
    ensures !Given(inputParam) || ctx.parse(inputParam.value).Some? ==>
              var input := if Given(inputParam) then ctx.parse(inputParam.value).value else Empty;
              match ExecuteProcedure(ctx, procedure, input)
              case Ok(v) => r == Reply(Ok200, Single(procedure, input, v))
              case Err(HttpException(st, body)) => r == Reject(st, body)
              case Err(PlainError(m)) => r == Reject(Internal500, ErrorBody(OrElse(m, "Internal server error"), Some(procedure), None, Unlisted))
  {
    var parsed := if Given(inputParam) then ctx.parse(inputParam.value) else Some(Empty);
    match parsed
    case None => Reject(BadRequest400, ErrorBody(InvalidInput, Some(procedure), None, Unlisted))
    case Some(input) =>
      match ExecuteProcedure(ctx, procedure, input)
      case Ok(v) => Reply(Ok200, Single(procedure, input, v))
      case Err(HttpException(st, body)) => Reject(st, body)
      case Err(PlainError(m)) => Reject(Internal500, ErrorBody(OrElse(m, "Internal server error"), Some(procedure), None, Unlisted))
  }

  /** `handleGetBatchProcedures`: batch handling only for `batch=1` with a
      comma in the path; everything else is a single GET. */
  function HandleGet(ctx: Context, procedures: string, batch: Option<string>, inputParam: Option<string>): (r: HttpResult)
    ensures IsGetBatch(batch, procedures) ==> r == GetBatch(ctx, procedures, inputParam)
    ensures !IsGetBatch(batch, procedures) ==> r == GetSingle(ctx, procedures, inputParam)
  {
    if IsGetBatch(batch, procedures) then GetBatch(ctx, procedures, inputParam)
    else GetSingle(ctx, procedures, inputParam)
  }

  /** `batch=1` with a single name takes the single path. */
  lemma SingleNameIsNotBatch(ctx: Context, procedure: string, inputParam: Option<string>)
    requires ',' !in procedure
    ensures HandleGet(ctx, procedure, Some("1"), inputParam) == GetSingle(ctx, procedure, inputParam)
  {
  }

  /** Unparseable input is a 400 on both GET paths. */
  lemma MalformedInputIs400(ctx: Context, procedures: string, batch: Option<string>, inputParam: Option<string>)
    requires Given(inputParam) && ctx.parse(inputParam.value).None?
    ensures HandleGet(ctx, procedures, batch, inputParam).Reject?
    ensures HandleGet(ctx, procedures, batch, inputParam).status == BadRequest400
  {
  }

  // ---------------------------------------------------------------------
  // POST batch

  /** `processBatchOperation`: an operation must be an object with a
      non-empty string `procedure`; a missing `input` defaults to `{}`;
      dispatch failures are rewrapped as plain messages. */
  function ProcessBatchOperation(ctx: Context, op: Json): (r: Result<Json, string>)
    ensures !IsObjectLike(op) ==> r == Err("Invalid operation format")
    ensures IsObjectLike(op) && !(Prop(op, "procedure").value.Some? && Prop(op, "procedure").value.value.Str?
                                  && Prop(op, "procedure").value.value.s != "") ==>
              r == Err("Missing or invalid procedure name")
    ensures IsObjectLike(op) && Prop(op, "procedure").value.Some? && Prop(op, "procedure").value.value.Str?
            && Prop(op, "procedure").value.value.s != "" ==>
              var input := if Prop(op, "input").value.None? then Empty else Prop(op, "input").value.value;
              var out := ExecuteProcedure(ctx, Prop(op, "procedure").value.value.s, input);
              (out.Ok? ==> r == Ok(out.value))
              && (out.Err? ==> r == Err(OrElse(MessageOf(out.error), "Procedure execution failed")))
    ensures r.Err? ==> r.error != ""
  {
    if !IsObjectLike(op) then Err("Invalid operation format")
    else
      var procedure := Prop(op, "procedure").value;
      var input := match Prop(op, "input").value case None => Empty case Some(v) => v;
      if !(procedure.Some? && procedure.value.Str? && procedure.value.s != "") then
        Err("Missing or invalid procedure name")
      else
        match ExecuteProcedure(ctx, procedure.value.s, input)
        case Ok(v) => Ok(v)
        case Err(f) => Err(OrElse(MessageOf(f), "Procedure execution failed"))
  }

  /** The answer slot of one POST batch operation. */
  function PostEntry(ctx: Context, op: Json): (e: BatchEntry)
    ensures ProcessBatchOperation(ctx, op).Ok? ==> e == Done(ProcessBatchOperation(ctx, op).value)
    ensures ProcessBatchOperation(ctx, op).Err? ==>
              e == Failed(ProcessBatchOperation(ctx, op).error, InternalError)
  {
    match ProcessBatchOperation(ctx, op)
    case Ok(v) => Done(v)
    case Err(m) => Failed(OrElse(m, "Operation failed"), InternalError)
  }

  /** `handleBatchRequests` (POST /trpc). A body that is not an object is
      rejected; the rejection passes through the handler's own catch, which
      keeps the 400 but replaces the body with the exception's message.
      Otherwise every key of the body gets exactly one slot. */
  function HandleBatchRequests(ctx: Context, body: Json): (r: HttpResult)
    ensures !IsObjectLike(body) ==> r == Reject(BadRequest400, ErrorBody(HttpExceptionMessage, None, None, Unlisted))
    ensures IsObjectLike(body) ==> r.Reply? && r.status == Created201 && r.body.Batch?
    ensures IsObjectLike(body) ==> Keys(r.body.entries) == Keys(Entries(body))
    ensures IsObjectLike(body) ==> forall i :: 0 <= i < |r.body.entries| ==>
              r.body.entries[i].1 == PostEntry(ctx, Entries(body)[i].1)
    ensures IsObjectLike(body) ==> forall k ::
              Get(r.body.entries, k) ==
                if Get(Entries(body), k).Some? then Some(PostEntry(ctx, Get(Entries(body), k).value)) else None
    ensures IsObjectLike(body) && DistinctKeys(Entries(body)) ==> DistinctKeys(r.body.entries)
  {
    if !IsObjectLike(body) then Reject(BadRequest400, ErrorBody(HttpExceptionMessage, None, None, Unlisted))
    else
      var es := Entries(body);
      var out := seq(|es|, i requires 0 <= i < |es| => (es[i].0, PostEntry(ctx, es[i].1)));
      assert Keys(out) == Keys(es) by {
        forall i | 0 <= i < |es| ensures Keys(out)[i] == Keys(es)[i] {
          KeysAt(out, i);
          KeysAt(es, i);
        }
      }
      forall k ensures Get(out, k) == if Get(es, k).Some? then Some(PostEntry(ctx, Get(es, k).value)) else None {
        GetPointwise(es, out, x => PostEntry(ctx, x), k);
      }
      GetPointwise(es, out, x => PostEntry(ctx, x), "");
      Reply(Created201, Batch(out))
  }

  /** The message the handler means to send for a body that is not an
      object. */
  const InvalidBatchFormat: string := "Invalid batch request format. Expected object with numbered keys."

  /** `handleBatchRequests` as evidently intended: the format rejection
      reaches the client as thrown, as the GET handlers do by rethrowing HTTP
      exceptions; valid bodies are handled as before. */
  function HandleBatchRequestsCorrected(ctx: Context, body: Json): (r: HttpResult)
    ensures !IsObjectLike(body) ==> r == Reject(BadRequest400, ErrorBody(InvalidBatchFormat, None, None, Unlisted))
    ensures IsObjectLike(body) ==> r == HandleBatchRequests(ctx, body)
  {
    if !IsObjectLike(body) then Reject(BadRequest400, ErrorBody(InvalidBatchFormat, None, None, Unlisted))
    else HandleBatchRequests(ctx, body)
  }

  /** A `null` body: the handler as written answers 400 with the generic
      exception name, losing the format message the corrected one keeps. */
  lemma BatchFormatMessageLost(ctx: Context, body: Json)
    requires !IsObjectLike(body)
    ensures HandleBatchRequests(ctx, body).error.error == HttpExceptionMessage
    ensures HandleBatchRequestsCorrected(ctx, body).error.error == InvalidBatchFormat
    ensures HandleBatchRequests(ctx, body) != HandleBatchRequestsCorrected(ctx, body)
  {
    assert |HttpExceptionMessage| != |InvalidBatchFormat|;
  }

  /** One failing operation never removes another: a valid call and a call
      to an unknown router both get their slot. */
  lemma PostBatchIsolatesFailures(ctx: Context, ok: Json, bad: Json)
    ensures var r := HandleBatchRequests(ctx, Obj([("0", ok), ("1", bad)]));
            && r.Reply? && Keys(r.body.entries) == ["0", "1"]
            && r.body.entries[0].1 == PostEntry(ctx, ok)
            && r.body.entries[1].1 == PostEntry(ctx, bad)
  {
    var fs := [("0", ok), ("1", bad)];
    assert Keys(fs) == ["0", "1"];
  }

  // ---------------------------------------------------------------------
  // Grouping

  /** Each name split into its router and method parts, when well formed. */
  function Parsed(procs: seq<string>): (r: seq<Option<(string, string)>>)
    ensures |r| == |procs|
    ensures forall i :: 0 <= i < |procs| ==> r[i] == ProcedureParts(procs[i])
  {
    seq(|procs|, i requires 0 <= i < |procs| => ProcedureParts(procs[i]))
  }

  /** The method parts, in order, of the parsed names under `router`. */
  function MethodsIn(ps: seq<Option<(string, string)>>, router: string): seq<string> {
    if ps == [] then []
    else
      var rest := MethodsIn(ps[1..], router);
      if ps[0].Some? && ps[0].value.0 == router then [ps[0].value.1] + rest else rest
  }

  /** The method parts, in order, of the well-formed names under `router`. */
  function MethodsUnder(procs: seq<string>, router: string): seq<string> {
    MethodsIn(Parsed(procs), router)
  }

  /** The methods grouped so far under `router`. */
  function Listed(acc: OMap<seq<string>>, router: string): seq<string> {
    match Get(acc, router)
    case Some(ms) => ms
    case None => []
  }

  /** The grouping loop over the parsed names, continuing from `acc`. */
  function GroupFrom(acc: OMap<seq<string>>, ps: seq<Option<(string, string)>>): OMap<seq<string>>
    decreases |ps|
  {
    if ps == [] then acc
    else if ps[0].None? then GroupFrom(acc, ps[1..])
    else
      var (router, methodName) := ps[0].value;
      GroupFrom(Put(acc, router, Listed(acc, router) + [methodName]), ps[1..])
  }

  /** The routers of the well-formed names in `ps` that `seen` lacks, each
      once, in order of first use. */
  function NewRouters(seen: seq<string>, ps: seq<Option<(string, string)>>): seq<string>
    decreases |ps|
  {
    if ps == [] then []
    else if ps[0].None? || ps[0].value.0 in seen then NewRouters(seen, ps[1..])
    else [ps[0].value.0] + NewRouters(seen + [ps[0].value.0], ps[1..])
  }

  /** Grouping keeps the keys it starts from, in place, and adds each new
      router once, when its first name comes. */
  lemma {:induction false} GroupFromKeys(acc: OMap<seq<string>>, ps: seq<Option<(string, string)>>)
    ensures Keys(GroupFrom(acc, ps)) == Keys(acc) + NewRouters(Keys(acc), ps)
    decreases |ps|
  {
    if ps == [] {
      assert Keys(acc) + [] == Keys(acc);
    } else if ps[0].None? {
      GroupFromKeys(acc, ps[1..]);
    } else {
      var acc' := GroupStep(acc, ps);
      GroupFromKeys(acc', ps[1..]);
      NewRoutersStep(Keys(acc), ps, Keys(acc'));
    }
  }

  /** One grouping step on a well-formed name: the router's key is kept in
      place or appended. */
  lemma GroupStep(acc: OMap<seq<string>>, ps: seq<Option<(string, string)>>) returns (acc': OMap<seq<string>>)
    requires ps != [] && ps[0].Some?
    ensures GroupFrom(acc, ps) == GroupFrom(acc', ps[1..])
    ensures Keys(acc') == if ps[0].value.0 in Keys(acc) then Keys(acc) else Keys(acc) + [ps[0].value.0]
  {
    var router := ps[0].value.0;
    acc' := Put(acc, router, Listed(acc, router) + [ps[0].value.1]);
  }

  /** The new routers after one well-formed name, given the keys `ks'` that
      name leaves. */
  lemma NewRoutersStep(ks: seq<string>, ps: seq<Option<(string, string)>>, ks': seq<string>)
    requires ps != [] && ps[0].Some?
    requires ks' == if ps[0].value.0 in ks then ks else ks + [ps[0].value.0]
    ensures ks' + NewRouters(ks', ps[1..]) == ks + NewRouters(ks, ps)
  {
    var router := ps[0].value.0;
    if router !in ks {
      var tail := NewRouters(ks', ps[1..]);
      assert NewRouters(ks, ps) == [router] + tail;
      assert ks + [router] + tail == ks + ([router] + tail);
    }
  }

  /** Grouping never duplicates a key. */
  lemma {:induction false} GroupFromDistinct(acc: OMap<seq<string>>, ps: seq<Option<(string, string)>>)
    requires DistinctKeys(acc)
    ensures DistinctKeys(GroupFrom(acc, ps))
    decreases |ps|
  {
    if ps != [] && ps[0].Some? {
      var (router, methodName) := ps[0].value;
      PutDistinct(acc, router, Listed(acc, router) + [methodName]);
      GroupFromDistinct(Put(acc, router, Listed(acc, router) + [methodName]), ps[1..]);
    } else if ps != [] {
      GroupFromDistinct(acc, ps[1..]);
    }
  }

  /** Appending `m` under `r` changes only what is listed under `r`. */
  lemma ListedPut(acc: OMap<seq<string>>, r: string, m: string, router: string)
    ensures var acc' := Put(acc, r, Listed(acc, r) + [m]);
            && (r == router ==> Get(acc', router) == Some(Listed(acc, router) + [m]))
            && (r != router ==> Get(acc', router) == Get(acc, router))
            && Listed(acc', router) == if r == router then Listed(acc, router) + [m] else Listed(acc, router)
  {
  }

  /** The grouping loop appends each method under its router, in order. */
  lemma {:induction false} GroupFromListed(acc: OMap<seq<string>>, ps: seq<Option<(string, string)>>, router: string)
    ensures Listed(GroupFrom(acc, ps), router) == Listed(acc, router) + MethodsIn(ps, router)
    decreases |ps|
  {
    if ps == [] {
      assert Listed(acc, router) + [] == Listed(acc, router);
    } else if ps[0].None? {
      assert GroupFrom(acc, ps) == GroupFrom(acc, ps[1..]);
      assert MethodsIn(ps, router) == MethodsIn(ps[1..], router);
      GroupFromListed(acc, ps[1..], router);
    } else {
      var r := ps[0].value.0;
      var m := ps[0].value.1;
      var acc' := Put(acc, r, Listed(acc, r) + [m]);
      assert GroupFrom(acc, ps) == GroupFrom(acc', ps[1..]);
      GroupFromListed(acc', ps[1..], router);
      ListedPut(acc, r, m, router);
      assert MethodsIn(ps, router) == if r == router then [m] + MethodsIn(ps[1..], router) else MethodsIn(ps[1..], router);
      AppendStep(Listed(acc, router), Listed(acc', router), m, MethodsIn(ps[1..], router), MethodsIn(ps, router), r == router);
    }
  }

  /** The bookkeeping of one grouping step: a method moved from the front of
      the remaining names to the end of the list so far. */
  lemma AppendStep(before: seq<string>, after: seq<string>, m: string, rest: seq<string>, all: seq<string>, hit: bool)
    requires after == if hit then before + [m] else before
    requires all == if hit then [m] + rest else rest
    ensures after + rest == before + all
  {
    if hit {
      assert after == before + [m] && all == [m] + rest;
      assert (before + [m]) + rest == before + ([m] + rest);
    } else {
      assert after == before && all == rest;
    }
  }

  /** The grouping loop creates a router's list exactly when some name
      uses it. */
  lemma {:induction false} GroupFromPresent(acc: OMap<seq<string>>, ps: seq<Option<(string, string)>>, router: string)
    ensures Get(GroupFrom(acc, ps), router).Some? <==> Get(acc, router).Some? || MethodsIn(ps, router) != []
    decreases |ps|
  {
    if ps != [] {
      if ps[0].None? {
        assert GroupFrom(acc, ps) == GroupFrom(acc, ps[1..]);
        assert MethodsIn(ps, router) == MethodsIn(ps[1..], router);
        GroupFromPresent(acc, ps[1..], router);
      } else {
        var r := ps[0].value.0;
        var m := ps[0].value.1;
        var acc' := Put(acc, r, Listed(acc, r) + [m]);
        assert GroupFrom(acc, ps) == GroupFrom(acc', ps[1..]);
        GroupFromPresent(acc', ps[1..], router);
        if r == router {
          assert Get(acc', router).Some?;
          assert MethodsIn(ps, router) != [];
        } else {
          assert Get(acc', router) == Get(acc, router);
          assert MethodsIn(ps, router) == MethodsIn(ps[1..], router);
        }
      }
    }
  }

  /** `groupProceduresByRouter`: a router appears exactly when some
      well-formed name uses it, and its list is the method parts of those
      names in input order; malformed names are dropped. */
  function GroupProceduresByRouter(procs: seq<string>): (r: OMap<seq<string>>)
    ensures forall router :: Get(r, router) ==
              (if MethodsUnder(procs, router) == [] then None else Some(MethodsUnder(procs, router)))
    ensures DistinctKeys(r)
    ensures Keys(r) == NewRouters([], Parsed(procs))
  {
    GroupSpec(procs);
    GroupFromKeys([], Parsed(procs));
    GroupFromDistinct([], Parsed(procs));
    GroupFrom([], Parsed(procs))
  }

  lemma GroupSpec(procs: seq<string>)
    ensures forall router :: Get(GroupFrom([], Parsed(procs)), router) ==
              (if MethodsUnder(procs, router) == [] then None else Some(MethodsUnder(procs, router)))
  {
    var r := GroupFrom([], Parsed(procs));
    forall router ensures Get(r, router) ==
            (if MethodsUnder(procs, router) == [] then None else Some(MethodsUnder(procs, router))) {
      GroupFromListed([], Parsed(procs), router);
      GroupFromPresent([], Parsed(procs), router);
      assert Get<seq<string>>([], router).None?;
      assert Listed([], router) + MethodsUnder(procs, router) == MethodsUnder(procs, router);
    }
  }

  lemma {:induction false} MethodsInSound(ps: seq<Option<(string, string)>>, router: string, m: string)
    requires m in MethodsIn(ps, router)
    ensures exists i :: 0 <= i < |ps| && ps[i] == Some((router, m))
    decreases |ps|
  {
    if ps[0] == Some((router, m)) {
    } else {
      MethodsInSound(ps[1..], router, m);
      var i :| 0 <= i < |ps[1..]| && ps[1..][i] == Some((router, m));
      assert ps[i + 1] == ps[1..][i];
    }
  }

  /** A method name is listed under a router only if some name pairs them. */
  lemma MethodsUnderSound(procs: seq<string>, router: string, m: string)
    requires m in MethodsUnder(procs, router)
    ensures exists i :: 0 <= i < |procs| && ProcedureParts(procs[i]) == Some((router, m))
  {
    MethodsInSound(Parsed(procs), router, m);
  }

  lemma {:induction false} MethodsInComplete(ps: seq<Option<(string, string)>>, router: string, i: nat)
    requires i < |ps| && ps[i].Some? && ps[i].value.0 == router
    ensures ps[i].value.1 in MethodsIn(ps, router)
    decreases i
  {
    if i > 0 {
      MethodsInComplete(ps[1..], router, i - 1);
      assert ps[1..][i - 1] == ps[i];
    }
  }

  /** Every well-formed name is listed under its router. */
  lemma MethodsUnderComplete(procs: seq<string>, i: nat)
    requires i < |procs| && ProcedureParts(procs[i]).Some?
    ensures ProcedureParts(procs[i]).value.1 in MethodsUnder(procs, ProcedureParts(procs[i]).value.0)
  {
    MethodsInComplete(Parsed(procs), ProcedureParts(procs[i]).value.0, i);
  }

  // ---------------------------------------------------------------------
  // Info

  datatype Info = Info(
    registeredControllers: seq<ControllerInfo>,
    availableProcedures: seq<string>,
    totalProcedures: nat,
    proceduresByRouter: OMap<seq<string>>)

  /** `getTrpcInfo` (GET /trpc), without the fixed descriptive texts. */
  function TrpcInfo(ctx: Context): (r: Info)
    ensures !ctx.introspectionFails ==>
              && Sorting.Sorted(r.availableProcedures)
              && multiset(r.availableProcedures) == multiset(Flatten(GetMainRouter(ctx.service).0))
    ensures ctx.introspectionFails ==> r.availableProcedures == StaticProcedures(r.registeredControllers)
    ensures r.totalProcedures == |r.availableProcedures|
    ensures Names(r.registeredControllers) == Keys(ctx.service.registered)
    ensures |r.registeredControllers| == |ctx.service.registered|
    ensures forall i :: 0 <= i < |r.registeredControllers| ==>
              && r.registeredControllers[i].className == ctx.service.registered[i].1.cls.name
              && r.registeredControllers[i].prefix == ctx.service.registered[i].1.meta.path
    ensures forall router :: Get(r.proceduresByRouter, router) ==
              (if MethodsUnder(r.availableProcedures, router) == [] then None
               else Some(MethodsUnder(r.availableProcedures, router)))
  {
    NamesOfRegistered(ctx.service.registered);
    var available := AvailableProcedures(ctx);
    Info(RegisteredControllers(ctx.service.registered), available, |available|, GroupProceduresByRouter(available))
  }
}

=== FILE: json.dfy ===
/** JSON values as the dispatch layer sees them after `JSON.parse`. */
module Json {
  import opened Wrappers
  import Text
  import OrderedMap

  /** A parsed JSON value. Numbers are modelled as integers. */
  datatype Json =
    | Null
    | Bool(b: bool)
    | Num(n: int)
    | Str(s: string)
    | Arr(items: seq<Json>)
    | Obj(fields: seq<(string, Json)>)

  /** The empty object literal `{}`. */
  const Empty: Json := Obj([])

  /** JavaScript truthiness. */
  predicate Truthy(v: Json) {
    match v
    case Null => false
    case Bool(b) => b
    case Num(n) => n != 0
    case Str(s) => s != ""
    case Arr(_) => true
    case Obj(_) => true
  }

  /** Truthiness of a property read that may be `undefined` (None). */
  predicate TruthyOpt(v: Option<Json>) {
    v.Some? && Truthy(v.value)
  }

  /** `typeof v === 'object' && v` : arrays and objects. */
  predicate IsObjectLike(v: Json) {
    v.Arr? || v.Obj?
  }

  /** The message of the TypeError thrown by reading property `k` of `null`. */
  function NullPropertyError(k: string): string {
    "Cannot read properties of null (reading '" + k + "')"
  }

  /** `v[k]`: reading own data properties. Reading from `null` throws;
      arrays and strings answer canonical index keys; a missing property is
      `undefined` (None). */
  function Prop(v: Json, k: string): (r: Result<Option<Json>, string>)
    ensures r.Err? <==> v.Null?
    ensures v.Obj? ==> r == Ok(OrderedMap.Get(v.fields, k))
    ensures v.Arr? ==> (r.value.Some? <==> Text.IsIndexKey(k) && Text.DigitsValue(k) < |v.items|)
    ensures (v.Bool? || v.Num?) ==> r == Ok(None)
  {
    match v
    case Null => Err(NullPropertyError(k))
    case Bool(_) => Ok(None)
    case Num(_) => Ok(None)
    case Str(s) =>
      (match Text.ParseIndex(k)
       case Some(i) => if i < |s| then Ok(Some(Str([s[i]]))) else Ok(None)
       case None => Ok(None))
    case Arr(xs) =>
      (match Text.ParseIndex(k)
       case Some(i) => if i < |xs| then Ok(Some(xs[i])) else Ok(None)
       case None => Ok(None))
    case Obj(fs) => Ok(OrderedMap.Get(fs, k))
  }

  /** `v?.[k]`: optional chaining yields `undefined` on `undefined` or `null`
      instead of throwing. */
  function OptProp(v: Option<Json>, k: string): (r: Option<Json>)
    ensures (v.None? || v == Some(Null)) ==> r.None?
  {
    if v.None? || v.value.Null? then None else Prop(v.value, k).value
  }

  /** `Object.entries(v)` of an object-like value: an array's entries are keyed
      by its printed indices. */
  function Entries(v: Json): (r: seq<(string, Json)>)
    requires IsObjectLike(v)
    ensures v.Obj? ==> r == v.fields
    ensures v.Arr? ==> |r| == |v.items|
                       && forall i :: 0 <= i < |r| ==> r[i] == (Text.NatToString(i), v.items[i])
  {
    match v
    case Obj(fs) => fs
    case Arr(xs) => seq(|xs|, i requires 0 <= i < |xs| => (Text.NatToString(i), xs[i]))
  }

  /** Reading an array at a printed index gives the element there. */
  lemma ArrayIndexRead(xs: seq<Json>, i: nat)
    requires i < |xs|
    ensures Prop(Arr(xs), Text.NatToString(i)) == Ok(Some(xs[i]))
  {
    Text.ParsePrintIndex(i);
  }

  /** The keys of an array's entries are distinct, since distinct indices
      print differently. */
  lemma ArrayEntriesDistinct(xs: seq<Json>)
    ensures OrderedMap.DistinctKeys(Entries(Arr(xs)))
  {
    var es := Entries(Arr(xs));
    forall i, j | 0 <= i < j < |es| ensures es[i].0 != es[j].0 {
      Text.NatToStringInjective(i, j);
    }
  }
}

=== FILE: main_router.dfy ===
/** The process-wide slot through which helper functions reach the
    aggregation service. The slot holds a reference, so the helpers always
    see the service object as it is now, including discovery and
    registrations that happened after it was published. */
module MainRouterAccess {
  import opened Wrappers
  import opened OrderedMap
  import opened Metadata
  import opened AutoRouter

  /** The live service objects, addressed by reference, and the slot, which
      is `null` (None) until a service publishes itself. */
  datatype Heap = Heap(services: seq<Service>, slot: Option<nat>)

  /** The slot never dangles. */
  predicate Valid(h: Heap) {
    h.slot.Some? ==> h.slot.value < |h.services|
  }

  const NotInitialized: string :=
    "AutoRouterService not initialized. Make sure TrpcNestModule is imported in your app module."

  /** `setAutoRouterService(service)`: the slot refers to `service`; no
      service object changes. */
  function SetAutoRouterService(h: Heap, ref: nat): (r: Heap)
    requires ref < |h.services|
    ensures Valid(r)
    ensures r.slot == Some(ref) && r.services == h.services
  {
    h.(slot := Some(ref))
  }

  /** `createMainRouter`: fails while the slot is empty, else asks the
      referenced service for its main router, which may build and cache one
      in that very object. */
  function CreateMainRouter(h: Heap): (r: Result<(MainRouter, Heap), string>)
    requires Valid(h)
    ensures h.slot.None? ==> r == Err(NotInitialized)
    ensures h.slot.Some? ==>
              var s := h.services[h.slot.value];
              && r.Ok? && r.value.0 == GetMainRouter(s).0
              && r.value.1 == h.(services := h.services[h.slot.value := GetMainRouter(s).1])
              && Valid(r.value.1)
  {
    match h.slot
    case None => Err(NotInitialized)
    case Some(ref) =>
      var (m, s') := GetMainRouter(h.services[ref]);
      Ok((m, h.(services := h.services[ref := s'])))
  }

  /** `getRegisteredControllers`: fails while the slot is empty, else lists
      the referenced service's controllers as they are now. */
  function GetRegisteredControllers(h: Heap): (r: Result<seq<ControllerInfo>, string>)
    requires Valid(h)
    ensures h.slot.None? ==> r == Err(NotInitialized)
    ensures h.slot.Some? ==> r == Ok(RegisteredControllers(h.services[h.slot.value].registered))
  {
    match h.slot
    case None => Err(NotInitialized)
    case Some(ref) => Ok(RegisteredControllers(h.services[ref].registered))
  }

  /** `onModuleInit` of the service at `ref`: it publishes itself and builds
      its main router in place. */
  function ModuleInit(h: Heap, ref: nat): (r: Heap)
    requires ref < |h.services| && DistinctKeys(h.services[ref].registered)
    ensures Valid(r) && r.slot == Some(ref)
    ensures |r.services| == |h.services|
    ensures Consistent(r.services[ref]) && r.services[ref].registered == h.services[ref].registered
    ensures forall i :: 0 <= i < |h.services| && i != ref ==> r.services[i] == h.services[i]
  {
    var s' := OnModuleInit(h.services[ref]);
    SetAutoRouterService(h.(services := h.services[ref := s']), ref)
  }

  /** `onApplicationBootstrap` of the service at `ref`, in place. */
  function Bootstrap(h: Heap, ref: nat, global: GlobalRegistry): (r: Heap)
    requires ref < |h.services|
    ensures r.slot == h.slot && |r.services| == |h.services|
    ensures r.services[ref] == OnApplicationBootstrap(h.services[ref], global)
    ensures forall i :: 0 <= i < |h.services| && i != ref ==> r.services[i] == h.services[i]
  {
    h.(services := h.services[ref := OnApplicationBootstrap(h.services[ref], global)])
  }

  /** `registerController` on the service at `ref`, in place. */
  function Register(h: Heap, ref: nat, cls: ClassDef, instance: Option<Instance>): (r: Heap)
    requires ref < |h.services|
    ensures r.slot == h.slot && |r.services| == |h.services|
    ensures r.services[ref] == RegisterController(h.services[ref], cls, instance)
    ensures forall i :: 0 <= i < |h.services| && i != ref ==> r.services[i] == h.services[i]
  {
    h.(services := h.services[ref := RegisterController(h.services[ref], cls, instance)])
  }

  /** After a later set, both entry points answer for the newer service. */
  lemma LatestSetWins(h: Heap, a: nat, b: nat)
    requires a < |h.services| && b < |h.services|
    ensures var h' := SetAutoRouterService(SetAutoRouterService(h, a), b);
            && GetRegisteredControllers(h') == Ok(RegisteredControllers(h.services[b].registered))
            && CreateMainRouter(h').Ok?
            && CreateMainRouter(h').value.0 == GetMainRouter(h.services[b]).0
  {
  }

  /** Right after initialisation, `createMainRouter` serves the router built
      from the registry and changes nothing. */
  lemma InitialisedServesBuiltRouter(h: Heap, ref: nat)
    requires ref < |h.services| && DistinctKeys(h.services[ref].registered)
    ensures var h' := ModuleInit(h, ref);
            CreateMainRouter(h') == Ok((BuildMainRouter(h.services[ref].registered), h'))
  {
    var h' := ModuleInit(h, ref);
    assert h'.services[ref := h'.services[ref]] == h'.services;
  }

  /** Discovery that runs after the service published itself is visible
      through the slot: both entry points answer for the discovered
      registry. */
  lemma DiscoveryVisibleThroughSlot(h: Heap, ref: nat, global: GlobalRegistry)
    requires ref < |h.services| && DistinctKeys(h.services[ref].registered)
    requires h.services[ref].autoDiscovery
    ensures var h' := Bootstrap(ModuleInit(h, ref), ref, global);
            var reg := Discover(h.services[ref].registered, global);
            && Valid(h')
            && GetRegisteredControllers(h') == Ok(RegisteredControllers(reg))
            && CreateMainRouter(h').Ok?
            && CreateMainRouter(h').value.0 == BuildMainRouter(reg)
  {
    var h1 := ModuleInit(h, ref);
    var h' := Bootstrap(h1, ref, global);
    assert h1.services[ref].autoDiscovery == h.services[ref].autoDiscovery;
    assert Consistent(h'.services[ref]);
  }

  /** A controller registered after publication is listed through the slot
      under its router name, and `createMainRouter` serves the rebuilt
      router. */
  lemma RegistrationVisibleThroughSlot(h: Heap, ref: nat, cls: ClassDef, instance: Option<Instance>)
    requires h.slot == Some(ref) && ref < |h.services|
    requires Consistent(h.services[ref]) && cls.routerMeta.Some?
    ensures var h' := Register(h, ref, cls, instance);
            && Valid(h')
            && GetRegisteredControllers(h').Ok?
            && RouterName(cls, cls.routerMeta.value) in Names(GetRegisteredControllers(h').value)
            && CreateMainRouter(h').Ok?
            && CreateMainRouter(h').value.0 == BuildMainRouter(h'.services[ref].registered)
  {
    var h' := Register(h, ref, cls, instance);
    var reg := h'.services[ref].registered;
    NamesOfRegistered(reg);
    assert Get(reg, RouterName(cls, cls.routerMeta.value)).Some?;
  }
}

=== FILE: metadata.dfy ===
/** Decorator metadata: what `@Router`, `@Query`, `@Mutation` and
    `@Subscription` record, and the classes they are attached to. */
module Metadata {
  import opened Wrappers
  import opened Json

  /** A controller method as the router sees it; `None` is a call with no
      argument, `Some(v)` a call with argument `v`. A thrown error is `Err`. */
  type Handler = Option<Json> -> Result<Json, string>

  /** A live controller object: the methods it answers, by property name. */
  type Instance = map<string, Handler>

  /** A validation schema, seen only through its total `parse`. */
  type Schema = Json -> Result<Json, string>

  /** The `type` tag of a procedure. The decorators only ever write the first
      three; `Unknown` stands for any other value stored under the key. */
  datatype ProcedureType = QueryType | MutationType | SubscriptionType | Unknown(tag: string)

  datatype ProcedureMetadata = ProcedureMetadata(
    kind: ProcedureType,
    path: string,
    methodName: string,
    input: Option<Schema>,
    output: Option<Schema>)

  /** Router metadata; `procedures` is created empty and never filled. */
  datatype RouterMetadata = RouterMetadata(path: string, procedures: map<string, ProcedureMetadata>)

  datatype ControllerOptions = ControllerOptions(prefix: Option<string>)

  datatype ProcedureOptions = ProcedureOptions(input: Option<Schema>, output: Option<Schema>)

  const NoControllerOptions := ControllerOptions(None)
  const NoProcedureOptions := ProcedureOptions(None, None)

  /** A controller class: its name, the own property names of its prototype
      in order (`constructor` included), what `new C()` yields (`None` when the
      constructor throws), and the metadata its decorators attached. */
  datatype ClassDef = ClassDef(
    name: string,
    ownNames: seq<string>,
    construct: Option<Instance>,
    routerMeta: Option<RouterMetadata>,
    procMeta: map<string, ProcedureMetadata>)

  /** `@Router(options)`: the prefix when it is a non-empty string, else the
      empty path. */
  function Router(options: ControllerOptions): (r: RouterMetadata)
    ensures r.procedures == map[]
    ensures r.path == "" || options.prefix == Some(r.path)
    ensures options.prefix.Some? && options.prefix.value != "" ==> r.path == options.prefix.value
  {
    var path := if options.prefix.Some? && options.prefix.value != "" then options.prefix.value else "";
    RouterMetadata(path, map[])
  }

  /** The record every method decorator writes for property `key`. */
  function Describe(kind: ProcedureType, path: Option<string>, key: string, options: ProcedureOptions): (r: ProcedureMetadata)
    ensures r.kind == kind && r.methodName == key
    ensures r.input == options.input && r.output == options.output
    ensures r.path == key || (path == Some(r.path) && r.path != "")
    ensures path.Some? && path.value != "" ==> r.path == path.value
  {
    var procedurePath := if path.Some? && path.value != "" then path.value else key;
    ProcedureMetadata(kind, procedurePath, key, options.input, options.output)
  }

  /** `@Query(path, options)` applied to the method named `key`. */
  function Query(path: Option<string>, key: string, options: ProcedureOptions): (r: ProcedureMetadata)
    ensures r.kind == QueryType && r.methodName == key
    ensures r.input == options.input && r.output == options.output
    ensures path.Some? && path.value != "" ==> r.path == path.value
    ensures path.None? || path == Some("") ==> r.path == key
  {
    Describe(QueryType, path, key, options)
  }

  /** `@Mutation(path, options)` applied to the method named `key`. */
  function Mutation(path: Option<string>, key: string, options: ProcedureOptions): (r: ProcedureMetadata)
    ensures r.kind == MutationType && r.methodName == key
    ensures r.input == options.input && r.output == options.output
    ensures path.Some? && path.value != "" ==> r.path == path.value
    ensures path.None? || path == Some("") ==> r.path == key
  {
    Describe(MutationType, path, key, options)
  }

  /** `@Subscription(path, options)` applied to the method named `key`. */
  function Subscription(path: Option<string>, key: string, options: ProcedureOptions): (r: ProcedureMetadata)
    ensures r.kind == SubscriptionType && r.methodName == key
    ensures r.input == options.input && r.output == options.output
    ensures path.Some? && path.value != "" ==> r.path == path.value
    ensures path.None? || path == Some("") ==> r.path == key
  {
    Describe(SubscriptionType, path, key, options)
  }

  /** Applying a class decorator: re-applying overwrites. */
  function WithRouter(cls: ClassDef, meta: RouterMetadata): (c: ClassDef)
    ensures c.routerMeta == Some(meta)
    ensures c.name == cls.name && c.ownNames == cls.ownNames && c.procMeta == cls.procMeta
  {
    cls.(routerMeta := Some(meta))
  }

  /** Applying a method decorator to the method `key`: re-applying overwrites,
      other methods keep their metadata. */
  function WithProcedure(cls: ClassDef, key: string, meta: ProcedureMetadata): (c: ClassDef)
    ensures key in c.procMeta && c.procMeta[key] == meta
    ensures forall m :: m != key ==> (m in c.procMeta <==> m in cls.procMeta)
    ensures forall m :: m != key && m in cls.procMeta ==> c.procMeta[m] == cls.procMeta[m]
    ensures c.name == cls.name && c.ownNames == cls.ownNames && c.routerMeta == cls.routerMeta
  {
    cls.(procMeta := cls.procMeta[key := meta])
  }

  /** A method the builders turn into a procedure: any own property other
      than `constructor` that carries procedure metadata. */
  predicate Annotated(cls: ClassDef, m: string) {
    m != "constructor" && m in cls.procMeta
  }

  /** The method a path resolves to among `ns`: the last annotated method in
      `ns` whose metadata path is `p`, since a later assignment overwrites an
      earlier one. */
  function LastMethodFor(cls: ClassDef, ns: seq<string>, p: string): (r: Option<string>)
    ensures r.Some? ==> r.value in ns && Annotated(cls, r.value) && cls.procMeta[r.value].path == p
    ensures r.None? <==> forall m :: m in ns && Annotated(cls, m) ==> cls.procMeta[m].path != p
  {
    if ns == [] then None
    else match LastMethodFor(cls, ns[1..], p) {
      case Some(m) => Some(m)
      case None =>
        if Annotated(cls, ns[0]) && cls.procMeta[ns[0]].path == p then Some(ns[0]) else None
    }
  }

  /** The paths of the annotated own methods of `cls` among `ns`. */
  function PathsOf(cls: ClassDef, ns: seq<string>): set<string> {
    set m | m in ns && Annotated(cls, m) :: cls.procMeta[m].path
  }
}

=== FILE: ordered_map.dfy ===
/** Insertion-ordered string-keyed maps: the model of a JavaScript `Map`,
    and of a plain object used as a record as long as its keys are neither
    integer-like nor the names of `Object.prototype` properties (such as
    `__proto__` or `constructor`), which plain objects treat specially. */
module OrderedMap {
  import opened Wrappers

  type OMap<V> = seq<(string, V)>

  function Keys<V>(m: OMap<V>): (ks: seq<string>)
    ensures |ks| == |m|
  {
    if m == [] then [] else [m[0].0] + Keys(m[1..])
  }

  /** The i-th key is the key of the i-th entry. */
  lemma {:induction false} KeysAt<V>(m: OMap<V>, i: nat)
    requires i < |m|
    ensures Keys(m)[i] == m[i].0
  {
    if i > 0 {
      KeysAt(m[1..], i - 1);
    }
  }

  /** No key is stored twice. */
  predicate DistinctKeys<V>(m: OMap<V>) {
    forall i, j :: 0 <= i < j < |m| ==> m[i].0 != m[j].0
  }

  /** `m.get(k)`: the value stored under the first entry with key `k`. */
  function Get<V>(m: OMap<V>, k: string): (r: Option<V>)
    ensures r.None? <==> k !in Keys(m)
  {
    if m == [] then None
    else if m[0].0 == k then Some(m[0].1)
    else
      assert Keys(m) == [m[0].0] + Keys(m[1..]);
      Get(m[1..], k)
  }

  /** `m.set(k, v)`: an existing key keeps its position and takes the new
      value; a new key is appended. */
  function Put<V>(m: OMap<V>, k: string, v: V): (r: OMap<V>)
    ensures Get(r, k) == Some(v)
    ensures forall k' :: k' != k ==> Get(r, k') == Get(m, k')
    ensures Keys(r) == if k in Keys(m) then Keys(m) else Keys(m) + [k]
  {
    if m == [] then
      [(k, v)]
    else if m[0].0 == k then
      var r := [(k, v)] + m[1..];
      assert r[1..] == m[1..];
      r
    else
      var p := Put(m[1..], k, v);
      var r := [m[0]] + p;
      assert r[1..] == p;
      r
  }

  /** Setting a key never introduces a duplicate key. */
  lemma {:induction false} PutDistinct<V>(m: OMap<V>, k: string, v: V)
    requires DistinctKeys(m)
    ensures DistinctKeys(Put(m, k, v))
  {
    if m != [] && m[0].0 != k {
      PutDistinct(m[1..], k, v);
      var r := Put(m, k, v);
      forall j | 0 < j < |r|
        ensures r[0].0 != r[j].0
      {
        KeysAt(r, j);
        KeysAt(m, 0);
        assert r[0].0 == m[0].0;
        assert r[j].0 in Keys(r);
        if k in Keys(m) {
          assert r[j].0 in Keys(m[1..]) by { assert Keys(r)[1..] == Keys(m)[1..] == Keys(m[1..]); }
        } else {
          assert r[j].0 in Keys(m[1..]) + [k] by { assert Keys(r)[1..] == (Keys(m) + [k])[1..] == Keys(m[1..]) + [k]; }
        }
        if r[j].0 in Keys(m[1..]) {
          var t :| 0 <= t < |Keys(m[1..])| && Keys(m[1..])[t] == r[j].0;
          KeysAt(m[1..], t);
        }
      }
    }
  }

  /** On distinct keys, `Get` finds exactly the stored entry. */
  lemma {:induction false} GetAt<V>(m: OMap<V>, i: nat)
    requires DistinctKeys(m)
    requires i < |m|
    ensures Get(m, m[i].0) == Some(m[i].1)
  {
    if i > 0 {
      assert m[1..][i - 1] == m[i];
      GetAt(m[1..], i - 1);
    }
  }

  /** A map whose entries are those of `m` with each value transformed by
      `f` answers every lookup with the transformed value, and keeps the
      keys distinct when `m` does. */
  lemma {:induction false} GetPointwise<V, W>(m: OMap<V>, n: OMap<W>, f: V -> W, k: string)
    requires |n| == |m|
    requires forall i :: 0 <= i < |m| ==> n[i] == (m[i].0, f(m[i].1))
    ensures Get(n, k) == if Get(m, k).Some? then Some(f(Get(m, k).value)) else None
    ensures DistinctKeys(m) ==> DistinctKeys(n)
  {
    if m != [] {
      assert forall i :: 0 <= i < |m| - 1 ==> n[1..][i] == (m[1..][i].0, f(m[1..][i].1));
      GetPointwise(m[1..], n[1..], f, k);
    }
  }
}

=== FILE: posts.dfy ===
/** The example post store: lookup, listing by author, creation with a
    fresh id, partial update and deletion. Timestamps are given by the
    caller as `now`. */
module Posts {
  import opened Wrappers
  import Store

  datatype Post = Post(id: int, title: string, content: string, authorId: int, createdAt: int, updatedAt: int)

  /** A validated creation request. */
  datatype NewPost = NewPost(title: string, content: string, authorId: int)

  /** A validated update request: absent fields are left alone. */
  datatype PostUpdate = PostUpdate(id: int, title: Option<string>, content: Option<string>)

  function Id(p: Post): int {
    p.id
  }

  /** `getById`: the first post with the id, or null. */
  function GetById(posts: seq<Post>, id: int): (r: Option<Post>)
    ensures r.None? <==> forall i :: 0 <= i < |posts| ==> posts[i].id != id
    ensures r.Some? ==> exists i :: 0 <= i < |posts| && posts[i] == r.value && r.value.id == id &&
                                    forall j :: 0 <= j < i ==> posts[j].id != id
  {
    Store.Lookup(posts, Id, id)
  }

  /** `getByAuthor` */
  function GetByAuthor(posts: seq<Post>, authorId: int): (r: seq<Post>)
    ensures forall p :: p in r <==> p in posts && p.authorId == authorId
  {
    Store.FilterSpec(posts, [], (p: Post) => p.authorId == authorId);
    Store.Filter(posts, (p: Post) => p.authorId == authorId)
  }

  /** Listing by author keeps the store's order. */
  lemma GetByAuthorKeepsOrder(a: seq<Post>, b: seq<Post>, authorId: int)
    ensures GetByAuthor(a + b, authorId) == GetByAuthor(a, authorId) + GetByAuthor(b, authorId)
  {
    Store.FilterSpec(a, b, (p: Post) => p.authorId == authorId);
  }

  datatype Created = Created(post: Post, posts: seq<Post>)

  /** `create`: the new post echoes the request, takes an id above every
      existing one, and is appended at the end. The code reads the clock
      once per stamp, so the two stamps are separate readings. */
  function Create(posts: seq<Post>, input: NewPost, createdAt: int, updatedAt: int): (r: Created)
    ensures r.posts == posts + [r.post]
    ensures r.post.title == input.title && r.post.content == input.content && r.post.authorId == input.authorId
    ensures r.post.createdAt == createdAt && r.post.updatedAt == updatedAt
    ensures r.post.id >= 1
    ensures forall i :: 0 <= i < |posts| ==> posts[i].id < r.post.id
    ensures r.post.id == 1 || exists i :: 0 <= i < |posts| && posts[i].id == r.post.id - 1
    ensures r.post.id == Store.MaxId(posts, Id) + 1
  {
    var p := Post(Store.NextId(posts, Id), input.title, input.content, input.authorId, createdAt, updatedAt);
    Created(p, posts + [p])
  }

  /** A text field is replaced only by a supplied, non-empty value. */
  function Replace(current: string, given: Option<string>): (r: string)
    ensures given.Some? && given.value != "" ==> r == given.value
    ensures given.None? || given.value == "" ==> r == current
  {
    if given.Some? && given.value != "" then given.value else current
  }

  datatype Updated = Updated(post: Option<Post>, posts: seq<Post>)

  /** `update`: on the first post with the id, title and content change only
      when supplied and non-empty, `updatedAt` becomes `now`, and id, author,
      creation time and position stay; an unknown id changes nothing. */
  function Update(posts: seq<Post>, input: PostUpdate, now: int): (r: Updated)
    ensures r.post.None? <==> forall i :: 0 <= i < |posts| ==> posts[i].id != input.id
    ensures r.post.None? ==> r.posts == posts
    ensures |r.posts| == |posts|
    ensures r.post.Some? ==>
              exists i :: 0 <= i < |posts| && posts[i].id == input.id && r.posts == posts[i := r.post.value] &&
                          (forall j :: 0 <= j < i ==> posts[j].id != input.id) &&
                          r.post.value == posts[i].(title := Replace(posts[i].title, input.title),
                                                    content := Replace(posts[i].content, input.content),
                                                    updatedAt := now)
  {
    match Store.FindIndex(posts, Id, input.id)
    case None => Updated(None, posts)
    case Some(i) =>
      var p := posts[i];
      var p' := p.(title := Replace(p.title, input.title), content := Replace(p.content, input.content), updatedAt := now);
      Updated(Some(p'), posts[i := p'])
  }

  datatype Deleted = Deleted(success: bool, posts: seq<Post>)

  /** `delete`: removes the first post with the id and reports success; an
      unknown id changes nothing. */
  function Delete(posts: seq<Post>, id: int): (r: Deleted)
    ensures !r.success <==> forall i :: 0 <= i < |posts| ==> posts[i].id != id
    ensures !r.success ==> r.posts == posts
    ensures r.success ==> |r.posts| == |posts| - 1
    ensures r.success ==>
              exists i :: 0 <= i < |posts| && posts[i].id == id && r.posts == posts[..i] + posts[i + 1..] &&
                          forall j :: 0 <= j < i ==> posts[j].id != id
  {
    var (found, rest) := Store.DeleteFirst(posts, Id, id);
    Deleted(found, rest)
  }

  /** Every operation keeps ids unique; an update with nothing to change
      only touches `updatedAt`, and updating again with the same request at
      the same time changes nothing more. */
  lemma StoreInvariant(posts: seq<Post>, input: NewPost, change: PostUpdate, id: int, createdAt: int, now: int)
    requires Store.UniqueIds(posts, Id)
    ensures Store.UniqueIds(Create(posts, input, createdAt, now).posts, Id)
    ensures Store.UniqueIds(Update(posts, change, now).posts, Id)
    ensures Store.UniqueIds(Delete(posts, id).posts, Id)
    ensures GetById(Delete(posts, id).posts, id).None?
    ensures Update(Update(posts, change, now).posts, change, now).posts == Update(posts, change, now).posts
  {
    var c := Create(posts, input, createdAt, now);
    Store.AppendFresh(posts, Id, c.post);
    match Store.FindIndex(posts, Id, id) {
      case None =>
      case Some(i) =>
        Store.RemovePreservesUnique(posts, Id, i);
    }
    UpdateKeepsIds(posts, change, now);
  }

  /** Updating keeps every id in place, so it keeps ids unique and a second
      identical update changes nothing further. */
  lemma UpdateKeepsIds(posts: seq<Post>, change: PostUpdate, now: int)
    requires Store.UniqueIds(posts, Id)
    ensures Store.UniqueIds(Update(posts, change, now).posts, Id)
    ensures Update(Update(posts, change, now).posts, change, now).posts == Update(posts, change, now).posts
  {
    var u := Update(posts, change, now);
    match Store.FindIndex(posts, Id, change.id) {
      case None =>
      case Some(i) =>
        assert forall j :: 0 <= j < |posts| ==> u.posts[j].id == posts[j].id;
        assert Store.FindIndex(u.posts, Id, change.id) == Some(i);
    }
  }

  /** An update that supplies nothing keeps title and content. */
  lemma EmptyUpdateOnlyStamps(posts: seq<Post>, id: int, now: int)
    ensures var r := Update(posts, PostUpdate(id, None, None), now);
            r.post.Some? ==> exists i :: 0 <= i < |posts| && r.posts == posts[i := posts[i].(updatedAt := now)]
  {
  }
}

=== FILE: router_builder.dfy ===
/** Building one controller's sub-router: `generateRouter`, `createProcedure`
    and `getTrpcControllers`. */
module RouterBuilder {
  import opened Wrappers
  import opened Json
  import opened Metadata
  import opened OrderedMap

  /** A built procedure: its kind, its input schema, and the method of the
      instance it calls. The router library's own procedure object is not
      modelled. */
  datatype Procedure = Procedure(
    kind: ProcedureType,
    input: Option<Schema>,
    instance: Option<Instance>,
    methodName: string)

  /** A sub-router: procedures keyed by procedure path. */
  type SubRouter = OMap<Procedure>

  /** The procedure the builder makes for the annotated method `m`. */
  function ProcedureFor(cls: ClassDef, instance: Option<Instance>, m: string): Procedure
    requires Annotated(cls, m)
  {
    Procedure(cls.procMeta[m].kind, cls.procMeta[m].input, instance, m)
  }

  /** `createProcedure`: one procedure per known kind; any other tag throws. */
  function CreateProcedure(meta: ProcedureMetadata, instance: Option<Instance>, methodName: string): (r: Result<Procedure, string>)
    ensures r.Err? <==> meta.kind.Unknown?
    ensures r.Err? ==> r.error == "Unknown procedure type: " + meta.kind.tag
    ensures r.Ok? ==> r.value.kind == meta.kind && r.value.input == meta.input
                      && r.value.instance == instance && r.value.methodName == methodName
  {
    match meta.kind
    case Unknown(tag) => Err("Unknown procedure type: " + tag)
    case _ => Ok(Procedure(meta.kind, meta.input, instance, methodName))
  }

  /** `instance[m](arg)`: a missing instance or a missing method throws a
      TypeError before any handler runs. */
  function Call(instance: Option<Instance>, m: string, arg: Option<Json>): (r: Result<Json, string>)
    ensures instance.Some? && m in instance.value ==> r == instance.value[m](arg)
    ensures instance.None? || m !in instance.value ==> r.Err?
  {
    if instance.None? then Err(NullPropertyError(m))
    else if m !in instance.value then Err(m + " is not a function")
    else instance.value[m](arg)
  }

  /** Running a built procedure on a raw input: with an input schema the
      method receives the parsed input and a rejected input never reaches it;
      without one the method is called with no argument and the raw input is
      ignored. The procedure kind plays no part. */
  function Invoke(p: Procedure, raw: Json): (r: Result<Json, string>)
    ensures p.input.None? ==> r == Call(p.instance, p.methodName, None)
    ensures p.input.Some? && p.input.value(raw).Ok? ==> r == Call(p.instance, p.methodName, Some(p.input.value(raw).value))
    ensures p.input.Some? && p.input.value(raw).Err? ==> r == Err(p.input.value(raw).error)
  {
    match p.input
    case None => Call(p.instance, p.methodName, None)
    case Some(schema) =>
      match schema(raw)
      case Err(e) => Err(e)
      case Ok(v) => Call(p.instance, p.methodName, Some(v))
  }

  /** The procedure table loop over the method names `ns`, continuing from
      the table `acc`. */
  function ProceduresFrom(cls: ClassDef, instance: Option<Instance>, acc: SubRouter, ns: seq<string>): Result<SubRouter, string>
    decreases |ns|
  {
    if ns == [] then Ok(acc)
    else if !Annotated(cls, ns[0]) then ProceduresFrom(cls, instance, acc, ns[1..])
    else match CreateProcedure(cls.procMeta[ns[0]], instance, ns[0]) {
      case Err(e) => Err(e)
      case Ok(p) => ProceduresFrom(cls, instance, Put(acc, cls.procMeta[ns[0]].path, p), ns[1..])
    }
  }

  /** Every annotated method among `ns` has a kind the builder knows. */
  predicate AllKnown(cls: ClassDef, ns: seq<string>) {
    forall m :: m in ns && Annotated(cls, m) ==> !cls.procMeta[m].kind.Unknown?
  }

  /** The table loop succeeds exactly when every annotated kind is known; it
      then maps each path to the procedure of the last method declaring it,
      and leaves the paths no method declares as they were. */
  lemma {:induction false} ProceduresFromSpec(cls: ClassDef, instance: Option<Instance>, acc: SubRouter, ns: seq<string>)
    ensures ProceduresFrom(cls, instance, acc, ns).Ok? <==> AllKnown(cls, ns)
    ensures ProceduresFrom(cls, instance, acc, ns).Ok? ==>
              forall p :: Get(ProceduresFrom(cls, instance, acc, ns).value, p) ==
                (match LastMethodFor(cls, ns, p)
                 case Some(m) => Some(ProcedureFor(cls, instance, m))
                 case None => Get(acc, p))
    ensures ProceduresFrom(cls, instance, acc, ns).Ok? && DistinctKeys(acc) ==>
              DistinctKeys(ProceduresFrom(cls, instance, acc, ns).value)
    decreases |ns|
  {
    if ns != [] {
      var rest := ns[1..];
      assert ns == [ns[0]] + rest;
      assert forall m :: m in ns <==> m == ns[0] || m in rest;
      if !Annotated(cls, ns[0]) {
        ProceduresFromSpec(cls, instance, acc, rest);
      } else if cls.procMeta[ns[0]].kind.Unknown? {
        assert !AllKnown(cls, ns);
      } else {
        var p0 := ProcedureFor(cls, instance, ns[0]);
        var acc' := Put(acc, cls.procMeta[ns[0]].path, p0);
        ProceduresFromSpec(cls, instance, acc', rest);
        if DistinctKeys(acc) {
          PutDistinct(acc, cls.procMeta[ns[0]].path, p0);
        }
      }
    }
  }

  /** `generateRouter`: fails naming the class when it carries no router
      metadata, fails when a method has an unknown kind, and otherwise holds
      one procedure per annotated own method path, the last method declaring
      a path winning. */
  function GenerateRouter(cls: ClassDef, instance: Option<Instance>): (r: Result<SubRouter, string>)
    ensures cls.routerMeta.None? ==> r == Err("Controller " + cls.name + " is not marked with @TrpcRouter decorator")
    ensures cls.routerMeta.Some? ==> (r.Ok? <==> AllKnown(cls, cls.ownNames))
    ensures r.Ok? ==> DistinctKeys(r.value)
    ensures r.Ok? ==> forall p :: p in Keys(r.value) <==> p in PathsOf(cls, cls.ownNames)
    ensures r.Ok? ==> forall p :: Get(r.value, p).Some? ==>
              && LastMethodFor(cls, cls.ownNames, p).Some?
              && Get(r.value, p).value == ProcedureFor(cls, instance, LastMethodFor(cls, cls.ownNames, p).value)
  {
    if cls.routerMeta.None? then
      Err("Controller " + cls.name + " is not marked with @TrpcRouter decorator")
    else
      ProceduresFromSpec(cls, instance, [], cls.ownNames);
      var r := ProceduresFrom(cls, instance, [], cls.ownNames);
      assert r.Ok? ==> forall p :: p in Keys(r.value) <==> p in PathsOf(cls, cls.ownNames) by {
        if r.Ok? {
          forall p ensures p in Keys(r.value) <==> p in PathsOf(cls, cls.ownNames) {
            assert Get<Procedure>([], p).None?;
            assert p in Keys(r.value) <==> LastMethodFor(cls, cls.ownNames, p).Some?;
            if p in PathsOf(cls, cls.ownNames) {
              var m :| m in cls.ownNames && Annotated(cls, m) && cls.procMeta[m].path == p;
            }
          }
        }
      }
      r
  }

  /** `getTrpcControllers`: the classes that carry router metadata. */
  function TrpcControllers(classes: seq<ClassDef>): (r: seq<ClassDef>)
    ensures |r| <= |classes|
    ensures forall i :: 0 <= i < |r| ==> r[i].routerMeta.Some?
    ensures forall c :: c in classes && c.routerMeta.Some? ==> c in r
    ensures forall c :: c in r ==> c in classes
  {
    RoutersSpec(classes);
    Routers(classes)
  }

  /** The filter itself. */
  function Routers(classes: seq<ClassDef>): seq<ClassDef> {
    if classes == [] then []
    else if classes[0].routerMeta.Some? then [classes[0]] + Routers(classes[1..])
    else Routers(classes[1..])
  }

  lemma {:induction false} RoutersSpec(classes: seq<ClassDef>)
    ensures |Routers(classes)| <= |classes|
    ensures forall i :: 0 <= i < |Routers(classes)| ==> Routers(classes)[i].routerMeta.Some?
    ensures forall c :: c in classes && c.routerMeta.Some? ==> c in Routers(classes)
    ensures forall c :: c in Routers(classes) ==> c in classes
  {
    if classes != [] {
      RoutersSpec(classes[1..]);
      assert forall c :: c in classes ==> c == classes[0] || c in classes[1..];
    }
  }

  /** The filter distributes over concatenation, so it keeps the relative
      order of the classes it keeps. */
  lemma TrpcControllersAppend(a: seq<ClassDef>, b: seq<ClassDef>)
    ensures TrpcControllers(a + b) == TrpcControllers(a) + TrpcControllers(b)
  {
    RoutersAppend(a, b);
  }

  lemma {:induction false} RoutersAppend(a: seq<ClassDef>, b: seq<ClassDef>)
    ensures Routers(a + b) == Routers(a) + Routers(b)
    decreases |a|
  {
    if a != [] {
      assert (a + b)[0] == a[0] && (a + b)[1..] == a[1..] + b;
      RoutersAppend(a[1..], b);
    } else {
      assert a + b == b;
    }
  }
}

=== FILE: sorting.dfy ===
/** `Array.prototype.sort` on strings: ascending by character code. */
module Sorting {

  /** Strict lexicographic order on character codes. */
  predicate Less(a: string, b: string) {
    if a == [] then b != []
    else if b == [] then false
    else a[0] < b[0] || (a[0] == b[0] && Less(a[1..], b[1..]))
  }

  predicate LessEq(a: string, b: string) {
    a == b || Less(a, b)
  }

  lemma {:induction false} LessTotal(a: string, b: string)
    ensures a == b || Less(a, b) || Less(b, a)
  {
    if a != [] && b != [] && a[0] == b[0] {
      LessTotal(a[1..], b[1..]);
      if a[1..] == b[1..] {
        assert a == [a[0]] + a[1..] && b == [b[0]] + b[1..];
      }
    }
  }

  lemma {:induction false} LessTransitive(a: string, b: string, c: string)
    requires Less(a, b) && Less(b, c)
    ensures Less(a, c)
  {
    if a != [] && a[0] == b[0] && b[0] == c[0] {
      LessTransitive(a[1..], b[1..], c[1..]);
    }
  }

  predicate Sorted(s: seq<string>) {
    forall i, j :: 0 <= i < j < |s| ==> LessEq(s[i], s[j])
  }

  /** Inserting `x` before the first element it does not exceed adds exactly
      `x`. */
  function Insert(x: string, s: seq<string>): (r: seq<string>)
    ensures multiset(r) == multiset(s) + multiset{x}
    ensures |r| == |s| + 1
  {
    if s == [] then [x]
    else if LessEq(x, s[0]) then [x] + s
    else
      assert s == [s[0]] + s[1..];
      [s[0]] + Insert(x, s[1..])
  }

  /** `b` is a lower bound of every element of `s`. */
  predicate Below(b: string, s: seq<string>) {
    forall j :: 0 <= j < |s| ==> LessEq(b, s[j])
  }

  lemma {:induction false} SortedCons(a: string, t: seq<string>)
    requires Sorted(t) && Below(a, t)
    ensures Sorted([a] + t)
  {
    var r := [a] + t;
    forall i, j | 0 <= i < j < |r| ensures LessEq(r[i], r[j]) {
      assert r[j] == t[j - 1];
      if i > 0 { assert r[i] == t[i - 1]; }
    }
  }

  /** A lower bound of `x` and of `s` bounds the insertion too. */
  lemma {:induction false} InsertBelow(b: string, x: string, s: seq<string>)
    requires LessEq(b, x) && Below(b, s)
    ensures Below(b, Insert(x, s))
    decreases |s|
  {
    if s != [] && !LessEq(x, s[0]) {
      InsertBelow(b, x, s[1..]);
      var r := Insert(x, s);
      assert r == [s[0]] + Insert(x, s[1..]);
      forall j | 0 < j < |r| ensures LessEq(b, r[j]) {
        assert r[j] == Insert(x, s[1..])[j - 1];
      }
    }
  }

  /** Inserting into a sorted list keeps it sorted. */
  lemma {:induction false} InsertSorted(x: string, s: seq<string>)
    requires Sorted(s)
    ensures Sorted(Insert(x, s))
    decreases |s|
  {
    if s != [] {
      if LessEq(x, s[0]) {
        forall j | 0 <= j < |s| ensures LessEq(x, s[j]) {
          if x != s[0] && s[0] != s[j] { LessTransitive(x, s[0], s[j]); }
        }
        SortedCons(x, s);
      } else {
        LessTotal(x, s[0]);
        assert Sorted(s[1..]) by {
          forall i, j | 0 <= i < j < |s[1..]| ensures LessEq(s[1..][i], s[1..][j]) {
            assert s[1..][i] == s[i + 1] && s[1..][j] == s[j + 1];
          }
        }
        InsertSorted(x, s[1..]);
        assert Below(s[0], s[1..]) by {
          forall j | 0 <= j < |s[1..]| ensures LessEq(s[0], s[1..][j]) {
            assert s[1..][j] == s[j + 1];
          }
        }
        InsertBelow(s[0], x, s[1..]);
        SortedCons(s[0], Insert(x, s[1..]));
      }
    }
  }

  /** `xs.sort()`: the same strings, in ascending order. */
  function Sort(xs: seq<string>): (r: seq<string>)
    ensures Sorted(r)
    ensures multiset(r) == multiset(xs)
  {
    if xs == [] then []
    else
      assert xs == [xs[0]] + xs[1..];
      InsertSorted(xs[0], Sort(xs[1..]));
      Insert(xs[0], Sort(xs[1..]))
  }
}

=== FILE: store.dfy ===
/** Sequence-backed record stores, as the example controllers keep them:
    lookup by id, fresh ids, removal by position and order-preserving
    filtering. `key` reads a record's id. */
module Store {
  import opened Wrappers

  /** `findIndex` by id: the first position holding `id`. */
  function FindIndex<T>(xs: seq<T>, key: T -> int, id: int): (r: Option<nat>)
    ensures r.None? <==> forall i :: 0 <= i < |xs| ==> key(xs[i]) != id
    ensures r.Some? ==> r.value < |xs| && key(xs[r.value]) == id
    ensures r.Some? ==> forall i :: 0 <= i < r.value ==> key(xs[i]) != id
  {
    if xs == [] then None
    else if key(xs[0]) == id then Some(0)
    else match FindIndex(xs[1..], key, id) {
      case None => None
      case Some(j) => Some(j + 1)
    }
  }

  /** `find` by id: the first record holding `id`, if any. */
  function Lookup<T>(xs: seq<T>, key: T -> int, id: int): (r: Option<T>)
    ensures r.None? <==> forall i :: 0 <= i < |xs| ==> key(xs[i]) != id
    ensures r.Some? ==> exists i :: 0 <= i < |xs| && xs[i] == r.value && key(r.value) == id &&
                                    forall j :: 0 <= j < i ==> key(xs[j]) != id
  {
    match FindIndex(xs, key, id)
    case None => None
    case Some(i) => Some(xs[i])
  }

  /** Removing the first record holding `id`: reports whether one was found;
      when none is, the records are unchanged. */
  function DeleteFirst<T>(xs: seq<T>, key: T -> int, id: int): (r: (bool, seq<T>))
    ensures !r.0 <==> forall i :: 0 <= i < |xs| ==> key(xs[i]) != id
    ensures !r.0 ==> r.1 == xs
    ensures r.0 ==> |r.1| == |xs| - 1
    ensures r.0 ==>
              exists i :: 0 <= i < |xs| && key(xs[i]) == id && r.1 == xs[..i] + xs[i + 1..] &&
                          forall j :: 0 <= j < i ==> key(xs[j]) != id
  {
    match FindIndex(xs, key, id)
    case None => (false, xs)
    case Some(i) => (true, RemoveAt(xs, i))
  }

  /** `Math.max(...ids, 0)` */
  function MaxId<T>(xs: seq<T>, key: T -> int): (r: int)
    ensures r >= 0
    ensures forall i :: 0 <= i < |xs| ==> key(xs[i]) <= r
    ensures r == 0 || exists i :: 0 <= i < |xs| && key(xs[i]) == r
  {
    if xs == [] then 0
    else
      var rest := MaxId(xs[1..], key);
      assert forall i :: 1 <= i < |xs| ==> key(xs[i]) <= rest by {
        forall i | 1 <= i < |xs| ensures key(xs[i]) <= rest { assert xs[i] == xs[1..][i - 1]; }
      }
      if key(xs[0]) > rest then key(xs[0])
      else
        assert rest != 0 ==> exists i :: 0 <= i < |xs| && key(xs[i]) == rest by {
          if rest != 0 {
            var j :| 0 <= j < |xs[1..]| && key(xs[1..][j]) == rest;
            assert xs[j + 1] == xs[1..][j];
          }
        }
        rest
  }

  /** The id a new record receives: one more than the largest id, and at
      least 1. */
  function NextId<T>(xs: seq<T>, key: T -> int): (r: int)
    ensures r >= 1
    ensures forall i :: 0 <= i < |xs| ==> key(xs[i]) < r
    ensures r == 1 || exists i :: 0 <= i < |xs| && key(xs[i]) == r - 1
  {
    MaxId(xs, key) + 1
  }

  /** `splice(i, 1)` */
  function RemoveAt<T>(xs: seq<T>, i: nat): (r: seq<T>)
    requires i < |xs|
    ensures |r| == |xs| - 1
    ensures forall j :: 0 <= j < i ==> r[j] == xs[j]
    ensures forall j :: i <= j < |r| ==> r[j] == xs[j + 1]
    ensures multiset(r) + multiset{xs[i]} == multiset(xs)
  {
    assert xs == xs[..i] + [xs[i]] + xs[i + 1..];
    xs[..i] + xs[i + 1..]
  }

  /** No id occurs twice. */
  predicate UniqueIds<T>(xs: seq<T>, key: T -> int) {
    forall i, j :: 0 <= i < j < |xs| ==> key(xs[i]) != key(xs[j])
  }

  /** Appending a record with a fresh id keeps ids unique. */
  lemma AppendFresh<T>(xs: seq<T>, key: T -> int, x: T)
    requires UniqueIds(xs, key)
    requires key(x) == NextId(xs, key)
    ensures UniqueIds(xs + [x], key)
  {
  }

  /** Removing a record keeps ids unique and removes its id. */
  lemma RemovePreservesUnique<T>(xs: seq<T>, key: T -> int, i: nat)
    requires i < |xs| && UniqueIds(xs, key)
    ensures UniqueIds(RemoveAt(xs, i), key)
    ensures forall j :: 0 <= j < |RemoveAt(xs, i)| ==> key(RemoveAt(xs, i)[j]) != key(xs[i])
  {
    var r := RemoveAt(xs, i);
    forall a, b | 0 <= a < b < |r| ensures key(r[a]) != key(r[b]) {
      var a' := if a < i then a else a + 1;
      var b' := if b < i then b else b + 1;
      assert r[a] == xs[a'] && r[b] == xs[b'];
    }
    forall j | 0 <= j < |r| ensures key(r[j]) != key(xs[i]) {
      var j' := if j < i then j else j + 1;
      assert r[j] == xs[j'];
    }
  }

  /** `filter` */
  function Filter<T>(xs: seq<T>, p: T -> bool): (r: seq<T>)
    ensures |r| <= |xs|
    ensures forall x :: x in r ==> x in xs && p(x)
  {
    if xs == [] then []
    else if p(xs[0]) then [xs[0]] + Filter(xs[1..], p)
    else Filter(xs[1..], p)
  }

  /** Filtering keeps exactly the records that pass, and keeps their order:
      it distributes over concatenation. */
  lemma FilterSpec<T>(xs: seq<T>, ys: seq<T>, p: T -> bool)
    ensures forall x :: x in Filter(xs, p) <==> x in xs && p(x)
    ensures Filter(xs + ys, p) == Filter(xs, p) + Filter(ys, p)
  {
    FilterMembers(xs, p);
    FilterAppend(xs, ys, p);
  }

  lemma {:induction false} FilterMembers<T>(xs: seq<T>, p: T -> bool)
    ensures forall x :: x in Filter(xs, p) <==> x in xs && p(x)
    decreases |xs|
  {
    if xs != [] {
      FilterMembers(xs[1..], p);
      forall x | x in xs && p(x) ensures x in Filter(xs, p) {
        if x != xs[0] {
          assert x in xs[1..];
        }
      }
    }
  }

  lemma {:induction false} FilterAppend<T>(xs: seq<T>, ys: seq<T>, p: T -> bool)
    ensures Filter(xs + ys, p) == Filter(xs, p) + Filter(ys, p)
    decreases |xs|
  {
    if xs != [] {
      FilterAppend(xs[1..], ys, p);
      assert (xs + ys)[0] == xs[0] && (xs + ys)[1..] == xs[1..] + ys;
    } else {
      assert xs + ys == ys;
    }
  }

  /** A filter every record passes returns the records unchanged. */
  lemma {:induction false} FilterAll<T>(xs: seq<T>, p: T -> bool)
    requires forall i :: 0 <= i < |xs| ==> p(xs[i])
    ensures Filter(xs, p) == xs
    decreases |xs|
  {
    if xs != [] {
      FilterAll(xs[1..], p);
      assert [xs[0]] + xs[1..] == xs;
    }
  }

  /** Filters that agree on every record give the same result. */
  lemma {:induction false} FilterCongruent<T>(xs: seq<T>, p: T -> bool, q: T -> bool)
    requires forall i :: 0 <= i < |xs| ==> p(xs[i]) == q(xs[i])
    ensures Filter(xs, p) == Filter(xs, q)
    decreases |xs|
  {
    if xs != [] {
      FilterCongruent(xs[1..], p, q);
    }
  }
}

=== FILE: streaming.dfy ===
/** The streaming helpers: paced chunking of a sequence, Server-Sent Events
    framing with heartbeats, the event-stream header merge, and the
    content-type classification of request inputs. */
module Streaming {
  import opened Wrappers
  import opened OrderedMap

  // ---------------------------------------------------------------------
  // Chunking

  const DefaultBatchSize: int := 1
  const DefaultDelayMs: int := 100

  /** One yielded value: a single-element slice is yielded bare. */
  datatype Chunk<T> = One(item: T) | Many(items: seq<T>)

  /** The caller's options; an absent field takes its default. */
  datatype StreamOptions = StreamOptions(batchSize: Option<int>, delayMs: Option<int>)

  function BatchSizeOf(o: StreamOptions): int {
    match o.batchSize case Some(b) => b case None => DefaultBatchSize
  }

  function DelayOf(o: StreamOptions): int {
    match o.delayMs case Some(d) => d case None => DefaultDelayMs
  }

  function Min(a: int, b: int): int {
    if a <= b then a else b
  }

  function ChunkOf<T>(slice: seq<T>): (c: Chunk<T>)
    ensures c.One? <==> |slice| == 1
  {
    if |slice| == 1 then One(slice[0]) else Many(slice)
  }

  /** The elements a chunk stands for. */
  function Items<T>(c: Chunk<T>): seq<T> {
    match c
    case One(x) => [x]
    case Many(xs) => xs
  }

  /** The chunks from offset `i` on. */
  function ChunksFrom<T>(data: seq<T>, i: nat, b: nat): seq<Chunk<T>>
    requires b >= 1
    decreases |data| - i
  {
    if i >= |data| then []
    else [ChunkOf(data[i..Min(i + b, |data|)])] + ChunksFrom(data, i + b, b)
  }

  /** The values `createStreamingResponse` yields, for a batch size of at
      least one. */
  function Chunks<T>(data: seq<T>, b: nat): seq<Chunk<T>>
    requires b >= 1
  {
    ChunksFrom(data, 0, b)
  }

  lemma {:induction false} ChunksFromLength<T>(data: seq<T>, i: nat, b: nat)
    requires b >= 1
    ensures i < |data| ==> (|ChunksFrom(data, i, b)| - 1) * b < |data| - i <= |ChunksFrom(data, i, b)| * b
    ensures i >= |data| <==> ChunksFrom(data, i, b) == []
    decreases |data| - i
  {
    if i < |data| {
      var c' := |ChunksFrom(data, i + b, b)|;
      assert |ChunksFrom(data, i, b)| == c' + 1;
      ChunksFromLength(data, i + b, b);
      MulNeighbours(c', b);
    }
  }

  /** The multiples of `b` either side of `c * b`. */
  lemma MulNeighbours(c: int, b: int)
    ensures (c + 1 - 1) * b == c * b
    ensures (c + 1) * b == c * b + b
    ensures (c - 1) * b == c * b - b
    ensures 0 * b == 0
  {
  }

  lemma {:induction false} ChunkAt<T>(data: seq<T>, i: nat, b: nat, k: nat)
    requires b >= 1 && k < |ChunksFrom(data, i, b)|
    ensures i + k * b < |data|
    ensures ChunksFrom(data, i, b)[k] == ChunkOf(data[i + k * b..Min(i + k * b + b, |data|)])
    decreases k
  {
    if k > 0 {
      ChunkAt(data, i + b, b, k - 1);
      assert i + b + (k - 1) * b == i + k * b;
    }
  }

  /** Chunking yields ceil(n/b) values (the least count whose slices cover
      the data); value `k` stands for the slice from `k*b` to
      `min((k+1)*b, n)`, bare when that slice has one element. */
  lemma ChunksShape<T>(data: seq<T>, b: nat)
    requires b >= 1
    ensures data != [] ==> (|Chunks(data, b)| - 1) * b < |data| <= |Chunks(data, b)| * b
    ensures forall k :: 0 <= k < |Chunks(data, b)| ==>
              k * b < |data| && Chunks(data, b)[k] == ChunkOf(data[k * b..Min(k * b + b, |data|)])
  {
    ChunksFromLength(data, 0, b);
    forall k | 0 <= k < |Chunks(data, b)|
      ensures k * b < |data| && Chunks(data, b)[k] == ChunkOf(data[k * b..Min(k * b + b, |data|)])
    {
      ChunkAt(data, 0, b, k);
    }
  }

  /** The elements of the chunks, in order. */
  function Flatten<T>(cs: seq<Chunk<T>>): seq<T> {
    if cs == [] then [] else Items(cs[0]) + Flatten(cs[1..])
  }

  lemma {:induction false} FlattenChunksFrom<T>(data: seq<T>, i: nat, b: nat)
    requires b >= 1 && i <= |data|
    ensures Flatten(ChunksFrom(data, i, b)) == data[i..]
    decreases |data| - i
  {
    if i < |data| {
      var j := Min(i + b, |data|);
      FlattenChunksHead(data, i, b);
      if i + b <= |data| {
        FlattenChunksFrom(data, i + b, b);
      } else {
        FlattenNoChunks(data, i + b, b);
      }
      ConcatSlices(data, i, j, Flatten(ChunksFrom(data, i + b, b)));
    }
  }

  /** Past the end there are no chunks, so nothing to flatten. */
  lemma FlattenNoChunks<T>(data: seq<T>, i: nat, b: nat)
    requires b >= 1 && i >= |data|
    ensures Flatten(ChunksFrom(data, i, b)) == data[|data|..]
  {
  }

  lemma ConcatSlices<T>(s: seq<T>, i: nat, j: nat, tail: seq<T>)
    requires i <= j <= |s| && tail == s[j..]
    ensures s[i..j] + tail == s[i..]
  {
  }

  /** The first chunk from `i` stands for the slice it starts. */
  lemma FlattenChunksHead<T>(data: seq<T>, i: nat, b: nat)
    requires b >= 1 && i < |data|
    ensures Flatten(ChunksFrom(data, i, b)) == data[i..Min(i + b, |data|)] + Flatten(ChunksFrom(data, i + b, b))
  {
    var cs := ChunksFrom(data, i, b);
    var slice := data[i..Min(i + b, |data|)];
    assert Items(ChunkOf(slice)) == slice;
    assert cs[0] == ChunkOf(slice) && cs[1..] == ChunksFrom(data, i + b, b);
  }

  /** Flattening the yielded values gives back the data, in order; empty
      data yields nothing. */
  lemma ChunksRoundTrip<T>(data: seq<T>, b: nat)
    requires b >= 1
    ensures Flatten(Chunks(data, b)) == data
    ensures data == [] <==> Chunks(data, b) == []
  {
    FlattenChunksFrom(data, 0, b);
  }

  /** With the default batch size every element is yielded bare. */
  lemma DefaultYieldsElements<T>(data: seq<T>)
    ensures |Chunks(data, DefaultBatchSize)| == |data|
    ensures forall k :: 0 <= k < |data| ==> Chunks(data, DefaultBatchSize)[k] == One(data[k])
  {
    ChunksShape(data, DefaultBatchSize);
    forall k | 0 <= k < |data| ensures Chunks(data, DefaultBatchSize)[k] == One(data[k]) {
      assert data[k..Min(k + 1, |data|)] == [data[k]];
    }
  }

  /** What the generator does, step by step: yield a value, or wait. */
  datatype Event<T> = Yield(chunk: Chunk<T>) | Delay(ms: int)

  /** The reference pacing: the values in order with one wait between
      consecutive values when the delay is positive, and none after the last. */
  function Paced<T>(cs: seq<Chunk<T>>, d: int): (r: seq<Event<T>>)
  {
    if cs == [] then []
    else if |cs| == 1 || d <= 0 then [Yield(cs[0])] + Paced(cs[1..], d)
    else [Yield(cs[0]), Delay(d)] + Paced(cs[1..], d)
  }

  lemma {:induction false} PacedAppend<T>(cs: seq<Chunk<T>>, c: Chunk<T>, d: int)
    requires cs != [] && d > 0
    ensures Paced(cs + [c], d) == Paced(cs, d) + [Delay(d), Yield(c)]
    decreases |cs|
  {
    if |cs| == 1 {
      assert (cs + [c])[1..] == [c];
      assert Paced([c], d) == [Yield(c)] + Paced([], d);
      assert Paced(cs, d) == [Yield(cs[0])] + Paced([], d);
    } else {
      assert (cs + [c])[1..] == cs[1..] + [c];
      PacedAppend(cs[1..], c, d);
    }
  }

  lemma {:induction false} PacedAppendNoDelay<T>(cs: seq<Chunk<T>>, c: Chunk<T>, d: int)
    requires d <= 0
    ensures Paced(cs + [c], d) == Paced(cs, d) + [Yield(c)]
    decreases |cs|
  {
    if cs == [] {
      assert cs + [c] == [c];
    } else {
      assert (cs + [c])[1..] == cs[1..] + [c];
      PacedAppendNoDelay(cs[1..], c, d);
    }
  }

  /** The values of a run, in order, without the waits. */
  function Yields<T>(es: seq<Event<T>>): seq<Chunk<T>> {
    if es == [] then []
    else if es[0].Yield? then [es[0].chunk] + Yields(es[1..])
    else Yields(es[1..])
  }

  /** Pacing adds waits only: the values stay as they are, and a run never
      ends with a wait. */
  lemma {:induction false} PacedYields<T>(cs: seq<Chunk<T>>, d: int)
    ensures Yields(Paced(cs, d)) == cs
    ensures Paced(cs, d) != [] ==> Paced(cs, d)[|Paced(cs, d)| - 1].Yield?
    ensures d <= 0 ==> |Paced(cs, d)| == |cs|
    ensures d > 0 && cs != [] ==> |Paced(cs, d)| == 2 * |cs| - 1
    decreases |cs|
  {
    if cs != [] {
      PacedYields(cs[1..], d);
      var p := Paced(cs, d);
      if |cs| == 1 || d <= 0 {
        assert p[1..] == Paced(cs[1..], d);
      } else {
        assert p[1..] == [Delay(d)] + Paced(cs[1..], d);
        assert p[2..] == Paced(cs[1..], d);
        assert Yields(p[1..]) == Yields(p[2..]);
      }
    }
  }

  /** The events after the first `k` values, with the wait that follows
      value `k - 1` when more values remain. */
  function PacedPrefix<T>(cs: seq<Chunk<T>>, k: nat, d: int): seq<Event<T>>
    requires k <= |cs|
  {
    Paced(cs[..k], d) + (if d > 0 && 0 < k < |cs| then [Delay(d)] else [])
  }

  /** One turn of the generator's loop extends the prefix by one value. */
  lemma PacedStep<T>(cs: seq<Chunk<T>>, k: nat, d: int)
    requires k < |cs|
    ensures PacedPrefix(cs, k, d) + [Yield(cs[k])] + (if d > 0 && k + 1 < |cs| then [Delay(d)] else [])
            == PacedPrefix(cs, k + 1, d)
  {
    assert cs[..k + 1] == cs[..k] + [cs[k]];
    if d > 0 && k > 0 {
      PacedAppend(cs[..k], cs[k], d);
    } else if d <= 0 {
      PacedAppendNoDelay(cs[..k], cs[k], d);
    } else {
      assert cs[..k + 1] == [cs[k]];
    }
  }

  /** One turn of the loop: the value at `i` is the next chunk, and more
      chunks remain exactly when more data does. */
  lemma StreamStep<T>(data: seq<T>, i: nat, b: nat, cs: seq<Chunk<T>>, k: nat)
    requires b >= 1 && i < |data|
    requires k <= |cs| && cs[k..] == ChunksFrom(data, i, b)
    ensures k < |cs|
    ensures cs[k] == ChunkOf(data[i..Min(i + b, |data|)])
    ensures cs[k + 1..] == ChunksFrom(data, i + b, b)
    ensures k + 1 < |cs| <==> i + b < |data|
  {
    assert cs[k..] == [ChunkOf(data[i..Min(i + b, |data|)])] + ChunksFrom(data, i + b, b);
    assert cs[k + 1..] == cs[k..][1..];
    ChunksFromLength(data, i + b, b);
  }

  /** `createStreamingResponse` with its waits made visible. The loop runs
      only for a batch size of at least one: with zero or less it never
      ends. */
  method StreamingResponse<T>(data: seq<T>, options: StreamOptions) returns (events: seq<Event<T>>)
    requires BatchSizeOf(options) >= 1
    ensures events == Paced(Chunks(data, BatchSizeOf(options)), DelayOf(options))
  {
    var b: nat := BatchSizeOf(options);
    var d := DelayOf(options);
    ghost var cs := Chunks(data, b);
    var i: nat := 0;
    ghost var k: nat := 0;
    events := [];
    while i < |data|
      invariant k <= |cs| && cs[k..] == ChunksFrom(data, i, b)
      invariant events == PacedPrefix(cs, k, d)
      decreases |data| - i
    {
      var batch := data[i..Min(i + b, |data|)];
      var item := if |batch| == 1 then One(batch[0]) else Many(batch);
      StreamStep(data, i, b, cs, k);
      PacedStep(cs, k, d);
      events := events + [Yield(item)];
      if d > 0 && i + b < |data| {
        events := events + [Delay(d)];
      }
      i := i + b;
      k := k + 1;
    }
    ChunksFromLength(data, i, b);
    assert cs[..k] == cs;
  }

  // ---------------------------------------------------------------------
  // Server-Sent Events

  const DefaultHeartbeatMs: int := 30000

  /** One emitted frame: a heartbeat comment or a data frame carrying the
      JSON text of one source value. */
  datatype Frame = Heartbeat | Data(payload: string)

  function Render(f: Frame): string {
    match f
    case Heartbeat => ": heartbeat\n\n"
    case Data(p) => "data: " + p + "\n\n"
  }

  /** A rendered data frame gives back its payload, and every frame ends with
      the blank line that terminates an event. */
  lemma RenderRoundTrip(f: Frame)
    ensures |Render(f)| >= 2 && Render(f)[|Render(f)| - 2..] == "\n\n"
    ensures f.Data? ==> Render(f)[..6] == "data: " && Render(f)[6..|Render(f)| - 2] == f.payload
    ensures f.Heartbeat? <==> Render(f)[0] == ':'
  {
  }

  /** `createSSEStream` over values that arrive at the given times, with
      `last` the time of the previous emission; `encode` stands for
      `JSON.stringify`. */
  function SseFrames<T>(source: seq<(int, T)>, last: int, heartbeatMs: int, encode: T -> string): seq<Frame>
  {
    if source == [] then []
    else
      var (now, v) := source[0];
      (if now - last > heartbeatMs then [Heartbeat] else [])
        + [Data(encode(v))]
        + SseFrames(source[1..], now, heartbeatMs, encode)
  }

  /** The payloads of the data frames, in order. */
  function Payloads(fs: seq<Frame>): seq<string> {
    if fs == [] then []
    else if fs[0].Data? then [fs[0].payload] + Payloads(fs[1..])
    else Payloads(fs[1..])
  }

  /** For each data frame, whether a heartbeat directly precedes it. */
  function HeartbeatMarks(fs: seq<Frame>): seq<bool> {
    if fs == [] then []
    else if fs[0].Data? then [false] + HeartbeatMarks(fs[1..])
    else if |fs| >= 2 && fs[1].Data? then [true] + HeartbeatMarks(fs[2..])
    else HeartbeatMarks(fs[1..])
  }

  /** Whether each value is due a heartbeat, given the time of the
      previous emission. */
  function Due<T>(source: seq<(int, T)>, last: int, heartbeatMs: int): (r: seq<bool>)
    ensures |r| == |source|
  {
    if source == [] then [] else [source[0].0 - last > heartbeatMs] + Due(source[1..], source[0].0, heartbeatMs)
  }

  /** The time of the emission before value `i`. */
  function Previous<T>(source: seq<(int, T)>, start: int, i: nat): int
    requires i < |source|
  {
    if i == 0 then start else source[i - 1].0
  }

  lemma {:induction false} SsePayloads<T>(source: seq<(int, T)>, last: int, heartbeatMs: int, encode: T -> string)
    ensures |Payloads(SseFrames(source, last, heartbeatMs, encode))| == |source|
    ensures forall i :: 0 <= i < |source| ==> Payloads(SseFrames(source, last, heartbeatMs, encode))[i] == encode(source[i].1)
    decreases |source|
  {
    if source != [] {
      var now := source[0].0;
      var rest := SseFrames(source[1..], now, heartbeatMs, encode);
      SsePayloads(source[1..], now, heartbeatMs, encode);
      var fs := SseFrames(source, last, heartbeatMs, encode);
      PayloadsStep(source, last, heartbeatMs, encode);
      forall i | 1 <= i < |source| ensures Payloads(fs)[i] == encode(source[i].1) {
        assert source[1..][i - 1] == source[i];
      }
    }
  }

  /** The first source value's payload comes first, whether or not a
      heartbeat precedes it. */
  lemma PayloadsStep<T>(source: seq<(int, T)>, last: int, heartbeatMs: int, encode: T -> string)
    requires source != []
    ensures Payloads(SseFrames(source, last, heartbeatMs, encode))
            == [encode(source[0].1)] + Payloads(SseFrames(source[1..], source[0].0, heartbeatMs, encode))
  {
    var rest := SseFrames(source[1..], source[0].0, heartbeatMs, encode);
    var e := encode(source[0].1);
    var tail := [Data(e)] + rest;
    var pre: seq<Frame> := if source[0].0 - last > heartbeatMs then [Heartbeat] else [];
    assert SseFrames(source, last, heartbeatMs, encode) == pre + tail;
    PayloadsCons(Data(e), rest);
    if pre != [] {
      PayloadsCons(Heartbeat, tail);
    } else {
      assert pre + tail == tail;
    }
  }

  lemma PayloadsCons(f: Frame, fs: seq<Frame>)
    ensures Payloads([f] + fs) == (if f.Data? then [f.payload] else []) + Payloads(fs)
  {
    assert ([f] + fs)[0] == f && ([f] + fs)[1..] == fs;
  }

  /** Every heartbeat is directly followed by a data frame: heartbeats
      never stack and never end the stream. */
  predicate HeartbeatsPrecedeData(fs: seq<Frame>) {
    forall i :: 0 <= i < |fs| && fs[i].Heartbeat? ==> i + 1 < |fs| && fs[i + 1].Data?
  }

  /** A data frame, optionally after one heartbeat, put in front of frames
      that keep the rule, keeps it. */
  lemma PrecedeDataCons(pre: seq<Frame>, d: Frame, fs: seq<Frame>)
    requires d.Data? && (pre == [] || pre == [Heartbeat]) && HeartbeatsPrecedeData(fs)
    ensures HeartbeatsPrecedeData(pre + [d] + fs)
  {
    var g := pre + [d] + fs;
    forall i | 0 <= i < |g| && g[i].Heartbeat? ensures i + 1 < |g| && g[i + 1].Data? {
      if i > |pre| {
        assert g[i] == fs[i - |pre| - 1];
        assert g[i + 1] == fs[i - |pre|];
      } else if i < |pre| {
        assert g[1] == d;
      }
    }
  }

  /** At most one heartbeat precedes each value, and it comes directly
      before the value's data frame. */
  lemma {:induction false} SseNoStackedHeartbeats<T>(source: seq<(int, T)>, last: int, heartbeatMs: int, encode: T -> string)
    ensures HeartbeatsPrecedeData(SseFrames(source, last, heartbeatMs, encode))
    decreases |source|
  {
    if source != [] {
      var now := source[0].0;
      var rest := SseFrames(source[1..], now, heartbeatMs, encode);
      SseNoStackedHeartbeats(source[1..], now, heartbeatMs, encode);
      var pre: seq<Frame> := if now - last > heartbeatMs then [Heartbeat] else [];
      assert SseFrames(source, last, heartbeatMs, encode) == pre + [Data(encode(source[0].1))] + rest;
      PrecedeDataCons(pre, Data(encode(source[0].1)), rest);
    }
  }

  lemma SseMarks<T>(source: seq<(int, T)>, last: int, heartbeatMs: int, encode: T -> string)
    ensures HeartbeatMarks(SseFrames(source, last, heartbeatMs, encode)) == Due(source, last, heartbeatMs)
    ensures HeartbeatsPrecedeData(SseFrames(source, last, heartbeatMs, encode))
  {
    SseMarksDue(source, last, heartbeatMs, encode);
    SseNoStackedHeartbeats(source, last, heartbeatMs, encode);
  }

  lemma {:induction false} SseMarksDue<T>(source: seq<(int, T)>, last: int, heartbeatMs: int, encode: T -> string)
    ensures HeartbeatMarks(SseFrames(source, last, heartbeatMs, encode)) == Due(source, last, heartbeatMs)
    decreases |source|
  {
    if source != [] {
      var now := source[0].0;
      var rest := SseFrames(source[1..], now, heartbeatMs, encode);
      SseMarksDue(source[1..], now, heartbeatMs, encode);
      var fs := SseFrames(source, last, heartbeatMs, encode);
      var tail := [Data(encode(source[0].1))] + rest;
      assert fs == (if now - last > heartbeatMs then [Heartbeat] else []) + tail;
      assert Due(source, last, heartbeatMs) == [now - last > heartbeatMs] + Due(source[1..], now, heartbeatMs);
      assert HeartbeatMarks(tail) == [false] + HeartbeatMarks(rest) by {
        assert tail[1..] == rest;
      }
      if now - last > heartbeatMs {
        assert fs == [Heartbeat] + tail;
        assert HeartbeatMarks(fs) == [true] + HeartbeatMarks(rest) by {
          assert fs[1].Data? && fs[2..] == rest;
        }
      } else {
        assert fs == tail;
      }
    }
  }

  /** The stream never ends on a heartbeat. */
  lemma {:induction false} SseEndsWithData<T>(source: seq<(int, T)>, last: int, heartbeatMs: int, encode: T -> string)
    requires source != []
    ensures SseFrames(source, last, heartbeatMs, encode)[|SseFrames(source, last, heartbeatMs, encode)| - 1].Data?
    decreases |source|
  {
    var now := source[0].0;
    var rest := SseFrames(source[1..], now, heartbeatMs, encode);
    var fs := SseFrames(source, last, heartbeatMs, encode);
    var head := (if now - last > heartbeatMs then [Heartbeat] else []) + [Data(encode(source[0].1))];
    assert fs == head + rest;
    if source[1..] != [] {
      SseEndsWithData(source[1..], now, heartbeatMs, encode);
      assert fs[|fs| - 1] == rest[|rest| - 1];
    } else {
      assert rest == [];
      assert fs == head;
    }
  }

  lemma {:induction false} DueAt<T>(source: seq<(int, T)>, start: int, heartbeatMs: int, i: nat)
    requires i < |source|
    ensures |Due(source, start, heartbeatMs)| == |source|
    ensures Due(source, start, heartbeatMs)[i] <==> source[i].0 - Previous(source, start, i) > heartbeatMs
    decreases i
  {
    if i > 0 {
      DueAt(source[1..], source[0].0, heartbeatMs, i - 1);
      assert source[1..][i - 1] == source[i];
      if i >= 2 { assert source[1..][i - 2] == source[i - 1]; }
    }
  }

  /** One data frame per source value, in order; a heartbeat precedes value
      `i` exactly when more than `heartbeatMs` passed since the previous
      emission (or the start); the stream never ends on a heartbeat. */
  lemma SseFraming<T>(source: seq<(int, T)>, start: int, heartbeatMs: int, encode: T -> string)
    ensures |Payloads(SseFrames(source, start, heartbeatMs, encode))| == |source|
    ensures forall i :: 0 <= i < |source| ==> Payloads(SseFrames(source, start, heartbeatMs, encode))[i] == encode(source[i].1)
    ensures |HeartbeatMarks(SseFrames(source, start, heartbeatMs, encode))| == |source|
    ensures forall i :: 0 <= i < |source| ==>
              (HeartbeatMarks(SseFrames(source, start, heartbeatMs, encode))[i] <==>
               source[i].0 - Previous(source, start, i) > heartbeatMs)
    ensures source != [] ==> SseFrames(source, start, heartbeatMs, encode)[|SseFrames(source, start, heartbeatMs, encode)| - 1].Data?
    ensures HeartbeatsPrecedeData(SseFrames(source, start, heartbeatMs, encode))
  {
    SsePayloads(source, start, heartbeatMs, encode);
    SseMarks(source, start, heartbeatMs, encode);
    if source != [] {
      DueAt(source, start, heartbeatMs, 0);
      SseEndsWithData(source, start, heartbeatMs, encode);
    }
    forall i | 0 <= i < |source|
      ensures HeartbeatMarks(SseFrames(source, start, heartbeatMs, encode))[i] <==>
              source[i].0 - Previous(source, start, i) > heartbeatMs
    {
      DueAt(source, start, heartbeatMs, i);
    }
  }

  /** The default event-stream headers, in order. */
  const DefaultHeaders: OMap<string> := [
    ("Content-Type", "text/event-stream"),
    ("Cache-Control", "no-cache"),
    ("Connection", "keep-alive"),
    ("Access-Control-Allow-Origin", "*"),
    ("Access-Control-Allow-Headers", "Cache-Control")
  ]

  /** `{...base, ...extra}`: entries of `extra` replace those of `base` in
      place and new ones follow. */
  function Spread(base: OMap<string>, extra: OMap<string>): OMap<string>
    decreases |extra|
  {
    if extra == [] then base else Spread(Put(base, extra[0].0, extra[0].1), extra[1..])
  }

  /** The keys of `xs` that `base` lacks, in their order in `xs`. */
  function FreshKeys(base: seq<string>, xs: seq<string>): seq<string> {
    if xs == [] then [] else (if xs[0] in base then [] else [xs[0]]) + FreshKeys(base, xs[1..])
  }

  /** The fresh keys are exactly the keys of `xs` missing from `base`. */
  lemma {:induction false} FreshKeysMembers(base: seq<string>, xs: seq<string>)
    ensures forall k :: k in FreshKeys(base, xs) <==> k in xs && k !in base
  {
    if xs != [] {
      FreshKeysMembers(base, xs[1..]);
      assert forall k :: k in xs <==> k == xs[0] || k in xs[1..];
    }
  }

  /** A key that `xs` lacks makes no difference to which of its keys are
      fresh. */
  lemma {:induction false} FreshKeysSkip(base: seq<string>, k: string, xs: seq<string>)
    requires k !in xs
    ensures FreshKeys(base + [k], xs) == FreshKeys(base, xs)
  {
    if xs != [] {
      assert xs[0] in base + [k] <==> xs[0] in base;
      FreshKeysSkip(base, k, xs[1..]);
    }
  }

  /** The spread object answers from `extra` where it has the key and from
      `base` elsewhere; its keys are those of `base`, in place, then the new
      keys of `extra` in their order. */
  lemma SpreadSpec(base: OMap<string>, extra: OMap<string>)
    requires DistinctKeys(extra)
    ensures forall k :: Get(Spread(base, extra), k) == if Get(extra, k).Some? then Get(extra, k) else Get(base, k)
    ensures Keys(Spread(base, extra)) == Keys(base) + FreshKeys(Keys(base), Keys(extra))
  {
    forall k ensures Get(Spread(base, extra), k) == if Get(extra, k).Some? then Get(extra, k) else Get(base, k) {
      SpreadGet(base, extra, k);
    }
    SpreadKeys(base, extra);
  }

  lemma {:induction false} SpreadGet(base: OMap<string>, extra: OMap<string>, k: string)
    requires DistinctKeys(extra)
    ensures Get(Spread(base, extra), k) == if Get(extra, k).Some? then Get(extra, k) else Get(base, k)
    decreases |extra|
  {
    if extra != [] {
      var (k0, v0) := extra[0];
      assert DistinctKeys(extra[1..]);
      SpreadGet(Put(base, k0, v0), extra[1..], k);
      if k == k0 {
        FirstKeyNotLater(extra);
      }
    }
  }

  lemma {:induction false} SpreadKeys(base: OMap<string>, extra: OMap<string>)
    requires DistinctKeys(extra)
    ensures Keys(Spread(base, extra)) == Keys(base) + FreshKeys(Keys(base), Keys(extra))
    decreases |extra|
  {
    if extra == [] {
      assert Keys(base) + [] == Keys(base);
    } else {
      var (k0, v0) := extra[0];
      var rest := extra[1..];
      var b' := Put(base, k0, v0);
      assert DistinctKeys(rest);
      SpreadKeys(b', rest);
      assert Spread(base, extra) == Spread(b', rest);
      FirstKeyNotLater(extra);
      assert Keys(extra) == [k0] + Keys(rest);
      SpreadKeysStep(Keys(base), Keys(b'), k0, Keys(rest));
    }
  }

  /** The bookkeeping of one step of `SpreadKeys`: setting `k` on keys
      `before` gives `after`, and the remaining keys `ks` do not repeat `k`. */
  lemma SpreadKeysStep(before: seq<string>, after: seq<string>, k: string, ks: seq<string>)
    requires after == if k in before then before else before + [k]
    requires k !in ks
    ensures after + FreshKeys(after, ks) == before + FreshKeys(before, [k] + ks)
  {
    var tail := FreshKeys(before, ks);
    FreshKeysCons(before, k, ks);
    if k !in before {
      FreshKeysSkip(before, k, ks);
      SpreadKeysNew(before, k, tail);
    } else {
      assert [] + tail == tail;
    }
  }

  lemma SpreadKeysNew(before: seq<string>, k: string, tail: seq<string>)
    ensures (before + [k]) + tail == before + ([k] + tail)
  {
  }

  lemma FreshKeysCons(base: seq<string>, k: string, ks: seq<string>)
    ensures FreshKeys(base, [k] + ks) == (if k in base then [] else [k]) + FreshKeys(base, ks)
  {
    assert ([k] + ks)[0] == k && ([k] + ks)[1..] == ks;
  }

  /** With distinct keys, the first key does not occur again. */
  lemma {:induction false} FirstKeyNotLater(m: OMap<string>)
    requires m != [] && DistinctKeys(m)
    ensures Get(m[1..], m[0].0).None?
  {
    var rest := m[1..];
    forall j | 0 <= j < |Keys(rest)| ensures Keys(rest)[j] != m[0].0 {
      KeysAt(rest, j);
      assert rest[j] == m[j + 1];
    }
  }

  datatype SseOptions = SseOptions(heartbeatMs: Option<int>, headers: Option<OMap<string>>)

  datatype SseResponse = SseResponse(headers: OMap<string>, body: seq<Frame>)

  /** `createSSEResponse`: the merged headers and the framed body. The
      caller's headers form a JS object, so their keys are distinct. */
  function CreateSseResponse<T>(source: seq<(int, T)>, start: int, options: SseOptions, encode: T -> string): (r: SseResponse)
    requires options.headers.Some? ==> DistinctKeys(options.headers.value)
    ensures forall k :: Get(r.headers, k) ==
              if options.headers.Some? && Get(options.headers.value, k).Some? then Get(options.headers.value, k)
              else Get(DefaultHeaders, k)
    ensures options.headers.None? ==> r.headers == DefaultHeaders
    ensures options.headers.Some? ==>
              Keys(r.headers) == Keys(DefaultHeaders) + FreshKeys(Keys(DefaultHeaders), Keys(options.headers.value))
    ensures |Payloads(r.body)| == |source|
    ensures forall i :: 0 <= i < |source| ==> Payloads(r.body)[i] == encode(source[i].1)
    ensures |HeartbeatMarks(r.body)| == |source|
    ensures forall i :: 0 <= i < |source| ==>
              (HeartbeatMarks(r.body)[i] <==>
               source[i].0 - Previous(source, start, i)
                 > if options.heartbeatMs.Some? then options.heartbeatMs.value else DefaultHeartbeatMs)
    ensures source != [] ==> r.body[|r.body| - 1].Data?
    ensures HeartbeatsPrecedeData(r.body)
  {
    SseResponse(SseHeaders(options), SseBody(source, start, options, encode))
  }

  /** The response body: the frames, with the caller's heartbeat interval
      or the default one. */
  function SseBody<T>(source: seq<(int, T)>, start: int, options: SseOptions, encode: T -> string): (r: seq<Frame>)
    ensures |Payloads(r)| == |source|
    ensures forall i :: 0 <= i < |source| ==> Payloads(r)[i] == encode(source[i].1)
    ensures |HeartbeatMarks(r)| == |source|
    ensures forall i :: 0 <= i < |source| ==>
              (HeartbeatMarks(r)[i] <==>
               source[i].0 - Previous(source, start, i)
                 > if options.heartbeatMs.Some? then options.heartbeatMs.value else DefaultHeartbeatMs)
    ensures source != [] ==> r[|r| - 1].Data?
    ensures HeartbeatsPrecedeData(r)
  {
    var hb := if options.heartbeatMs.Some? then options.heartbeatMs.value else DefaultHeartbeatMs;
    SseFraming(source, start, hb, encode);
    SseFrames(source, start, hb, encode)
  }

  /** The response headers: the defaults spread with the caller's. */
  function SseHeaders(options: SseOptions): (r: OMap<string>)
    requires options.headers.Some? ==> DistinctKeys(options.headers.value)
    ensures forall k :: Get(r, k) ==
              if options.headers.Some? && Get(options.headers.value, k).Some? then Get(options.headers.value, k)
              else Get(DefaultHeaders, k)
    ensures options.headers.None? ==> r == DefaultHeaders
    ensures options.headers.Some? ==>
              Keys(r) == Keys(DefaultHeaders) + FreshKeys(Keys(DefaultHeaders), Keys(options.headers.value))
  {
    var extra := match options.headers case Some(h) => h case None => [];
    SpreadSpec(DefaultHeaders, extra);
    Spread(DefaultHeaders, extra)
  }

  // ---------------------------------------------------------------------
  // Runtime values

  /** The built-in classes the content-type helpers test with `instanceof`. */
  datatype BuiltinClass = FormDataClass | BlobClass | FileClass | Uint8ArrayClass | ReadableStreamClass

  /** Which of the optional built-ins the runtime defines (`Uint8Array`
      always exists). */
  datatype Environment = Environment(formData: bool, blob: bool, file: bool, readableStream: bool)

  /** A runtime value as these helpers see it: nullish, or a value with the
      classes it is an instance of and whether its async-iterator slot holds
      a function. */
  datatype Value = Undefined | NullValue | Present(classes: set<BuiltinClass>, asyncIteratorIsFunction: bool)

  predicate InstanceOf(v: Value, c: BuiltinClass) {
    v.Present? && c in v.classes
  }

  predicate Defined(env: Environment, c: BuiltinClass) {
    match c
    case FormDataClass => env.formData
    case BlobClass => env.blob
    case FileClass => env.file
    case Uint8ArrayClass => true
    case ReadableStreamClass => env.readableStream
  }

  /** The `isFormData`/`isBlob`/... guards: the class must exist and the
      value be an instance of it. */
  predicate Is(env: Environment, v: Value, c: BuiltinClass) {
    Defined(env, c) && InstanceOf(v, c)
  }

  /** Binary inputs: blobs, files, byte arrays and streams. */
  predicate IsBinary(env: Environment, v: Value) {
    Is(env, v, BlobClass) || Is(env, v, FileClass) || Is(env, v, Uint8ArrayClass) || Is(env, v, ReadableStreamClass)
  }

  const Multipart: string := "multipart/form-data"
  const OctetStream: string := "application/octet-stream"
  const JsonType: string := "application/json"

  function ContentTypeFromInput(env: Environment, v: Value): (r: string)
    ensures r == Multipart || r == OctetStream || r == JsonType
  {
    if Is(env, v, FormDataClass) then Multipart
    else if Is(env, v, BlobClass) || Is(env, v, FileClass) then OctetStream
    else if Is(env, v, Uint8ArrayClass) then OctetStream
    else if Is(env, v, ReadableStreamClass) then OctetStream
    else JsonType
  }

  /** The classification in full: form data wins over every binary class,
      any binary class gives an octet stream, and everything else (null,
      plain values, or classes the runtime lacks) is JSON. */
  lemma ContentTypeClassification(env: Environment, v: Value)
    ensures ContentTypeFromInput(env, v) == Multipart <==> Is(env, v, FormDataClass)
    ensures ContentTypeFromInput(env, v) == OctetStream <==> !Is(env, v, FormDataClass) && IsBinary(env, v)
    ensures ContentTypeFromInput(env, v) == JsonType <==> !Is(env, v, FormDataClass) && !IsBinary(env, v)
    ensures !v.Present? ==> ContentTypeFromInput(env, v) == JsonType
  {
  }

  /** `isAsyncIterable` */
  predicate IsAsyncIterable(v: Value) {
    v != Undefined && v != NullValue && v.asyncIteratorIsFunction
  }

  /** Nullish values are never async-iterable; other values are exactly when
      their async-iterator slot is a function. */
  lemma AsyncIterableIff(v: Value)
    ensures IsAsyncIterable(v) <==> v.Present? && v.asyncIteratorIsFunction
    ensures v == Undefined || v == NullValue ==> !IsAsyncIterable(v)
  {
  }
}

=== FILE: text.dfy ===
/** String helpers mirroring the JavaScript string methods the source calls. */
module Text {
  import opened Wrappers

  /** `s.endsWith(suf)` */
  predicate EndsWith(s: string, suf: string) {
    |suf| <= |s| && s[|s| - |suf|..] == suf
  }

  /** `sub` occurs in `s` starting at position `i`. */
  predicate OccursAt(s: string, sub: string, i: int) {
    0 <= i <= |s| - |sub| && s[i..i + |sub|] == sub
  }

  /** `s.includes(sub)`: some window of `s` equals `sub`. */
  predicate Includes(s: string, sub: string) {
    exists i :: 0 <= i <= |s| - |sub| && OccursAt(s, sub, i)
  }

  /** ASCII lower-casing of one character. */
  function LowerChar(c: char): char {
    if 'A' <= c <= 'Z' then (c as int - 'A' as int + 'a' as int) as char else c
  }

  predicate IsUpper(c: char) {
    'A' <= c <= 'Z'
  }

  /** `s.toLowerCase()` restricted to ASCII letters. */
  function ToLower(s: string): (r: string)
    ensures |r| == |s|
    ensures forall i :: 0 <= i < |s| ==> r[i] == LowerChar(s[i])
  {
    if s == [] then [] else [LowerChar(s[0])] + ToLower(s[1..])
  }

  /** The characters `String.prototype.trim` removes, restricted to ASCII. */
  predicate IsSpace(c: char) {
    c == ' ' || c == '\t' || c == '\n' || c == '\r' || c == '\U{000B}' || c == '\U{000C}'
  }

  function TrimStart(s: string): (r: string)
    ensures |r| <= |s| && r == s[|s| - |r|..]
    ensures forall i :: 0 <= i < |s| - |r| ==> IsSpace(s[i])
    ensures r == [] || !IsSpace(r[0])
  {
    if s != [] && IsSpace(s[0]) then TrimStart(s[1..]) else s
  }

  function TrimEnd(s: string): (r: string)
    ensures |r| <= |s| && r == s[..|r|]
    ensures forall i :: |r| <= i < |s| ==> IsSpace(s[i])
    ensures r == [] || !IsSpace(r[|r| - 1])
  {
    if s != [] && IsSpace(s[|s| - 1]) then TrimEnd(s[..|s| - 1]) else s
  }

  /** `s.trim()`: the longest infix with no leading or trailing white space,
      obtained by dropping white space only. */
  function Trim(s: string): (r: string)
    ensures exists i, j :: 0 <= i <= j <= |s| && r == s[i..j]
                           && (forall k :: 0 <= k < i ==> IsSpace(s[k]))
                           && (forall k :: j <= k < |s| ==> IsSpace(s[k]))
    ensures r == [] || (!IsSpace(r[0]) && !IsSpace(r[|r| - 1]))
  {
    var a := TrimStart(s);
    var b := TrimEnd(a);
    var i := |s| - |a|;
    assert b == s[i..i + |b|];
    b
  }

  /** The index of the first `c` in `s`, if any. */
  function IndexOf(s: string, c: char): (r: Option<nat>)
    ensures r.None? <==> c !in s
    ensures r.Some? ==> r.value < |s| && s[r.value] == c && c !in s[..r.value]
  {
    if s == [] then None
    else if s[0] == c then Some(0)
    else match IndexOf(s[1..], c) {
      case None => None
      case Some(k) =>
        assert s[1..][..k] == s[1..k + 1];
        Some(k + 1)
    }
  }

  /** `s.split(c)` for a one-character separator. */
  function Split(s: string, c: char): (r: seq<string>)
    ensures |r| >= 1
    ensures forall i :: 0 <= i < |r| ==> c !in r[i]
    decreases |s|
  {
    match IndexOf(s, c) {
      case None => [s]
      case Some(k) => [s[..k]] + Split(s[k + 1..], c)
    }
  }

  /** `parts.join(c)`: the inverse of `Split`. */
  function Join(parts: seq<string>, c: char): string
    requires |parts| >= 1
  {
    if |parts| == 1 then parts[0] else parts[0] + [c] + Join(parts[1..], c)
  }

  /** Splitting and joining again gives back the original string. */
  lemma {:induction false} JoinSplit(s: string, c: char)
    ensures Join(Split(s, c), c) == s
    decreases |s|
  {
    match IndexOf(s, c) {
      case None =>
      case Some(k) =>
        var parts := Split(s, c);
        assert parts == [s[..k]] + Split(s[k + 1..], c);
        assert parts[1..] == Split(s[k + 1..], c);
        JoinSplit(s[k + 1..], c);
        assert Join(parts, c) == s[..k] + [c] + s[k + 1..];
        assert s == s[..k] + [c] + s[k + 1..];
    }
  }

  /** The first separator of `p + [c] + rest` is the one after `p` when `p`
      has none. */
  lemma IndexOfFirst(p: string, c: char, rest: string)
    requires c !in p
    ensures IndexOf(p + [c] + rest, c) == Some(|p|)
    ensures (p + [c] + rest)[..|p|] == p && (p + [c] + rest)[|p| + 1..] == rest
  {
    var s := p + [c] + rest;
    assert s[|p|] == c;
  }

  /** Splitting a join of separator-free parts gives back the parts. */
  lemma {:induction false} SplitJoin(parts: seq<string>, c: char)
    requires |parts| >= 1
    requires forall i :: 0 <= i < |parts| ==> c !in parts[i]
    ensures Split(Join(parts, c), c) == parts
    decreases |parts|
  {
    if |parts| > 1 {
      var s := Join(parts, c);
      var tail := parts[1..];
      var rest := Join(tail, c);
      assert s == parts[0] + [c] + rest;
      IndexOfFirst(parts[0], c, rest);
      assert Split(s, c) == [parts[0]] + Split(rest, c);
      assert forall i :: 0 <= i < |tail| ==> tail[i] == parts[i + 1];
      SplitJoin(tail, c);
      assert parts == [parts[0]] + tail;
    }
  }

  /** `parts.join(sep)`; an empty list joins to the empty string. */
  function JoinWith(parts: seq<string>, sep: string): (r: string)
    ensures parts == [] ==> r == ""
    ensures |parts| == 1 ==> r == parts[0]
  {
    if parts == [] then ""
    else if |parts| == 1 then parts[0]
    else parts[0] + sep + JoinWith(parts[1..], sep)
  }

  /** Decimal digit characters. */
  function DigitChar(d: nat): char
    requires d < 10
  {
    ('0' as int + d) as char
  }

  /** `n.toString()` for a natural number. */
  function NatToString(n: nat): (r: string)
    ensures |r| >= 1
    ensures forall i :: 0 <= i < |r| ==> '0' <= r[i] <= '9'
    ensures r[0] == '0' ==> n == 0
  {
    if n < 10 then [DigitChar(n)] else NatToString(n / 10) + [DigitChar(n % 10)]
  }

  /** The value of a non-empty string of decimal digits. */
  function DigitsValue(s: string): nat
    requires forall i :: 0 <= i < |s| ==> '0' <= s[i] <= '9'
  {
    if s == [] then 0 else DigitsValue(s[..|s| - 1]) * 10 + (s[|s| - 1] as int - '0' as int)
  }

  /** A canonical array index key: digits only, no leading zero except "0". */
  predicate IsIndexKey(s: string) {
    && |s| >= 1
    && (forall i :: 0 <= i < |s| ==> '0' <= s[i] <= '9')
    && (s[0] == '0' ==> |s| == 1)
  }

  /** The array index a property key denotes, as JavaScript reads `a[k]`. */
  function ParseIndex(s: string): (r: Option<nat>)
    ensures r.Some? <==> IsIndexKey(s)
  {
    if IsIndexKey(s) then Some(DigitsValue(s)) else None
  }

  /** Printing an index and reading it back gives the index. */
  lemma {:induction false} ParsePrintIndex(n: nat)
    ensures ParseIndex(NatToString(n)) == Some(n)
  {
    PrintedIsIndexKey(n);
    DigitsOfPrinted(n);
  }

  lemma {:induction false} DigitsOfPrinted(n: nat)
    ensures DigitsValue(NatToString(n)) == n
  {
    if n >= 10 {
      var s := NatToString(n);
      assert s[..|s| - 1] == NatToString(n / 10);
      DigitsOfPrinted(n / 10);
    }
  }

  lemma {:induction false} PrintedIsIndexKey(n: nat)
    ensures IsIndexKey(NatToString(n))
  {
    if n >= 10 {
      PrintedIsIndexKey(n / 10);
      assert NatToString(n)[0] == NatToString(n / 10)[0];
    }
  }

  /** Distinct indices print as distinct keys. */
  lemma NatToStringInjective(m: nat, n: nat)
    requires m != n
    ensures NatToString(m) != NatToString(n)
  {
    ParsePrintIndex(m);
    ParsePrintIndex(n);
  }
}

=== FILE: users.dfy ===
/** The example user store: a sequence of users with lookup, creation with a
    fresh id, deletion and case-insensitive search. */
module Users {
  import opened Wrappers
  import Store
  import Text

  datatype User = User(id: int, name: string, email: string, age: Option<int>)

  /** A validated creation request. */
  datatype NewUser = NewUser(name: string, email: string, age: Option<int>)

  function Id(u: User): int {
    u.id
  }

  /** The store's contents at start-up. */
  const Initial: seq<User> := [
    User(1, "John Doe", "john@example.com", Some(30)),
    User(2, "Jane Smith", "jane@example.com", Some(25))
  ]

  lemma InitialUnique()
    ensures Store.UniqueIds(Initial, Id)
  {
  }

  /** `getById`: the first user with the id, or null. */
  function GetById(users: seq<User>, id: int): (r: Option<User>)
    ensures r.None? <==> forall i :: 0 <= i < |users| ==> users[i].id != id
    ensures r.Some? ==> exists i :: 0 <= i < |users| && users[i] == r.value && r.value.id == id &&
                                    forall j :: 0 <= j < i ==> users[j].id != id
  {
    Store.Lookup(users, Id, id)
  }

  datatype Created = Created(user: User, users: seq<User>)

  /** `create`: the new user echoes the request, takes an id above every
      existing one (and at least 1), and is appended at the end. */
  function Create(users: seq<User>, input: NewUser): (r: Created)
    ensures r.users == users + [r.user]
    ensures r.user.name == input.name && r.user.email == input.email && r.user.age == input.age
    ensures r.user.id >= 1
    ensures forall i :: 0 <= i < |users| ==> users[i].id < r.user.id
    ensures r.user.id == 1 || exists i :: 0 <= i < |users| && users[i].id == r.user.id - 1
    ensures r.user.id == Store.MaxId(users, Id) + 1
  {
    var u := User(Store.NextId(users, Id), input.name, input.email, input.age);
    Created(u, users + [u])
  }

  datatype Deleted = Deleted(success: bool, users: seq<User>)

  /** `delete`: removes the first user with the id and reports success; an
      unknown id changes nothing. */
  function Delete(users: seq<User>, id: int): (r: Deleted)
    ensures !r.success <==> forall i :: 0 <= i < |users| ==> users[i].id != id
    ensures !r.success ==> r.users == users
    ensures r.success ==> |r.users| == |users| - 1
    ensures r.success ==>
              exists i :: 0 <= i < |users| && users[i].id == id && r.users == users[..i] + users[i + 1..] &&
                          forall j :: 0 <= j < i ==> users[j].id != id
  {
    var (found, rest) := Store.DeleteFirst(users, Id, id);
    Deleted(found, rest)
  }

  /** Creation and deletion keep ids unique; after a successful deletion the
      id is gone, and after a creation the new user is found by its id. */
  lemma StoreInvariant(users: seq<User>, input: NewUser, id: int)
    requires Store.UniqueIds(users, Id)
    ensures Store.UniqueIds(Create(users, input).users, Id)
    ensures GetById(Create(users, input).users, Create(users, input).user.id) == Some(Create(users, input).user)
    ensures Store.UniqueIds(Delete(users, id).users, Id)
    ensures GetById(Delete(users, id).users, id).None?
  {
    var c := Create(users, input);
    Store.AppendFresh(users, Id, c.user);
    assert c.users[|users|] == c.user;
    match Store.FindIndex(users, Id, id) {
      case None =>
      case Some(i) =>
        Store.RemovePreservesUnique(users, Id, i);
    }
  }

  /** The search test: the lower-cased name or email contains the
      lower-cased query. */
  predicate Matches(u: User, query: string) {
    Text.Includes(Text.ToLower(u.name), Text.ToLower(query)) ||
    Text.Includes(Text.ToLower(u.email), Text.ToLower(query))
  }

  /** `search` */
  function Search(users: seq<User>, query: string): (r: seq<User>)
    ensures forall u :: u in r <==> u in users && Matches(u, query)
  {
    Store.FilterSpec(users, [], u => Matches(u, query));
    Store.Filter(users, u => Matches(u, query))
  }

  /** Search keeps the store's order: searching two halves and joining the
      results is searching the whole. */
  lemma SearchKeepsOrder(a: seq<User>, b: seq<User>, query: string)
    ensures Search(a + b, query) == Search(a, query) + Search(b, query)
  {
    Store.FilterSpec(a, b, u => Matches(u, query));
  }

  /** Lower-casing twice is lower-casing once. */
  lemma ToLowerIdempotent(s: string)
    ensures Text.ToLower(Text.ToLower(s)) == Text.ToLower(s)
  {
  }

  /** Search ignores the case of the query, and the empty query finds every
      user. */
  lemma SearchCaseInsensitive(users: seq<User>, query: string)
    ensures Search(users, Text.ToLower(query)) == Search(users, query)
    ensures Search(users, "") == users
  {
    ToLowerIdempotent(query);
    assert forall u :: Matches(u, Text.ToLower(query)) == Matches(u, query);
    Store.FilterCongruent(users, u => Matches(u, Text.ToLower(query)), u => Matches(u, query));
    forall i | 0 <= i < |users| ensures Matches(users[i], "") {
      assert Text.OccursAt(Text.ToLower(users[i].name), "", 0);
    }
    Store.FilterAll(users, u => Matches(u, ""));
  }

  /** A freshly created user is found by searching for its own name. */
  lemma CreatedUserIsFound(users: seq<User>, input: NewUser)
    ensures Create(users, input).user in Search(Create(users, input).users, input.name)
  {
    var c := Create(users, input);
    assert Text.OccursAt(Text.ToLower(input.name), Text.ToLower(input.name), 0);
    assert c.user in c.users by { assert c.users[|users|] == c.user; }
  }
}

=== FILE: wrappers.dfy ===
/** Failure-compatible wrappers shared by every module of the model. */
module Wrappers {

  /** `undefined`/`null` versus a present value. */
  datatype Option<+T> = None | Some(value: T)

  /** A computation that either produced a value or threw. */
  datatype Result<+T, +E> = Ok(value: T) | Err(error: E) {
    predicate IsFailure() {
      Err?
    }

    function PropagateFailure<U>(): Result<U, E>
      requires Err?
    {
      Err(error)
    }

    function Extract(): T
      requires Ok?
    {
      value
    }
  }
}
